=== FILE: README.md ===
# Auction bot core, modelled in Dafny

The system is a Telegram bot that runs auctions of character cards. A user
sends a photo with a caption. The bot checks the caption against the type
and rarity chosen earlier, parses the anime name, the character name and an
optional tag out of it, and stores a **draft**. The user then types a
**base bid**, and a **pending** submission goes to the admins. An admin
**approves** or **rejects** it from a callback button. Approval posts the
item to the group and the channel and starts a three-day clock.

Members of the group place bids with `/bid`. Each bid must top the current
price by at least 5. It is committed with a compare-and-swap on
`current_bid`. Two background tasks act on expired auctions:

- the **sweep** ends approved auctions past their deadline and announces the
  winner;
- the **marker** flags every item past its deadline as `is_expired`.

Admins can also:

- **force-end** an auction at once;
- **remove** items by ObjectId;
- **ban** users globally and unban them.

A user can **list** their own live items. A named **counter** table hands
out auto-increment numbers. An **escaper** prepares text for Telegram's
MarkdownV2 format.

The model keeps the `submissions` collection as a class
(`Store.SubmissionStore`). It holds a map from item id to record and the
collection's natural order. Each handler is a method on that store, proved
against a specification function for its guard chain and for the record it
writes. The per-user session dictionary is a class too (`Session.UserData`).
So are the ban collection (`GlobalBans.BanCollection`) and the counters
(`IdGenerator.Counters`). The caption parser, the `/bid` argument parser
and the escaper are pure functions.

Files, one module each:

| file | module | models |
|---|---|---|
| common.dfy | Common | Option, Python truthiness and `or` on optional fields |
| strings.dfy | Strings | ASCII `isdigit`, `strip` on Python's whitespace, `int()` with underscore grouping, `str()`, `split`, `join`, ASCII `lower` and `upper` |
| models.dfy | Models | `Submission`, `User` and `GlobalBan` records and defaults; ObjectId validation |
| store.dfy | Store | the `submissions` collection: insert, update, delete, find |
| session.dfy | Session | `context.user_data` |
| logger.dfy | Logger | `escape_markdown` |
| id_generator.dfy | IdGenerator | `get_next_sequence` |
| global_ban.dfy | GlobalBans | `is_admin_or_owner`, `/aban`, `/unaban` |
| auction_bid.dfy | AuctionBid | `/bid` |
| auction_expiry.dfy | AuctionExpiry | `check_expired_auctions` |
| cleanup.dfy | Cleanup | one pass of `remove_expired_bids` |
| forceend.dfy | ForceEnd | `/forceend` |
| approval.dfy | Approval | the approve/reject callback |
| photo_handler.dfy | PhotoHandler | `handle_photo` and its caption parser |
| bid_handler.dfy | BaseBid | `handle_base_bid` |
| rm.dfy | Remove | `/rm` |
| my_items.dfy | MyItems | the `/myitems` type callback |

Choices the model makes:

- **Item ids.** The code uses two id schemes. Approval, `/bid` and
  `/forceend` look items up by an integer from the counter table. The photo
  and base-bid steps insert documents under fresh ObjectIds, and `/rm` takes
  ObjectIds.
  - The model keys items by integers and reads an ObjectId as the number its
    24 hex digits spell (`Models.ValidateObjectId`). Both schemes thus
    address one key space.
  - A fresh key for `insert_one` is a parameter that must not be in use.
  - In the running system, the callback of a pending item carries its
    ObjectId text. `int()` of that text fails, so approving such an item
    ends at "Invalid item ID" unless the hex happens to be all digits. The
    model keeps the `int()` parse, so `Approval.CheckApproval` refuses such
    text the same way.
  - An integer `_id` lookup never matches a document stored under an
    ObjectId. The states that `Approval.DraftIsApprovable` and
    `MyItems.ApprovedDraftIsListed` describe (a draft or a photo-step record
    that was approved) are reached in the running system only for documents
    stored under integer keys.
- **Absent fields.** A missing field and a field holding None are both
  `None`. Every query and `.get` the core uses treats them alike.
- **Records of two shapes.** The photo step stores the record model's
  defaults and a string `user_id`. The base-bid step stores a plain
  dictionary with an integer `user_id` and no deadline, `is_expired` or
  `current_bid`.
  - `Models.UserRef` keeps the two `user_id` forms apart, because Mongo
    never matches a string against an integer.
- **Telegram.** Every Bot API call is outside the model. Where a call's
  success decides a store write or a reply, it is a parameter:
  - the group and channel post ids on approval;
  - the log post in the base-bid step;
  - the membership lookups;
  - the group announcement in `/forceend`.
  - The sweep's messages are returned as a list of attempted notices, with
    the failed ones as a parameter.
- **Time.** Timestamps are integers, in seconds. The three days are
  `Models.AUCTION_DURATION`.

Behaviours of the code that a reader might not expect, which the model
keeps:

- **`/bid` gate.** `/bid` checks no `approved` status and no deadline. Any
  status outside ended/sold/cancelled takes bids
  (`AuctionBid.NoApprovedOrDeadlineCheck`).
- **Approval and `pending`.** Approval does not require status `pending`. A
  draft, or an ended item, can be approved (`Approval.DraftIsApprovable`).
- **Force-end deadline.** `/forceend` overwrites `expires_at` with the
  current time (`ForceEnd.ForceEndedIsFinal`).
- **The marker and the sweep.** The marker flags items without ending
  them. The sweep then never selects a flagged item, so it stays
  "approved" for good (`Cleanup.MarkerPreemptsSweep`). Drafts carry the
  model's three-day deadline and are flagged too
  (`PhotoHandler.DraftIsMarkedAfterThreeDays`).
- **Pending records.** They carry no deadline, so neither task ever selects
  one. This holds even after an approval whose channel post failed
  (`BaseBid.PendingRecordIsNeverSwept`, `Approval.ApprovedWithoutChannelPost`).

Two behaviours of the code are modelled as written and then corrected; the
rest of the model uses the corrected form (see Findings):

- **Ban check in `/bid`.** `/bid` looks bans up by the string form of the
  user id. The ban records hold integers, so that lookup never finds one.
  `AuctionBid.CheckUserStatusAsWritten` models the lookup as written.
  `AuctionBid.CheckBid` and `AuctionBid.BidCommand` use the corrected
  integer lookup, `AuctionBid.CheckUserStatus`, so in the model a banned
  user is refused.
- **Item lookup on approval.** The approval callback reads an undefined
  name before any write. `Approval.CheckApprovalAsWritten` models that
  stop; `Approval.CheckApproval` and `Approval.ApprovalHandler` look the
  item up by the parsed id.

## Model

| member | source | states |
|---|---|---|
| Models.NewSubmission | models/tables.py:80-105 | the record model's defaults: status "pending" unless given, `is_expired` False, `current_bid` 0, no previous bidders, `expires_at` three days after creation, every optional field None |
| Models.NewUser | models/tables.py:112-118 | a user starts not banned, first and last seen at creation |
| Models.NewGlobalBan | models/global_ban.py:40-45 | a ban record keeps its two required integers, has no reason and is stamped with its creation time |
| Models.ValidateObjectId | models/tables.py:69-73 | an ObjectId results exactly when the text is a valid ObjectId (24 hex digits), and it is below 16^24 |
| Store.SubmissionStore.Insert | handlers/photo_handler.py:109 | `insert_one` under an unused key adds exactly that document, last in natural order |
| Store.SubmissionStore.Put | tasks/auction_expiry.py:133-136 | `update_one` on an existing key replaces that document only; the order is kept |
| Store.SubmissionStore.Delete | handlers/rm.py:46 | `delete_one` removes that key from the map and from the order |
| Store.Select | tasks/auction_expiry.py:12-18 | `find` returns exactly the keys whose documents match, each once, and in natural order: any two keys of the result appear in that order in the collection |
| Session.TextAt | handlers/bid_handler.py:41-48 | `user_data.get(key)` as a string: present exactly when the key holds text |
| Session.UserData.Update | handlers/photo_handler.py:113-124 | `update` overwrites the given keys and keeps every other key |
| Session.UserData.Set | handlers/bid_handler.py:33 | one key set |
| Session.UserData.Pop | handlers/bid_handler.py:34 | the key is gone afterwards, present or not before |
| Session.UserData.Clear | handlers/bid_handler.py:94 | the dictionary is empty |
| Strings.UnderscoreBetweenDigitsIgnored | handlers/auction_bid.py:97-99 | `int()` ignores an underscore between two runs of digits: "1_000" parses as 1000 |
| Strings.MisplacedUnderscoreRefused | handlers/auction_bid.py:97-102 | `int()` refuses a leading, a trailing or a doubled underscore |
| Logger.RemoveInvisible | utils/logger.py:16 | the result has no U+200B, U+200C, U+200D or U+FEFF and is no longer than the input |
| Logger.EscapeSpecials | utils/logger.py:19 | the result is one character longer per special character and adds no invisible character |
| Logger.EscapeMarkdown | utils/logger.py:8-19 | empty or None input gives ""; the output has no invisible character; its length is the filtered length plus the number of special characters |
| Logger.UnescapeEscapeSpecials | utils/logger.py:19 | deleting each backslash that precedes a special character gives the substitution's input back |
| Logger.EscapeMarkdownRoundTrip | utils/logger.py:12-19 | unescaping the output gives the input without its invisible characters: everything else passes through in order |
| Logger.SpecialsArePrefixed | utils/logger.py:6-19 | every special character of the output has a backslash right before it |
| Logger.BackslashCount | utils/logger.py:19 | the output holds exactly one more backslash per special character than the input |
| Logger.EscapeMarkdownBackslashBreaks | utils/logger.py:6-19 | as written, an input backslash before a special character makes the output unreadable as MarkdownV2 |
| Logger.EscapeMarkdownV2 | utils/logger.py:8-19 | corrected escaper: empty or None gives "", and the output has no invisible character |
| Logger.EscapeMarkdownV2ReadsBack | utils/logger.py:6-19 | with backslash escaped too, every text reads back under MarkdownV2 as itself minus invisible characters |
| IdGenerator.Bump | utils/id_generator.py:6-11 | the `$inc` with upsert: the named counter goes up by one (a missing one starts from 0), every other counter is unchanged |
| IdGenerator.IssuedConsecutive | utils/id_generator.py:4-12 | k successive calls return the stored value plus 1, 2, …, k: strictly increasing and distinct |
| IdGenerator.BumpTimesFrame | utils/id_generator.py:7 | calls for one name never change the counter of another |
| IdGenerator.Counters.GetNextSequence | utils/id_generator.py:4-12 | returns the post-increment value and leaves the table as `Bump` describes |
| GlobalBans.FindBan | handlers/global_ban.py:42 | `find_one` returns the first record whose `user_id` equals the key, or none when no record does |
| GlobalBans.FindBanIffBanned | handlers/global_ban.py:42-43 | an integer lookup finds a record exactly when the user is banned |
| GlobalBans.RemoveFirst | handlers/global_ban.py:98 | `delete_one` removes one record of a banned user, nothing otherwise, and leaves every other user's ban as it was |
| GlobalBans.IsAdminOrOwner | handlers/global_ban.py:10-11 | the user is the owner or in the admin list |
| GlobalBans.ResolveTarget | handlers/global_ban.py:24-31 | the sender of the replied-to message; else `int` of the first argument when it parses and the chat is found, and "Invalid user ID" otherwise; a reply without a sender ends the handler |
| GlobalBans.Reason | handlers/global_ban.py:39 | the arguments after the first, joined by spaces, or "No reason provided." when there are none |
| GlobalBans.AbanOutcome | handlers/global_ban.py:15-55 | the guards in the code's order, each both ways: a non-admin is refused; an admin with no argument and no reply gets the usage text; then the target error, self-ban, admin target or "already banned" reply; otherwise a ban with the reason from the arguments |
| GlobalBans.UnabanOutcome | handlers/global_ban.py:73-98 | a non-admin is refused; an admin with no argument and no reply gets the usage text; then the target error; otherwise an unban exactly for a banned target and "not banned" exactly for one who is not |
| GlobalBans.AbanKeepsUnique | handlers/global_ban.py:41-55 | `aban` never creates a second record for a user |
| GlobalBans.AbanBans | handlers/global_ban.py:49-55 | a successful ban adds exactly one record and the target is banned |
| GlobalBans.RemoveFirstClears | handlers/global_ban.py:91-98 | with one record per user, an unban leaves the user without a record |
| GlobalBans.RemoveFirstKeepsUnique | handlers/global_ban.py:91-98 | an unban keeps the collection at one record per user |
| GlobalBans.BanThenUnbanRestores | handlers/global_ban.py:50-98 | adding a record for an unbanned user and then deleting it gives the same ban list back |
| GlobalBans.AbanThenUnaban | handlers/global_ban.py:15-98 | `/aban` followed by a successful `/unaban` of the same target restores the ban set |
| GlobalBans.ReasonSkipsFirstArgument | handlers/global_ban.py:39 | the reason drops the first argument even in reply form, and defaults to "No reason provided." |
| GlobalBans.BanCollection.Aban | handlers/global_ban.py:15-69 | the reply is `AbanOutcome` and the collection gains the record exactly when a ban is added |
| GlobalBans.BanCollection.Unaban | handlers/global_ban.py:73-110 | the reply is `UnabanOutcome`; after an unban the target has no record |
| AuctionBid.CheckUserStatusMissesBans | handlers/auction_bid.py:31-35 | as written, the string-keyed lookup finds no ban, even for a user with an integer ban record |
| AuctionBid.CheckUserStatusFindsBans | handlers/auction_bid.py:31-35 | corrected, the integer-keyed lookup finds exactly the banned users |
| AuctionBid.IsMember | handlers/auction_bid.py:19-28 | a member exactly when both lookups succeed and neither status is "left" or "kicked" |
| AuctionBid.CheckUserStatusAsWritten | handlers/auction_bid.py:31-35 | as written: a ban record is looked up under the decimal string of the user id |
| AuctionBid.CheckUserStatus | handlers/auction_bid.py:31-35 | corrected: a ban record is looked up under the integer user id |
| AuctionBid.ReplyItemId | handlers/auction_bid.py:75-82 | the caption, else the text, of the replied-to message must contain "🆔 Item ID:"; the id is `int` of what follows the first marker up to the newline, stripped; None when any step fails |
| AuctionBid.Closed | handlers/auction_bid.py:114-116 | `is_expired` truthy or status ended, sold or cancelled |
| AuctionBid.OwnedBy | handlers/auction_bid.py:119 | the string form of the stored `user_id` equals the decimal string of the bidder's id |
| AuctionBid.DisplayName | handlers/auction_bid.py:142 | the stored bidder name is "@username" when there is one, else the first name |
| AuctionBid.ReplyItemIdOfCaption | handlers/auction_bid.py:75-82 | a caption written "🆔 Item ID: n" and a newline gives back item id n |
| AuctionBid.ParseBidArgs | handlers/auction_bid.py:74-102 | without a reply, fewer than two arguments is a usage error and both must parse; with a reply, the id comes from the caption and the amount from the first argument |
| AuctionBid.MinNextBid | handlers/auction_bid.py:124-128 | the minimum is `current_bid` + 5, or `base_bid` + 5 when `current_bid` is absent, or 5 |
| AuctionBid.ItemGate | handlers/auction_bid.py:109-133 | an unknown id is refused; a commit is reached only for an open item not owned by the bidder with an amount at least the minimum, and expects the `current_bid` it read |
| AuctionBid.CheckBid | handlers/auction_bid.py:39-133 | the guards in the code's order, each both ways: a banned user is refused; then a non-member must join; then a chat other than the group is refused; then an argument error gives its reply, and a zero or missing id or amount "could not determine item ID"; otherwise the item gate decides. A commit carries exactly the id and amount the arguments parse to. The ban lookup is the corrected integer one (see Findings) |
| AuctionBid.ApplyBid | handlers/auction_bid.py:136-154 | a bid sets the price and the last bidder, and appends exactly one entry to `previous_bidders`; no other field changes |
| AuctionBid.ConflictReply | handlers/auction_bid.py:157-167 | a lost race reports `current_bid or base_bid` and that plus 5, or the catch-all failure when there is none |
| AuctionBid.CommitBid | handlers/auction_bid.py:136-213 | the write happens exactly when `current_bid` still holds the value read; otherwise the store is unchanged and the conflict reply is given. After the write, the reply is "placed" only when the refreshed caption builds; a record whose `type` is None raises in `capitalize()` and gets the catch-all reply, with the write kept |
| AuctionBid.BidCommand | handlers/auction_bid.py:39-213 | a refusal changes nothing; an accepted bid applies to exactly the checked item, and is reported as placed unless the item's `type` is None, when the catch-all answers after the write. The ban lookup is the corrected integer one (see Findings) |
| AuctionBid.MinimumIncrementBoundary | handlers/auction_bid.py:128-133 | at a current bid of 100, 104 is refused with minimum 105 and 105 is accepted |
| AuctionBid.AcceptedIffMinimum | handlers/auction_bid.py:131-133 | past the ended and owner checks, a bid is accepted exactly when it reaches the minimum |
| AuctionBid.AcceptedBidRaisesPrice | handlers/auction_bid.py:124-140 | an accepted bid raises a present price by at least 5 |
| AuctionBid.OwnerCannotBid | handlers/auction_bid.py:119-121 | the owner is refused, whether the record holds the id as a string or an integer |
| AuctionBid.OthersAreNotOwners | handlers/auction_bid.py:119 | anyone else passes the owner check |
| AuctionBid.NoApprovedOrDeadlineCheck | handlers/auction_bid.py:114-116 | changing the status (outside ended/sold/cancelled) or the deadline does not change the outcome |
| AuctionBid.DefaultCurrentBidIgnoresBase | models/tables.py:102 | a record with the default `current_bid` of 0 has minimum 5 whatever its base bid |
| AuctionBid.MissingCurrentBidUsesBase | handlers/auction_bid.py:124-126 | with no `current_bid`, the minimum is the base bid + 5 |
| AuctionBid.ArgumentRules | handlers/auction_bid.py:90-106 | fewer than two arguments is a usage error, an unparsable one a format error, a zero id or amount "could not determine item ID" |
| AuctionBid.ReplyWithoutIdOrAmount | handlers/auction_bid.py:75-106 | a reply whose caption yields no id, or with no amount, is refused |
| AuctionBid.ValidBidIsCommitted | handlers/auction_bid.py:74-154 | a non-banned member bidding in the group, with a non-zero id and amount that parse, on an open item not their own, at least the minimum, is committed against the price read; the write then changes that item's price, last bidder and history (one entry appended) and nothing else, and leaves every other item as it was |
| AuctionExpiry.EndAuction | tasks/auction_expiry.py:133-136 | the sweep sets `is_expired` True and status "ended"; every other field is unchanged |
| AuctionExpiry.SweepSelects | tasks/auction_expiry.py:12-16 | status "approved", `is_expired` not True (a missing flag matches) and a deadline at or before now |
| AuctionExpiry.WinnerOf | tasks/auction_expiry.py:34-37 | the winner is `last_bidder_id` when truthy, else "No Winner" |
| AuctionExpiry.ContactButtons | tasks/auction_expiry.py:55-59 | a seller button when `user_id` is truthy, then a winner button when `last_bidder_id` is |
| AuctionExpiry.ItemNotices | tasks/auction_expiry.py:62-130 | the group announcement comes first, one further message per condition that holds, and the log post last when there is a log group |
| AuctionExpiry.ItemNoticesKinds | tasks/auction_expiry.py:62-130 | a channel edit is attempted exactly when both channel fields are set, a winner message exactly when there is a winner, a seller message exactly when there is a seller, a log post exactly when there is a log group |
| AuctionExpiry.Delivered | tasks/auction_expiry.py:63-130 | the messages sent are those attempted minus the failed ones, each failure on its own |
| AuctionExpiry.Swept | tasks/auction_expiry.py:9-142 | the pass keeps every key |
| AuctionExpiry.CheckExpiredAuctions | tasks/auction_expiry.py:9-144 | one pass leaves the store as `Swept` says and sends the notices of the items processed to the end |
| AuctionExpiry.SweepItems | tasks/auction_expiry.py:24-142 | going through distinct selected ids in order leaves the store as `PartlySwept` says and sends exactly `SweepNotices`; the natural order is unchanged |
| AuctionExpiry.ProcessItem | tasks/auction_expiry.py:26-142 | an item whose processing raises is left as it was and sends nothing; any other is ended and its messages that do not fail go out |
| AuctionExpiry.SweptEndsSelected | tasks/auction_expiry.py:12-16 | a selected item that does not raise is ended; every other item is untouched |
| AuctionExpiry.EmptySelectionNoChange | tasks/auction_expiry.py:20-22 | with nothing selected the store is unchanged |
| AuctionExpiry.SecondRunSelectsOnlyFaulty | tasks/auction_expiry.py:14 | after a pass, the sweep selects exactly the selected items whose processing raised |
| AuctionExpiry.SecondRunNoChange | tasks/auction_expiry.py:14-135 | a second pass at the same time after a clean one changes nothing |
| AuctionExpiry.NoWinnerNoMessage | tasks/auction_expiry.py:37-90 | without a last bidder the winner shows as "No Winner" and no winner message is attempted |
| AuctionExpiry.MarkupOnlyWithParties | tasks/auction_expiry.py:55-60 | there is no markup exactly when there is neither a seller nor a winner |
| Cleanup.MarkExpired | tasks/cleanup.py:36-39 | the marker sets `is_expired` True and keeps the status and every other field |
| Cleanup.MarkerSelects | tasks/cleanup.py:18-21 | a deadline at or before now and `is_expired` exactly False (a missing flag does not match); the status is not consulted |
| Cleanup.FirstCrash | tasks/cleanup.py:23-39 | the position of the first item whose edit raises something other than `BadRequest` |
| Cleanup.Marked | tasks/cleanup.py:23-39 | flagging keeps every key |
| Cleanup.RemoveExpiredBidsPass | tasks/cleanup.py:15-39 | one pass flags the selected items in order up to the first uncaught exception, and reports whether one occurred |
| Cleanup.MarkItems | tasks/cleanup.py:23-39 | the items of the selection are flagged in order up to the first one that raises an uncaught exception, and the result says whether one did |
| Cleanup.MarkOne | tasks/cleanup.py:36-39 | the flagging write replaces exactly the one stored document, with only its `is_expired` changed |
| Cleanup.MarkedKeepsStatus | tasks/cleanup.py:36-39 | no status is ever changed, and unselected items are untouched |
| Cleanup.MarkedNeverSwept | tasks/cleanup.py:36-39 | a flagged item is never selected by the sweep again |
| Cleanup.MarkerPreemptsSweep | tasks/cleanup.py:18-39 | an approved item that the marker flags stays "approved" through any later sweep |
| Cleanup.RepeatedPassNoChange | tasks/cleanup.py:18-21 | after a pass, a second pass at the same time selects nothing |
| ForceEnd.ParseForceEndId | handlers/forceend.py:24-31 | all digits gives that integer; otherwise a valid ObjectId gives its value; anything else is rejected |
| ForceEnd.CheckForceEnd | handlers/forceend.py:11-41 | a non-admin is ignored; exactly one argument is required; only a known approved item proceeds |
| ForceEnd.ForceEndRecord | handlers/forceend.py:43-51 | `is_expired` True, status "ended", `expires_at` overwritten with now, nothing else changed |
| ForceEnd.ForceNotices | handlers/forceend.py:77-92 | the group announcement with the sweep's markup comes first |
| ForceEnd.ForceNoticesKinds | handlers/forceend.py:86-150 | the channel edit is attempted exactly when `channel_message_id` is truthy, the winner message exactly when there is a winner, the seller message exactly when there is a seller, and the log post exactly when there is a log group, last |
| ForceEnd.ForceEndCommand | handlers/forceend.py:11-160 | a refusal changes nothing; otherwise exactly the checked item is written before any message, and a failed announcement stops the messages but not the write |
| ForceEnd.OnlyApprovedEnds | handlers/forceend.py:39-41 | a found item is refused as not active exactly when its status is not "approved" |
| ForceEnd.IdFormats | handlers/forceend.py:24-31 | the format is rejected exactly when the argument is neither all digits nor a valid ObjectId |
| ForceEnd.ForceEndedIsFinal | handlers/forceend.py:43-51 | the deadline becomes now; the item is closed to bids and never swept |
| ForceEnd.SecondForceEndRefused | handlers/forceend.py:39-51 | a second `/forceend` of the same item is refused |
| ForceEnd.ReportedWinner | handlers/forceend.py:60-63 | the winner reported is the last bidder, or "No Winner" |
| Approval.CheckApprovalAsWritten | handlers/approval_handler.py:39-57 | as written, every callback with a parsable id stops at the undefined name, so nothing is ever decided |
| Approval.CheckApproval | handlers/approval_handler.py:39-73 | fewer than two parts is silent; a decision needs a parsable id, a known item, an admin and a status other than approved/rejected; approved or rejected items are refused exactly; "approve" approves, any other action rejects |
| Approval.ApproveRecord | handlers/approval_handler.py:94-176 | status "approved"; `group_message_id` only with a group post; channel id, message id, a deadline three days on and `is_expired` False only with a channel post; every other field unchanged |
| Approval.RejectRecord | handlers/approval_handler.py:209-211 | reject writes the status "rejected" and nothing else |
| Approval.ApprovalHandler | handlers/approval_handler.py:33-211 | the store afterwards is `AfterApproval` of the store before; a refusal changes nothing; a decision writes the approve or reject record to exactly that item, in the code's order of writes |
| Approval.AfterApproval | handlers/approval_handler.py:33-211 | the collection after one callback, the post-state of ApprovalHandler; it keeps every key |
| Approval.RepeatedDecisionIsNoOp | handlers/approval_handler.py:70-73 | a second callback on a decided item, by anyone, is refused and changes nothing; an admin is told it is already decided |
| Approval.OnlyAdminsDecide | handlers/approval_handler.py:65-68 | a caller who is neither owner nor admin decides nothing |
| Approval.DraftIsApprovable | handlers/approval_handler.py:71 | a draft is approved like any other item |
| Approval.ApprovedItemExpiresAfterThreeDays | handlers/approval_handler.py:164-176 | after an approval with a channel post, the sweep selects the item exactly from three days on |
| Approval.ApprovedWithoutChannelPost | handlers/approval_handler.py:164-176 | after an approval whose channel post failed, an item without a deadline is never swept |
| Approval.ApprovalNameErrorCounterexample | handlers/approval_handler.py:57 | the as-written handler stops where the corrected one approves a pending item |
| PhotoHandler.RarityName | handlers/photo_handler.py:98 | `RARITY_MAP.get(key, "Unknown")` |
| PhotoHandler.FirstRarityIn | handlers/photo_handler.py:58 | the first table entry, in table order, that occurs in the caption |
| PhotoHandler.CaptionLines | handlers/photo_handler.py:70 | every line is non-empty and already stripped |
| PhotoHandler.DropCountTail | handlers/photo_handler.py:76 | the result is a prefix of the line, and what it cut is a trailing "digits/digits" count |
| PhotoHandler.CountTailFromLeftmost | handlers/photo_handler.py:76 | the cut falls at a count tail, no earlier position starts one, and no cut is made only when no position does |
| PhotoHandler.AnimeNameOf | handlers/photo_handler.py:71-76 | the second line without its count, stripped; "Unknown" with fewer lines |
| PhotoHandler.WaifuNameOf | handlers/photo_handler.py:72-83 | the text after the first ":" of the third line up to the next ":", cut before "x1" and stripped; the whole line without ":"; "Unknown" with fewer lines |
| PhotoHandler.OptionalTagOf | handlers/photo_handler.py:73-87 | the last of at least four lines unless it mentions "RARITY" in any case; else "—" |
| PhotoHandler.CheckPhoto | handlers/photo_handler.py:14-67 | a session without type or rarity is refused; acceptance needs the type word to agree, and the first rarity found to be the one picked |
| PhotoHandler.DraftInfo | handlers/photo_handler.py:92-104 | the draft's fields: `user_id` as a string, the parsed names and tag, the caption and file id |
| PhotoHandler.DraftRecord | handlers/photo_handler.py:92-106 | status "draft" with the record model's deadline three days on and `is_expired` False |
| PhotoHandler.PhotoSession | handlers/photo_handler.py:113-124 | the session keeps the type as picked and sets `awaiting_bid` |
| PhotoHandler.HandlePhoto | handlers/photo_handler.py:12-124 | a refusal changes nothing; an acceptance inserts one draft and updates the session |
| PhotoHandler.SaveDraft | handlers/photo_handler.py:109-124 | the draft is stored under the fresh id at the end of the natural order, and the session gains exactly the given fields |
| PhotoHandler.TypeWordMustMatch | handlers/photo_handler.py:50-56 | "waifu" in the caption is refused unless the type is "waifu"; likewise "husbando" |
| PhotoHandler.FirstRarityDecides | handlers/photo_handler.py:50-67 | once the type words in the caption agree with the type picked, the first rarity found decides: accepted when it is the one picked, a mismatch otherwise |
| PhotoHandler.LineWithoutCountKept | handlers/photo_handler.py:76 | a second line without "/" is kept whole |
| PhotoHandler.WaifuNameOfLabelledLine | handlers/photo_handler.py:77-81 | a third line "label: name" gives the name |
| PhotoHandler.PhotoSessionMatchesDraft | handlers/photo_handler.py:113-124 | the session fields read back as the draft's fields |
| PhotoHandler.DraftIsMarkedAfterThreeDays | handlers/photo_handler.py:92-106 | a draft is flagged by the marker exactly from three days after its creation |
| BaseBid.CheckBaseBid | handlers/bid_handler.py:18-32 | ignored outside a private chat or without `awaiting_bid`; taken exactly when the stripped text is all digits, as its value |
| BaseBid.PendingInfo | handlers/bid_handler.py:37-48 | `user_id` as an integer and the descriptive fields read from the session |
| BaseBid.PendingRecord | handlers/bid_handler.py:37-52 | status "pending" with the base bid, and no deadline, `is_expired` or `current_bid` |
| BaseBid.LogCaptionBuilds | handlers/bid_handler.py:59-70 | the log caption builds exactly when `type` holds a string and `anime_name`, `waifu_name`, `rarity` and `optional_tag` are in the session |
| BaseBid.AfterTake | handlers/bid_handler.py:33-34 | `base_bid` set, `awaiting_bid` gone, everything else kept |
| BaseBid.HandleBaseBid | handlers/bid_handler.py:18-94 | a refusal changes nothing; a taken number inserts exactly one new pending record, leaves the draft alone, and clears the session unless the log caption raises |
| BaseBid.NumberIsTaken | handlers/bid_handler.py:25-32 | a number typed with blanks around it is taken as that number |
| BaseBid.SignedNumberRefused | handlers/bid_handler.py:27-30 | a signed number is refused |
| BaseBid.PendingRecordIsNeverSwept | handlers/bid_handler.py:37-55 | neither the sweep nor the marker selects a pending record, approved or not; its minimum bid comes from the base bid |
| BaseBid.TextAfterTake | handlers/bid_handler.py:33-34 | the photo step's entries survive taking the number |
| BaseBid.PendingCopiesDraft | handlers/bid_handler.py:37-70 | the pending record copies the draft's descriptive fields but stores the owner as an integer, and its log caption builds |
| Remove.FirstInvalid | handlers/rm.py:23-28 | the first argument that is not an ObjectId, after only valid ones |
| Remove.IdsOf | handlers/rm.py:22-25 | the ids the arguments spell, in order |
| Remove.DeletedCount | handlers/rm.py:30-47 | the count is at most the number of ids given |
| Remove.ParseObjectIds | handlers/rm.py:22-28 | stops at the first invalid argument, else returns every id |
| Remove.DeleteFound | handlers/rm.py:30-47 | every listed id is gone afterwards; the count is the number of distinct listed ids that were present |
| Remove.DeleteIfPresent | handlers/rm.py:33-47 | afterwards the id names no document, and the answer says whether it named one before |
| Remove.RmItems | handlers/rm.py:9-52 | non-admins are ignored; no arguments is a usage error; an invalid id deletes nothing; otherwise the listed ids are deleted and the count or "no matching items" reported |
| Remove.RepeatedIdCountsOnce | handlers/rm.py:32-47 | a repeated id is deleted and counted once |
| Remove.CountBoundedByStore | handlers/rm.py:30-47 | the count is at most the number of documents |
| Remove.NoMatchIffZero | handlers/rm.py:49-52 | "no matching items" exactly when no listed id names a document |
| MyItems.SelectedTypeOf | handlers/my_items.py:32 | the second ":"-piece of the callback data, which holds no ":" |
| MyItems.Listed | handlers/my_items.py:31-40 | `user_id` holds the caller's id as a string, the type is the one selected, the status is "approved" and `is_expired` is exactly False |
| MyItems.DisplayedBid | handlers/my_items.py:62 | `current_bid` if truthy, else `base_bid` if truthy, else 0 |
| MyItems.EntryOf | handlers/my_items.py:60-63 | the line shows `waifu_name`, else `anime_name`, and the displayed bid |
| MyItems.MyItemsTypeHandler | handlers/my_items.py:27-65 | "no items" exactly when nothing matches; otherwise one line per match, in natural order, at most 100 |
| MyItems.SelectedTypeOfCallback | handlers/my_items.py:15-16 | the data `myitems_type:<t>` selects `t` |
| MyItems.ApprovedDraftIsListed | handlers/my_items.py:35-40 | a draft approved with its channel post is listed for its owner and type, and no longer once flagged expired |
| MyItems.PendingRecordNeverListed | handlers/my_items.py:31-40 | a record from the base-bid step holds an integer `user_id`, so it is never listed, even when approved and live |
| MyItems.ZeroBidShowsBase | handlers/my_items.py:62 | a current bid of 0 shows the base bid |

## Left out

- Bot API calls: sends, edits, pins, unpins, message deletions, `get_chat` and `get_chat_member`. Their success is a parameter where it decides a store write or a reply. `unpin_after_delay` and its JobQueue scheduling are not modelled.
- Presentation: HTML and caption texts, keyboards and URLs. The sweep's and force-end's messages keep only the chat they go to and the markup's buttons.
- The `while True` / `sleep` loops of `start_expiry_task` and `remove_expired_bids`, and `asyncio.sleep(1)`. One pass is modelled.
- Concurrency between actors. The `/bid` compare-and-swap is a sequential conditional update. The sweep and force-end write without a condition, so no exactly-once settlement is claimed.
- `safe_split`, `is_private_chat`, `is_member` (the photo step's), `RARITY_MAP` and `build_user_link` are not part of this model.
  - The split callback data is a parameter.
  - The chat and membership checks are booleans.
  - The rarity table is a parameter, in the map's iteration order.
- `has_started_bot`, `recheck_bid`, the `/myitems` keyboard command, `log_user_start`, utils/database.py, main.py, config.py, handlers/status.py and handlers/get_file_id.py are outside the core.
- Python's `int()` and `isdigit()` are modelled on ASCII digits only. Other Unicode decimal digits, which both accept, are not. `lower()` and `upper()` are modelled on ASCII letters only. `strip()` and `int()` do use the full whitespace set of `str.isspace()`, and `int()` accepts underscore grouping.
- `ObjectId.is_valid` is modelled on strings only, as 24 hex digits.
- The regular expression `\s*\d+/\d+\.?\s*$` is modelled by a direct reading of its one match shape (`PhotoHandler.IsCountTail`), not by a regex engine.
- PhotoHandler.DraftInfo: pydantic's coercion of a non-string `type` or `rarity` is not modelled. Such a value is stored as None.
- `submission_id` in the session is the item key. In the bot it is the ObjectId text.
- AuctionBid.BidCommand: the reply after a committed bid assumes `build_user_link(user)` returns. utils/tg_links.py is not part of this model, and this call passes one argument where forceend.py passes two. If it raised, the catch-all reply would follow the write. The two caption edits are Bot API calls whose failures are caught.
- Approval.ApprovalHandler: the `type.capitalize()` on a record without a string `type`, which raises before any write, is not modelled. The admin caption edit afterwards is left out as well.
- BaseBid.HandleBaseBid: the log caption raises when a session key is missing. Only the keys it subscripts are modelled, and only whether it raises.
- ForceEnd.ForceEndCommand: a raise while building the announcement (a non-string `type`) is folded into the `announced` parameter. Telegram failures of the later sends are caught and change nothing.
- `channel_id` is declared an optional string in the record model (models/tables.py:96), but approval's `$set` writes the integer `CHANNEL_ID` (config.py:11) straight to the collection. The model types the field as an optional integer, the only value the core ever stores in it (the record model leaves it None).
- Sold and cancelled statuses are never written by the core. They appear only in the `/bid` blacklist.
- Timestamps are integers. `last_bid_time` and ban timestamps carry the time given.
- Store.SubmissionStore.Put: `$set` and `$push` are modelled as replacing the whole record with the updated one. The contracts of the callers state which fields change.

## Findings

| source | as written | input that shows it | evidently intended | confidence | as-written member | corrected member |
|---|---|---|---|---|---|---|
| handlers/auction_bid.py:32 | `check_user_status` looks bans up with `str(user_id)`, while `/aban` stores the integer id, so the lookup never matches | a user banned with `/aban`, whose record has `user_id` 42, sends `/bid`: the lookup for "42" finds nothing and the bid proceeds | look bans up by the integer id, so banned users are refused | not executed | AuctionBid.CheckUserStatusMissesBans | AuctionBid.CheckUserStatusFindsBans (the lookup used by AuctionBid.CheckBid and AuctionBid.BidCommand) |
| handlers/approval_handler.py:57 | the lookup reads `int(submission_id)`, a name not defined in the handler, so every callback with a parsable id raises `NameError` before any write | callback data `approve_7` from the owner for a pending item 7 | look the item up by the parsed `item_id` | not executed | Approval.ApprovalNameErrorCounterexample | Approval.ApprovalHandler |
| utils/logger.py:6-19 | backslash is not in the special list, so an input backslash is copied as is and then escapes the backslash inserted before a following special character | the text `\_` becomes `\\_`, which MarkdownV2 reads as a backslash followed by an unescaped `_` | escape backslash as well, as the MarkdownV2 rules require | not executed | Logger.EscapeMarkdownBackslashBreaks | Logger.EscapeMarkdownV2ReadsBack |

=== FILE: approval.dfy ===
/** The approve/reject callback (handlers/approval_handler.py). The callback
    data has already been split by `safe_split` (not part of this model):
    `parts` is its result, empty when the query or its data is missing. */
module Approval {
  import opened Common
  import opened Strings
  import opened Models
  import opened Store
  import opened GlobalBans
  import opened AuctionExpiry

  datatype ApprovalReply =
    | Silent                    // no query data, or fewer than two parts
    | InvalidItemId
    | SubmissionNotFound
    | NotAuthorized
    | AlreadyDecided(status: Status)
    | Decided(status: Status)
    | NameErrorRaised           // the handler dies on an undefined name

  datatype ApprovalCheck = Halt(reply: ApprovalReply) | Decide(id: ItemId, approve: bool)

  /** The handler as written: once the id parses, the lookup reads the
      undefined name `submission_id`, so the handler always stops there and
      never reaches a store write. */
  function CheckApprovalAsWritten(parts: seq<string>): (r: ApprovalReply)
    ensures |parts| < 2 ==> r == Silent
    ensures |parts| >= 2 ==> (r == InvalidItemId <==> ParseInt(parts[1]).None?)
    ensures r == Silent || r == InvalidItemId || r == NameErrorRaised
  {
    if |parts| < 2 then Silent
    else if ParseInt(parts[1]).None? then InvalidItemId
    else NameErrorRaised
  }

  /** The guards with the lookup by the parsed `item_id`, in the code's
      order: parse, lookup, caller, double-action guard. The guard refuses
      only "approved" and "rejected", so a draft or an ended item can still
      be decided. */
  function CheckApproval(cfg: Config, items: map<ItemId, Submission>, caller: int, parts: seq<string>): (r: ApprovalCheck)
    ensures |parts| < 2 ==> r == Halt(Silent)
    ensures r.Decide? ==>
      |parts| >= 2 && ParseInt(parts[1]) == Some(r.id) && r.id in items
      && IsAdminOrOwner(cfg, caller)
      && items[r.id].status != Approved && items[r.id].status != Rejected
      && r.approve == (parts[0] == "approve")
    ensures (|parts| >= 2 && ParseInt(parts[1]).Some? && ParseInt(parts[1]).value in items
             && IsAdminOrOwner(cfg, caller)) ==>
      var s := items[ParseInt(parts[1]).value];
      (s.status == Approved || s.status == Rejected) <==> r == Halt(AlreadyDecided(s.status))
  {
    if |parts| < 2 then Halt(Silent)
    else match ParseInt(parts[1])
      case None => Halt(InvalidItemId)
      case Some(id) =>
        if id !in items then Halt(SubmissionNotFound)
        else if !IsAdminOrOwner(cfg, caller) then Halt(NotAuthorized)
        else if items[id].status == Approved || items[id].status == Rejected then Halt(AlreadyDecided(items[id].status))
        else Decide(id, parts[0] == "approve")
  }

  /** The record after the approve flow: the status; `group_message_id`
      when the group post went out; the channel fields and a fresh
      three-day deadline when the channel post went out. */
  function ApproveRecord(s: Submission, cfg: Config, now: int, groupMsg: Option<int>, channelMsg: Option<int>): (r: Submission)
    ensures r.status == Approved
    ensures r.(status := s.status, groupMessageId := s.groupMessageId, channelId := s.channelId,
               channelMessageId := s.channelMessageId, expiresAt := s.expiresAt, isExpired := s.isExpired) == s
    ensures r.groupMessageId == (if groupMsg.Some? then groupMsg else s.groupMessageId)
    ensures channelMsg.Some? ==>
      r.channelId == Some(cfg.channelId) && r.channelMessageId == channelMsg
      && r.expiresAt == Some(now + AUCTION_DURATION) && r.isExpired == Some(false)
    ensures channelMsg.None? ==>
      r.channelId == s.channelId && r.channelMessageId == s.channelMessageId
      && r.expiresAt == s.expiresAt && r.isExpired == s.isExpired
  {
    var a := s.(status := Approved);
    var b := if groupMsg.Some? then a.(groupMessageId := groupMsg) else a;
    if channelMsg.Some? then
      b.(channelId := Some(cfg.channelId), channelMessageId := channelMsg,
         expiresAt := Some(now + AUCTION_DURATION), isExpired := Some(false))
    else b
  }

  /** The record after the reject flow. */
  function RejectRecord(s: Submission): (r: Submission)
    ensures r.status == Rejected
    ensures r.(status := s.status) == s
  {
    s.(status := Rejected)
  }

  /** `approval_handler` with the lookup corrected. `groupMsg` and
      `channelMsg` are the ids of the group and channel posts, None when the
      send failed. The writes are issued one after another, as in the code. */
  method ApprovalHandler(store: SubmissionStore, cfg: Config, caller: int, parts: seq<string>, now: int,
                         groupMsg: Option<int>, channelMsg: Option<int>) returns (reply: ApprovalReply)
    requires store.Valid()
    modifies store
    ensures store.Valid() && store.order == old(store.order)
    ensures store.items == AfterApproval(cfg, old(store.items), caller, parts, now, groupMsg, channelMsg)
    ensures var c := CheckApproval(cfg, old(store.items), caller, parts);
      c.Halt? ==> reply == c.reply && store.items == old(store.items)
    ensures var c := CheckApproval(cfg, old(store.items), caller, parts);
      c.Decide? && c.approve ==>
        reply == Decided(Approved)
        && store.items == old(store.items)[c.id := ApproveRecord(old(store.items)[c.id], cfg, now, groupMsg, channelMsg)]
    ensures var c := CheckApproval(cfg, old(store.items), caller, parts);
      c.Decide? && !c.approve ==>
        reply == Decided(Rejected)
        && store.items == old(store.items)[c.id := RejectRecord(old(store.items)[c.id])]
  {
    var c := CheckApproval(cfg, store.items, caller, parts);
    if c.Halt? {
      return c.reply;
    }
    var id := c.id;
    var s := store.items[id];
    if !c.approve {
      store.Put(id, s.(status := Rejected));
      assert store.items == old(store.items)[id := RejectRecord(s)];
      return Decided(Rejected);
    }
    var a := s.(status := Approved);
    store.Put(id, a);
    if groupMsg.Some? {
      a := a.(groupMessageId := groupMsg);
      store.Put(id, a);
    }
    if channelMsg.Some? {
      a := a.(channelId := Some(cfg.channelId), channelMessageId := channelMsg,
              expiresAt := Some(now + AUCTION_DURATION), isExpired := Some(false));
      store.Put(id, a);
    }
    assert a == ApproveRecord(s, cfg, now, groupMsg, channelMsg);
    reply := Decided(Approved);
  }

  // ---- Properties -----------------------------------------------------------

  /** The state the corrected handler leaves behind. */
  function AfterApproval(cfg: Config, items: map<ItemId, Submission>, caller: int, parts: seq<string>, now: int,
                         groupMsg: Option<int>, channelMsg: Option<int>): (r: map<ItemId, Submission>)
    ensures r.Keys == items.Keys
  {
    match CheckApproval(cfg, items, caller, parts)
    case Halt(_) => items
    case Decide(id, approve) =>
      items[id := if approve then ApproveRecord(items[id], cfg, now, groupMsg, channelMsg) else RejectRecord(items[id])]
  }

  /** A repeated callback (approve or reject, by anyone) on an item just
      decided is refused and changes nothing; an admin is told it is already
      decided. */
  lemma RepeatedDecisionIsNoOp(cfg: Config, items: map<ItemId, Submission>, caller: int, parts: seq<string>, now: int,
                               groupMsg: Option<int>, channelMsg: Option<int>,
                               caller2: int, action2: string, now2: int, groupMsg2: Option<int>, channelMsg2: Option<int>)
    requires CheckApproval(cfg, items, caller, parts).Decide?
    ensures var after := AfterApproval(cfg, items, caller, parts, now, groupMsg, channelMsg);
      var again := [action2, parts[1]] + parts[2..];
      CheckApproval(cfg, after, caller2, again).Halt?
      && AfterApproval(cfg, after, caller2, again, now2, groupMsg2, channelMsg2) == after
      && (IsAdminOrOwner(cfg, caller2) ==> CheckApproval(cfg, after, caller2, again).reply.AlreadyDecided?)
  {
    var again := [action2, parts[1]] + parts[2..];
    assert again[1] == parts[1];
  }

  /** Only the owner or an admin can decide. */
  lemma OnlyAdminsDecide(cfg: Config, items: map<ItemId, Submission>, caller: int, parts: seq<string>)
    requires !IsAdminOrOwner(cfg, caller)
    ensures CheckApproval(cfg, items, caller, parts).Halt?
  {
  }

  /** The guard does not ask for "pending": a draft (one whose base bid was
      never sent) is approved by an admin like any other. */
  lemma DraftIsApprovable(cfg: Config, items: map<ItemId, Submission>, n: int)
    requires n in items && items[n].status == Draft
    ensures CheckApproval(cfg, items, cfg.ownerId, ["approve", Decimal(n)]) == Decide(n, true)
  {
    ParseIntDecimal(n);
  }

  /** An approval whose channel post went out starts the three-day clock:
      the sweep selects the item exactly from its deadline on. */
  lemma ApprovedItemExpiresAfterThreeDays(s: Submission, cfg: Config, now: int, groupMsg: Option<int>, msg: int, t: int)
    ensures var r := ApproveRecord(s, cfg, now, groupMsg, Some(msg));
      SweepSelects(r, t) <==> t >= now + AUCTION_DURATION
  {
  }

  /** An approval whose channel post failed writes no deadline: the sweep
      selects the item only if it already carried one (and, for an item
      created by the base-bid step, it carries none). */
  lemma ApprovedWithoutChannelPost(s: Submission, cfg: Config, now: int, groupMsg: Option<int>, t: int)
    requires s.expiresAt.None?
    ensures !SweepSelects(ApproveRecord(s, cfg, now, groupMsg, None), t)
  {
  }

  /** The as-written handler never decides anything, while the corrected
      one approves the same pending item on the same callback. */
  lemma ApprovalNameErrorCounterexample(cfg: Config, items: map<ItemId, Submission>, n: int)
    requires n in items && items[n].status == Pending
    ensures CheckApprovalAsWritten(["approve", Decimal(n)]) == NameErrorRaised
    ensures CheckApproval(cfg, items, cfg.ownerId, ["approve", Decimal(n)]) == Decide(n, true)
  {
    ParseIntDecimal(n);
  }
}

=== FILE: auction_bid.dfy ===
/** The `/bid` command (handlers/auction_bid.py): eligibility, argument and
    reply-caption parsing, the guards on the item, the minimum increment, and
    the compare-and-swap on `current_bid`. */
module AuctionBid {
  import opened Common
  import opened Strings
  import opened Models
  import opened Store
  import opened GlobalBans

  const MIN_INCREMENT: int := 5

  /** The line prefix after which item captions carry the item id. */
  const ITEM_ID_MARKER: string := "\U{1F194} Item ID:"

  // ---- Eligibility ----------------------------------------------------------

  /** A `get_chat_member` status that counts as membership. */
  predicate IsMemberStatus(status: string)
  {
    status != "left" && status != "kicked"
  }

  /** `is_member`: the statuses in the group and in the channel, None where
      the lookup raised (which makes the answer False). */
  predicate IsMember(groupStatus: Option<string>, channelStatus: Option<string>)
  {
    groupStatus.Some? && channelStatus.Some?
    && IsMemberStatus(groupStatus.value) && IsMemberStatus(channelStatus.value)
  }

  /** `check_user_status` as written: the lookup key is `str(user_id)`. */
  predicate CheckUserStatusAsWritten(bans: seq<GlobalBan>, uid: int)
  {
    FindBan(bans, StrKey(Decimal(uid))).Some?
  }

  /** The records are written with integer `user_id`s, so the string lookup
      never finds one: a banned user is let through. */
  lemma CheckUserStatusMissesBans(bans: seq<GlobalBan>, uid: int)
    ensures !CheckUserStatusAsWritten(bans, uid)
    ensures IsBanned([NewGlobalBan(uid, 0, 0)] + bans, uid)
    ensures !CheckUserStatusAsWritten([NewGlobalBan(uid, 0, 0)] + bans, uid)
  {
    assert ([NewGlobalBan(uid, 0, 0)] + bans)[0].userId == uid;
  }

  /** `check_user_status` with the key the records are written with. */
  predicate CheckUserStatus(bans: seq<GlobalBan>, uid: int)
  {
    FindBan(bans, IntKey(uid)).Some?
  }

  /** The corrected lookup finds exactly the banned users. */
  lemma CheckUserStatusFindsBans(bans: seq<GlobalBan>, uid: int)
    ensures CheckUserStatus(bans, uid) <==> IsBanned(bans, uid)
  {
    FindBanIffBanned(bans, uid);
  }

  // ---- The request ----------------------------------------------------------

  datatype Bidder = Bidder(id: int, username: Option<string>, firstName: string)

  /** The name stored for a bidder: "@username", else the first name. */
  function DisplayName(b: Bidder): (name: string)
    ensures TruthyStr(b.username) ==> name == "@" + b.username.value
    ensures !TruthyStr(b.username) ==> name == b.firstName
  {
    if TruthyStr(b.username) then "@" + b.username.value else b.firstName
  }

  /** The message a `/bid` replies to. */
  datatype Replied = Replied(caption: Option<string>, text: Option<string>)

  /** One `/bid` as the handler sees it, with the two membership lookups'
      results. */
  datatype BidRequest = BidRequest(
    bidder: Bidder,
    chatId: int,
    args: seq<string>,
    replyTo: Option<Replied>,
    groupStatus: Option<string>,
    channelStatus: Option<string>)

  /** The item id a replied-to caption (or text) carries: the integer between
      the marker and the next newline; None when there is no marker or the
      integer does not parse. */
  function ReplyItemId(m: Replied): Option<int>
  {
    var source := OrStr(m.caption, m.text);
    if TruthyStr(source) && Contains(source.value, ITEM_ID_MARKER) then
      ParseInt(Strip(BeforeFirst(Split(source.value, ITEM_ID_MARKER)[1], "\n")))
    else None
  }

  /** The piece after the marker of a caption that starts with it. */
  lemma MarkerPiece(tail: string)
    ensures Contains(ITEM_ID_MARKER + tail, ITEM_ID_MARKER)
    ensures Split(ITEM_ID_MARKER + tail, ITEM_ID_MARKER)[1] == BeforeFirst(tail, ITEM_ID_MARKER)
  {
    var caption := ITEM_ID_MARKER + tail;
    assert caption[0..|ITEM_ID_MARKER|] == ITEM_ID_MARKER;
    assert OccursAt(caption, ITEM_ID_MARKER, 0);
    SplitSecondAtStart(tail, ITEM_ID_MARKER);
  }

  /** The id line of a caption holds no marker. */
  lemma IdLineBeforeMarker(d: string, rest: string)
    requires forall j :: 0 <= j < |d| ==> IsDigit(d[j]) || d[j] == '-'
    ensures BeforeFirst(" " + d + "\n" + rest, ITEM_ID_MARKER)
      == " " + d + "\n" + BeforeFirst(rest, ITEM_ID_MARKER)
  {
    var p := " " + d + "\n";
    assert forall j :: 0 <= j < |p| ==> p[j] != ITEM_ID_MARKER[0];
    BeforeFirstAfterPrefix(p, rest, ITEM_ID_MARKER);
  }

  /** The id line ends at the first newline. */
  lemma IdLineBeforeNewline(d: string, x: string)
    requires forall j :: 0 <= j < |d| ==> IsDigit(d[j]) || d[j] == '-'
    ensures BeforeFirst(" " + d + "\n" + x, "\n") == " " + d
  {
    var line := " " + d;
    assert forall j :: 0 <= j < |line| ==> line[j] != "\n"[0];
    assert " " + d + "\n" + x == line + ("\n" + x);
    BeforeFirstAfterPrefix(line, "\n" + x, "\n");
    BeforeFirstAtStart(x, "\n");
    assert line + "" == line;
  }

  /** Stripping the id line leaves the rendered id. */
  lemma StripIdLine(n: int)
    ensures Strip(" " + Decimal(n)) == Decimal(n)
  {
    var d := Decimal(n);
    DecimalChars(n);
    assert IsDigit(d[0]) || d[0] == '-';
    StripLeadingSpace(d);
  }

  /** The reply form reads back the id of a caption written the way the bot
      writes them: the marker, a space, the id and a newline. */
  lemma ReplyItemIdOfCaption(n: int, rest: string, text: Option<string>)
    ensures ReplyItemId(Replied(Some(ITEM_ID_MARKER + " " + Decimal(n) + "\n" + rest), text)) == Some(n)
  {
    var d := Decimal(n);
    DecimalChars(n);
    var tail := " " + d + "\n" + rest;
    var caption := ITEM_ID_MARKER + tail;
    assert ITEM_ID_MARKER + " " + d + "\n" + rest == caption;
    assert OrStr(Some(caption), text) == Some(caption) by {
      assert caption[0] == ITEM_ID_MARKER[0];
    }
    MarkerPiece(tail);
    var piece := Split(caption, ITEM_ID_MARKER)[1];
    IdLineBeforeMarker(d, rest);
    assert piece == " " + d + "\n" + BeforeFirst(rest, ITEM_ID_MARKER);
    IdLineBeforeNewline(d, BeforeFirst(rest, ITEM_ID_MARKER));
    assert BeforeFirst(piece, "\n") == " " + d;
    StripIdLine(n);
    ParseIntDecimal(n);
    assert ParseInt(Strip(BeforeFirst(piece, "\n"))) == Some(n);
  }

  datatype BidReply =
    | Banned
    | MustJoin
    | WrongChat
    | InvalidAmount
    | UsageHelp
    | InvalidFormat
    | NoItem
    | NotFound
    | AlreadyEnded
    | OwnItem
    | BelowMinimum(minNext: int)
    | Placed(amount: int)
    | Outbid(latest: int, minNext: int)
    | Failed

  /** The item id and amount the arguments (and the replied-to message) give,
      or the reply that ends the command. */
  datatype ParsedArgs = Parsed(itemId: Option<int>, amount: Option<int>) | ArgsError(reply: BidReply)

  function ParseBidArgs(req: BidRequest): (r: ParsedArgs)
    ensures req.replyTo.None? && |req.args| < 2 ==> r == ArgsError(UsageHelp)
    ensures req.replyTo.None? && |req.args| >= 2 && r.Parsed? ==>
      r.itemId == ParseInt(req.args[0]) && r.amount == ParseInt(req.args[1])
    ensures req.replyTo.Some? && r.Parsed? ==>
      r.itemId == ReplyItemId(req.replyTo.value) && (r.amount.Some? <==> |req.args| >= 1)
  {
    match req.replyTo
    case Some(m) =>
      var item := ReplyItemId(m);
      if |req.args| >= 1 then
        match ParseInt(req.args[0])
        case None => ArgsError(InvalidAmount)
        case Some(a) => Parsed(item, Some(a))
      else Parsed(item, None)
    case None =>
      if |req.args| < 2 then ArgsError(UsageHelp)
      else if ParseInt(req.args[0]).None? || ParseInt(req.args[1]).None? then ArgsError(InvalidFormat)
      else Parsed(ParseInt(req.args[0]), ParseInt(req.args[1]))
  }

  // ---- The item guards ------------------------------------------------------

  /** The ended-auction blacklist: a truthy `is_expired`, or an ended status. */
  predicate Closed(s: Submission)
  {
    s.isExpired == Some(true) || s.status in {Ended, Sold, Cancelled}
  }

  /** `str(submission.get("user_id")) == str(user.id)`. */
  predicate OwnedBy(s: Submission, uid: int)
  {
    UserRefStr(s.info.userId) == Decimal(uid)
  }

  /** `current_bid`, or `base_bid or 0` when `current_bid` is absent, plus 5. */
  function MinNextBid(s: Submission): (m: int)
    ensures s.currentBid.Some? ==> m == s.currentBid.value + MIN_INCREMENT
    ensures s.currentBid.None? && TruthyInt(s.baseBid) ==> m == s.baseBid.value + MIN_INCREMENT
    ensures s.currentBid.None? && !TruthyInt(s.baseBid) ==> m == MIN_INCREMENT
  {
    var current := if s.currentBid.Some? then s.currentBid.value
      else if TruthyInt(s.baseBid) then s.baseBid.value else 0;
    current + MIN_INCREMENT
  }

  /** The outcome of the checks before the write: a refusal, or the write to
      attempt with the `current_bid` it expects to find. */
  datatype BidCheck = Refuse(reply: BidReply) | Commit(itemId: ItemId, expected: Option<int>, amount: int)

  /** The guards on the item (lookup, ended, owner, minimum). */
  function ItemGate(items: map<ItemId, Submission>, id: ItemId, uid: int, amount: int): (r: BidCheck)
    ensures id !in items ==> r == Refuse(NotFound)
    ensures r.Commit? ==>
      r.itemId == id && id in items && !Closed(items[id]) && !OwnedBy(items[id], uid)
      && r.amount == amount && amount >= MinNextBid(items[id]) && r.expected == items[id].currentBid
  {
    if id !in items then Refuse(NotFound)
    else
      var s := items[id];
      if Closed(s) then Refuse(AlreadyEnded)
      else if OwnedBy(s, uid) then Refuse(OwnItem)
      else if amount < MinNextBid(s) then Refuse(BelowMinimum(MinNextBid(s)))
      else Commit(id, s.currentBid, amount)
  }

  /** The whole guard chain of `bid_command`, in order. */
  function CheckBid(cfg: Config, bans: seq<GlobalBan>, items: map<ItemId, Submission>, req: BidRequest): (r: BidCheck)
    ensures IsBanned(bans, req.bidder.id) ==> r == Refuse(Banned)
    ensures r.Commit? ==>
      !IsBanned(bans, req.bidder.id) && IsMember(req.groupStatus, req.channelStatus)
      && req.chatId == cfg.groupId && r.itemId != 0 && r.amount != 0
      && r == ItemGate(items, r.itemId, req.bidder.id, r.amount)
    ensures r.Commit? ==> ParseBidArgs(req) == Parsed(Some(r.itemId), Some(r.amount))
    ensures !IsBanned(bans, req.bidder.id) && !IsMember(req.groupStatus, req.channelStatus) ==> r == Refuse(MustJoin)
    ensures !IsBanned(bans, req.bidder.id) && IsMember(req.groupStatus, req.channelStatus) && req.chatId != cfg.groupId
      ==> r == Refuse(WrongChat)
    ensures !IsBanned(bans, req.bidder.id) && IsMember(req.groupStatus, req.channelStatus) && req.chatId == cfg.groupId
      ==> var p := ParseBidArgs(req);
          (p.ArgsError? ==> r == Refuse(p.reply))
          && (p.Parsed? && TruthyInt(p.itemId) && TruthyInt(p.amount) ==>
                r == ItemGate(items, p.itemId.value, req.bidder.id, p.amount.value))
          && (p.Parsed? && !(TruthyInt(p.itemId) && TruthyInt(p.amount)) ==> r == Refuse(NoItem))
  {
    CheckUserStatusFindsBans(bans, req.bidder.id);
    if CheckUserStatus(bans, req.bidder.id) then Refuse(Banned)
    else if !IsMember(req.groupStatus, req.channelStatus) then Refuse(MustJoin)
    else if req.chatId != cfg.groupId then Refuse(WrongChat)
    else match ParseBidArgs(req)
      case ArgsError(reply) => Refuse(reply)
      case Parsed(item, amount) =>
        if !TruthyInt(item) || !TruthyInt(amount) then Refuse(NoItem)
        else ItemGate(items, item.value, req.bidder.id, amount.value)
  }

  // ---- The write ------------------------------------------------------------

  /** The `$set` and `$push` of a successful bid. */
  function ApplyBid(s: Submission, b: Bidder, amount: int, now: int): (r: Submission)
    ensures r.currentBid == Some(amount) && r.lastBidderId == Some(b.id)
    ensures r.lastBidderUsername == Some(DisplayName(b)) && r.lastBidTime == Some(now)
    ensures |r.previousBidders| == |s.previousBidders| + 1
    ensures r.previousBidders[..|s.previousBidders|] == s.previousBidders
    ensures r.previousBidders[|s.previousBidders|] == BidEntry(b.id, DisplayName(b), amount, now)
    ensures r.(currentBid := s.currentBid, lastBidderId := s.lastBidderId, lastBidderUsername := s.lastBidderUsername,
               lastBidTime := s.lastBidTime, previousBidders := s.previousBidders) == s
  {
    s.(currentBid := Some(amount),
       lastBidderId := Some(b.id),
       lastBidderUsername := Some(DisplayName(b)),
       lastBidTime := Some(now),
       previousBidders := s.previousBidders + [BidEntry(b.id, DisplayName(b), amount, now)])
  }

  /** The filter `{"_id": id, "current_bid": expected}` matches. */
  predicate CasMatches(items: map<ItemId, Submission>, id: ItemId, expected: Option<int>)
  {
    id in items && items[id].currentBid == expected
  }

  /** The reply when the compare-and-swap finds nothing: the latest bid
      (`current_bid or base_bid`) and that plus 5; a missing document or a
      missing bid makes the handler raise, which its catch-all answers. */
  function ConflictReply(latest: Option<Submission>): (r: BidReply)
    ensures r.Outbid? ==> latest.Some? && r.minNext == r.latest + MIN_INCREMENT
    ensures r.Outbid? ==> Some(r.latest) == OrInt(latest.value.currentBid, latest.value.baseBid)
    ensures !r.Outbid? ==> r == Failed
  {
    match latest
    case None => Failed
    case Some(s) =>
      match OrInt(s.currentBid, s.baseBid)
      case None => Failed
      case Some(v) => Outbid(v, v + MIN_INCREMENT)
  }

  /** The refreshed caption calls `capitalize()` on the record's `type`, which
      raises on None; the catch-all then answers, after the write. */
  predicate CaptionBuilds(s: Submission)
  {
    s.info.itemType.Some?
  }

  /** `find_one_and_update` with the bid's filter, then the reply. */
  method CommitBid(store: SubmissionStore, id: ItemId, expected: Option<int>, amount: int, b: Bidder, now: int)
    returns (reply: BidReply)
    requires store.Valid()
    modifies store
    ensures store.Valid() && store.order == old(store.order)
    ensures CasMatches(old(store.items), id, expected) ==>
      store.items == old(store.items)[id := ApplyBid(old(store.items)[id], b, amount, now)]
      && reply == (if CaptionBuilds(old(store.items)[id]) then Placed(amount) else Failed)
    ensures !CasMatches(old(store.items), id, expected) ==>
      store.items == old(store.items)
      && reply == ConflictReply(if id in old(store.items) then Some(old(store.items)[id]) else None)
  {
    if id in store.items && store.items[id].currentBid == expected {
      var s := store.items[id];
      store.Put(id, ApplyBid(s, b, amount, now));
      reply := if CaptionBuilds(store.items[id]) then Placed(amount) else Failed;
    } else {
      reply := ConflictReply(if id in store.items then Some(store.items[id]) else None);
    }
  }

  /** `bid_command`: the guard chain, then the compare-and-swap, which in a
      run with no other writer always finds the value it read. */
  method BidCommand(store: SubmissionStore, cfg: Config, bans: seq<GlobalBan>, req: BidRequest, now: int)
    returns (reply: BidReply)
    requires store.Valid()
    modifies store
    ensures store.Valid() && store.order == old(store.order)
    ensures var c := CheckBid(cfg, bans, old(store.items), req);
      c.Refuse? ==> reply == c.reply && store.items == old(store.items)
    ensures var c := CheckBid(cfg, bans, old(store.items), req);
      c.Commit? ==> (reply == (if CaptionBuilds(old(store.items)[c.itemId]) then Placed(c.amount) else Failed)
        && store.items == old(store.items)[c.itemId := ApplyBid(old(store.items)[c.itemId], req.bidder, c.amount, now)])
  {
    var c := CheckBid(cfg, bans, store.items, req);
    if c.Refuse? {
      reply := c.reply;
    } else {
      reply := CommitBid(store, c.itemId, c.expected, c.amount, req.bidder, now);
    }
  }

  // ---- Properties -----------------------------------------------------------

  /** With `current_bid` at 100 the minimum is 105: 104 is refused and 105
      accepted. */
  lemma MinimumIncrementBoundary(items: map<ItemId, Submission>, id: ItemId, uid: int)
    requires id in items && !Closed(items[id]) && !OwnedBy(items[id], uid)
    requires items[id].currentBid == Some(100)
    ensures ItemGate(items, id, uid, 104) == Refuse(BelowMinimum(105))
    ensures ItemGate(items, id, uid, 105) == Commit(id, Some(100), 105)
  {
  }

  /** Past the ended and owner checks, an amount is accepted exactly when it
      reaches the minimum next bid. */
  lemma AcceptedIffMinimum(items: map<ItemId, Submission>, id: ItemId, uid: int, amount: int)
    requires id in items && !Closed(items[id]) && !OwnedBy(items[id], uid)
    ensures ItemGate(items, id, uid, amount).Commit? <==> amount >= MinNextBid(items[id])
  {
  }

  /** An accepted bid raises a present `current_bid` by at least 5. */
  lemma AcceptedBidRaisesPrice(items: map<ItemId, Submission>, id: ItemId, uid: int, amount: int, b: Bidder, now: int)
    requires ItemGate(items, id, uid, amount).Commit?
    requires items[id].currentBid.Some?
    ensures ApplyBid(items[id], b, amount, now).currentBid.value >= items[id].currentBid.value + MIN_INCREMENT
  {
  }

  /** The owner is refused whatever the amount, whether the record holds the
      owner's id as a string (photo step) or as an integer (base-bid step). */
  lemma OwnerCannotBid(items: map<ItemId, Submission>, id: ItemId, uid: int, amount: int)
    requires id in items && !Closed(items[id])
    requires items[id].info.userId == Some(StrUser(Decimal(uid))) || items[id].info.userId == Some(IntUser(uid))
    ensures ItemGate(items, id, uid, amount) == Refuse(OwnItem)
  {
  }

  /** Anyone else passes the owner check. */
  lemma OthersAreNotOwners(s: Submission, owner: int, uid: int)
    requires s.info.userId == Some(StrUser(Decimal(owner))) || s.info.userId == Some(IntUser(owner))
    requires uid != owner
    ensures !OwnedBy(s, uid)
  {
    DecimalInjective(owner, uid);
  }

  /** Neither the status (beyond the ended blacklist) nor the deadline is
      checked: a pending, draft or rejected item, or one past `expires_at`,
      takes bids like an approved one. */
  lemma NoApprovedOrDeadlineCheck(items: map<ItemId, Submission>, id: ItemId, uid: int, amount: int,
                                  status: Status, expiresAt: Option<int>)
    requires id in items && status !in {Ended, Sold, Cancelled}
    requires items[id].status !in {Ended, Sold, Cancelled}
    ensures var other := items[id := items[id].(status := status, expiresAt := expiresAt)];
      ItemGate(other, id, uid, amount) == ItemGate(items, id, uid, amount)
  {
  }

  /** A record built with the model's default `current_bid` of 0 ignores its
      `base_bid`: the minimum next bid is 5. */
  lemma DefaultCurrentBidIgnoresBase(info: ItemInfo, status: Option<Status>, now: int, base: int)
    ensures MinNextBid(NewSubmission(info, status, now).(baseBid := Some(base))) == MIN_INCREMENT
  {
  }

  /** A record with no `current_bid` field starts from its `base_bid`. */
  lemma MissingCurrentBidUsesBase(s: Submission, base: int)
    requires s.currentBid.None? && base != 0
    ensures MinNextBid(s.(baseBid := Some(base))) == base + MIN_INCREMENT
  {
  }

  /** Without a reply, fewer than two arguments is a usage error, and a zero
      item id or amount is refused. */
  lemma ArgumentRules(cfg: Config, bans: seq<GlobalBan>, items: map<ItemId, Submission>, req: BidRequest)
    requires !IsBanned(bans, req.bidder.id) && IsMember(req.groupStatus, req.channelStatus)
    requires req.chatId == cfg.groupId && req.replyTo.None?
    ensures |req.args| < 2 ==> CheckBid(cfg, bans, items, req) == Refuse(UsageHelp)
    ensures |req.args| >= 2 && ParseInt(req.args[0]).Some? && ParseInt(req.args[1]).Some?
      && (ParseInt(req.args[0]) == Some(0) || ParseInt(req.args[1]) == Some(0))
      ==> CheckBid(cfg, bans, items, req) == Refuse(NoItem)
    ensures |req.args| >= 2 && (ParseInt(req.args[0]).None? || ParseInt(req.args[1]).None?)
      ==> CheckBid(cfg, bans, items, req) == Refuse(InvalidFormat)
  {
    CheckUserStatusFindsBans(bans, req.bidder.id);
  }

  /** A reply whose caption yields no id, or a reply with no amount, ends
      with "could not determine item ID". */
  lemma ReplyWithoutIdOrAmount(cfg: Config, bans: seq<GlobalBan>, items: map<ItemId, Submission>, req: BidRequest)
    requires !IsBanned(bans, req.bidder.id) && IsMember(req.groupStatus, req.channelStatus)
    requires req.chatId == cfg.groupId && req.replyTo.Some?
    requires ReplyItemId(req.replyTo.value).None? || |req.args| == 0
    requires |req.args| >= 1 ==> ParseInt(req.args[0]).Some?
    ensures CheckBid(cfg, bans, items, req) == Refuse(NoItem)
  {
    CheckUserStatusFindsBans(bans, req.bidder.id);
  }

  /** `/bid <id> <amount>` that passes every guard commits that amount to
      that item; the store `BidCommand` then leaves differs only in the bid
      fields of that one item, with the bid appended to `previous_bidders`. */
  lemma ValidBidIsCommitted(cfg: Config, bans: seq<GlobalBan>, items: map<ItemId, Submission>, req: BidRequest,
                            id: ItemId, amount: int, now: int)
    requires !IsBanned(bans, req.bidder.id) && IsMember(req.groupStatus, req.channelStatus)
    requires req.chatId == cfg.groupId && req.replyTo.None? && |req.args| >= 2
    requires ParseInt(req.args[0]) == Some(id) && ParseInt(req.args[1]) == Some(amount) && id != 0 && amount != 0
    requires id in items && !Closed(items[id]) && !OwnedBy(items[id], req.bidder.id)
    requires amount >= MinNextBid(items[id])
    ensures CheckBid(cfg, bans, items, req) == Commit(id, items[id].currentBid, amount)
    ensures var before := items[id];
      var after := items[id := ApplyBid(before, req.bidder, amount, now)];
      && after.Keys == items.Keys
      && (forall k :: k in items && k != id ==> after[k] == items[k])
      && after[id].currentBid == Some(amount) && after[id].lastBidderId == Some(req.bidder.id)
      && after[id].previousBidders == before.previousBidders + [BidEntry(req.bidder.id, DisplayName(req.bidder), amount, now)]
      && after[id].(currentBid := before.currentBid, lastBidderId := before.lastBidderId,
                    lastBidderUsername := before.lastBidderUsername, lastBidTime := before.lastBidTime,
                    previousBidders := before.previousBidders) == before
  {
    CheckUserStatusFindsBans(bans, req.bidder.id);
    assert ParseBidArgs(req) == Parsed(Some(id), Some(amount));
    var r := ApplyBid(items[id], req.bidder, amount, now);
    assert r.previousBidders == items[id].previousBidders + [BidEntry(req.bidder.id, DisplayName(req.bidder), amount, now)];
  }
}

=== FILE: auction_expiry.dfy ===
/** One pass of `check_expired_auctions` (tasks/auction_expiry.py): select
    the approved auctions whose deadline has passed, announce each, and mark
    it ended. */
module AuctionExpiry {
  import opened Common
  import opened Models
  import opened Store

  /** The sweep's filter: status "approved", `is_expired` not True (a missing
      field passes `$ne`), and `expires_at` present and not after `now`. */
  predicate SweepSelects(s: Submission, now: int)
  {
    s.status == Approved && s.isExpired != Some(true) && s.expiresAt.Some? && s.expiresAt.value <= now
  }

  /** The `$set` of the sweep. */
  function EndAuction(s: Submission): (r: Submission)
    ensures r.isExpired == Some(true) && r.status == Ended
    ensures r.(isExpired := s.isExpired, status := s.status) == s
  {
    s.(isExpired := Some(true), status := Ended)
  }

  /** The winner shown: the last bidder when that id is truthy. */
  datatype Winner = NoWinner | WinnerId(id: int)

  function WinnerOf(s: Submission): (w: Winner)
    ensures w.WinnerId? <==> TruthyInt(s.lastBidderId)
    ensures w.WinnerId? ==> w.id == s.lastBidderId.value
  {
    if TruthyInt(s.lastBidderId) then WinnerId(s.lastBidderId.value) else NoWinner
  }

  /** The contact buttons: the seller's when `user_id` is truthy, then the
      winner's when there is one. */
  datatype Button = ContactSeller(seller: UserRef) | ContactWinner(winner: int)

  function ContactButtons(s: Submission): (b: seq<Button>)
    ensures |b| == (if TruthyUser(s.info.userId) then 1 else 0) + (if TruthyInt(s.lastBidderId) then 1 else 0)
    ensures TruthyUser(s.info.userId) ==> b[0] == ContactSeller(s.info.userId.value)
    ensures TruthyInt(s.lastBidderId) ==> b[|b| - 1] == ContactWinner(s.lastBidderId.value)
  {
    (if TruthyUser(s.info.userId) then [ContactSeller(s.info.userId.value)] else [])
    + (if TruthyInt(s.lastBidderId) then [ContactWinner(s.lastBidderId.value)] else [])
  }

  /** The announcement's markup: none at all when there are no buttons. */
  function Markup(s: Submission): Option<seq<Button>>
  {
    var b := ContactButtons(s);
    if b == [] then None else Some(b)
  }

  /** The messages the sweep attempts for one item. */
  datatype Notice =
    | GroupAnnouncement(item: ItemId, markup: Option<seq<Button>>)
    | ChannelEdit(item: ItemId, chat: int, message: int)
    | WinnerDm(item: ItemId, winner: int)
    | SellerDm(item: ItemId, seller: UserRef)
    | LogPost(item: ItemId, chat: int)

  /** In order: the group announcement; the channel edit when both the
      message id and the channel id are truthy; the winner's and the seller's
      messages when they exist; the log post when the log group is set. */
  function ItemNotices(cfg: Config, id: ItemId, s: Submission): (n: seq<Notice>)
    ensures |n| == 1 + (if TruthyInt(s.channelMessageId) && TruthyInt(s.channelId) then 1 else 0)
      + (if TruthyInt(s.lastBidderId) then 1 else 0) + (if TruthyUser(s.info.userId) then 1 else 0)
      + (if cfg.logGroupId != 0 then 1 else 0)
    ensures n[0] == GroupAnnouncement(id, Markup(s))
    ensures cfg.logGroupId != 0 ==> n[|n| - 1] == LogPost(id, cfg.logGroupId)
  {
    var group := [GroupAnnouncement(id, Markup(s))];
    var channel := if TruthyInt(s.channelMessageId) && TruthyInt(s.channelId)
      then [ChannelEdit(id, s.channelId.value, s.channelMessageId.value)] else [];
    var winner := match WinnerOf(s) case WinnerId(w) => [WinnerDm(id, w)] case NoWinner => [];
    var seller := if TruthyUser(s.info.userId) then [SellerDm(id, s.info.userId.value)] else [];
    var log := if cfg.logGroupId != 0 then [LogPost(id, cfg.logGroupId)] else [];
    group + channel + winner + seller + log
  }

  /** Every message of the sweep for one item is the announcement or an
      optional message whose condition holds. */
  lemma ItemNoticeIn(cfg: Config, id: ItemId, s: Submission, x: Notice)
    requires x in ItemNotices(cfg, id, s)
    ensures || x.GroupAnnouncement?
            || (x.ChannelEdit? && TruthyInt(s.channelMessageId) && TruthyInt(s.channelId))
            || (x.WinnerDm? && TruthyInt(s.lastBidderId))
            || (x.SellerDm? && TruthyUser(s.info.userId))
            || (x.LogPost? && cfg.logGroupId != 0)
  {
  }

  /** Each optional message is attempted exactly when its condition holds. */
  lemma ItemNoticesKinds(cfg: Config, id: ItemId, s: Submission)
    ensures var n := ItemNotices(cfg, id, s);
      && ((exists x :: x in n && x.ChannelEdit?) <==> TruthyInt(s.channelMessageId) && TruthyInt(s.channelId))
      && ((exists x :: x in n && x.WinnerDm?) <==> TruthyInt(s.lastBidderId))
      && ((exists x :: x in n && x.SellerDm?) <==> TruthyUser(s.info.userId))
      && ((exists x :: x in n && x.LogPost?) <==> cfg.logGroupId != 0)
  {
    var n := ItemNotices(cfg, id, s);
    forall x | x in n
      ensures || x.GroupAnnouncement?
              || (x.ChannelEdit? && TruthyInt(s.channelMessageId) && TruthyInt(s.channelId))
              || (x.WinnerDm? && TruthyInt(s.lastBidderId))
              || (x.SellerDm? && TruthyUser(s.info.userId))
              || (x.LogPost? && cfg.logGroupId != 0)
    {
      ItemNoticeIn(cfg, id, s, x);
    }
    var group := [GroupAnnouncement(id, Markup(s))];
    var channel := if TruthyInt(s.channelMessageId) && TruthyInt(s.channelId)
      then [ChannelEdit(id, s.channelId.value, s.channelMessageId.value)] else [];
    var winner := match WinnerOf(s) case WinnerId(w) => [WinnerDm(id, w)] case NoWinner => [];
    var seller := if TruthyUser(s.info.userId) then [SellerDm(id, s.info.userId.value)] else [];
    var log := if cfg.logGroupId != 0 then [LogPost(id, cfg.logGroupId)] else [];
    assert n == group + channel + winner + seller + log;
    if channel != [] { assert channel[0] in n; }
    if winner != [] { assert winner[0] in n; }
    if seller != [] { assert seller[0] in n; }
    if log != [] { assert log[0] in n; }
  }

  /** The messages that went out: those attempted, minus the ones whose
      send raised (each is caught on its own). */
  function Delivered(attempted: seq<Notice>, failed: set<Notice>): (r: seq<Notice>)
    ensures forall n :: n in r <==> n in attempted && n !in failed
  {
    if attempted == [] then []
    else (if attempted[0] in failed then [] else [attempted[0]]) + Delivered(attempted[1..], failed)
  }

  /** The messages of the items of `ids` that are processed to the end. */
  function SweepNotices(cfg: Config, items: map<ItemId, Submission>, ids: seq<ItemId>, faulty: set<ItemId>,
                        failed: set<Notice>): seq<Notice>
    requires forall i :: 0 <= i < |ids| ==> ids[i] in items
  {
    if ids == [] then []
    else
      var last := ids[|ids| - 1];
      SweepNotices(cfg, items, ids[..|ids| - 1], faulty, failed)
      + (if last in faulty then [] else Delivered(ItemNotices(cfg, last, items[last]), failed))
  }

  /** The store after one pass: every selected item whose processing does
      not raise is ended; everything else is as it was. `faulty` holds the
      items whose processing raises before the write. */
  function Swept(items: map<ItemId, Submission>, now: int, faulty: set<ItemId>): (r: map<ItemId, Submission>)
    ensures r.Keys == items.Keys
  {
    map k | k in items :: if SweepSelects(items[k], now) && k !in faulty then EndAuction(items[k]) else items[k]
  }

  /** The store after the items of `done` have been processed. */
  function PartlySwept(items: map<ItemId, Submission>, done: seq<ItemId>, faulty: set<ItemId>): (r: map<ItemId, Submission>)
    ensures r.Keys == items.Keys
  {
    map k | k in items :: if k in done && k !in faulty then EndAuction(items[k]) else items[k]
  }

  lemma PartlySweptStep(items: map<ItemId, Submission>, ids: seq<ItemId>, i: nat, faulty: set<ItemId>)
    requires i < |ids| && ids[i] in items && Distinct(ids)
    ensures PartlySwept(items, ids[..i + 1], faulty)
      == if ids[i] in faulty then PartlySwept(items, ids[..i], faulty)
         else PartlySwept(items, ids[..i], faulty)[ids[i] := EndAuction(items[ids[i]])]
  {
    assert ids[i] !in ids[..i] by {
      forall j | 0 <= j < i ensures ids[..i][j] != ids[i] {
      }
    }
    assert forall k :: k in ids[..i + 1] <==> k in ids[..i] || k == ids[i];
  }

  lemma PartlySweptAll(items: map<ItemId, Submission>, order: seq<ItemId>, now: int, faulty: set<ItemId>)
    requires forall i :: 0 <= i < |order| ==> order[i] in items
    requires forall k :: k in items ==> k in order
    ensures PartlySwept(items, Select(order, items, s => SweepSelects(s, now)), faulty) == Swept(items, now, faulty)
  {
    var sel := Select(order, items, s => SweepSelects(s, now));
    var a := PartlySwept(items, sel, faulty);
    var b := Swept(items, now, faulty);
    forall k | k in items
      ensures a[k] == b[k]
    {
      assert k in sel <==> SweepSelects(items[k], now);
    }
  }

  lemma SweepNoticesStep(cfg: Config, items: map<ItemId, Submission>, ids: seq<ItemId>, i: nat,
                         faulty: set<ItemId>, failed: set<Notice>)
    requires i < |ids| && forall j :: 0 <= j < |ids| ==> ids[j] in items
    ensures SweepNotices(cfg, items, ids[..i + 1], faulty, failed)
      == SweepNotices(cfg, items, ids[..i], faulty, failed)
         + (if ids[i] in faulty then [] else Delivered(ItemNotices(cfg, ids[i], items[ids[i]]), failed))
  {
    assert ids[..i + 1][..i] == ids[..i];
  }

  /** The loop of `check_expired_auctions` over the selection read at the
      start: each item is processed on its own, and an exception in one
      item is caught and the loop goes on. */
  method SweepItems(store: SubmissionStore, cfg: Config, items0: map<ItemId, Submission>, ids: seq<ItemId>,
                    faulty: set<ItemId>, failed: set<Notice>) returns (sent: seq<Notice>)
    requires store.Valid() && store.items == items0
    requires Distinct(ids) && forall i :: 0 <= i < |ids| ==> ids[i] in items0
    modifies store
    ensures store.Valid() && store.order == old(store.order)
    ensures store.items == PartlySwept(items0, ids, faulty)
    ensures sent == SweepNotices(cfg, items0, ids, faulty, failed)
  {
    sent := [];
    var i := 0;
    assert PartlySwept(items0, ids[..0], faulty) == items0;
    while i < |ids|
      invariant 0 <= i <= |ids|
      invariant store.Valid() && store.order == old(store.order)
      invariant store.items == PartlySwept(items0, ids[..i], faulty)
      invariant sent == SweepNotices(cfg, items0, ids[..i], faulty, failed)
    {
      PartlySweptStep(items0, ids, i, faulty);
      SweepNoticesStep(cfg, items0, ids, i, faulty, failed);
      var notices := ProcessItem(store, cfg, ids[i], items0[ids[i]], faulty, failed);
      sent := sent + notices;
      i := i + 1;
    }
    assert ids[..i] == ids;
  }

  /** The body of the loop for one item: unless its processing raises, its
      messages are sent (those that fail are skipped) and it is ended. */
  method ProcessItem(store: SubmissionStore, cfg: Config, id: ItemId, s: Submission, faulty: set<ItemId>,
                     failed: set<Notice>) returns (notices: seq<Notice>)
    requires store.Valid() && id in store.items
    modifies store
    ensures store.Valid() && store.order == old(store.order)
    ensures id in faulty ==> store.items == old(store.items) && notices == []
    ensures id !in faulty ==>
      store.items == old(store.items)[id := EndAuction(s)] && notices == Delivered(ItemNotices(cfg, id, s), failed)
  {
    notices := [];
    if id !in faulty {
      notices := Delivered(ItemNotices(cfg, id, s), failed);
      store.Put(id, EndAuction(s));
    }
  }

  /** `check_expired_auctions`: the selection is read once, then each item is
      processed on its own; an exception in one item is caught and the loop
      goes on. An empty selection returns at once. */
  method CheckExpiredAuctions(store: SubmissionStore, cfg: Config, now: int, faulty: set<ItemId>, failed: set<Notice>)
    returns (sent: seq<Notice>)
    requires store.Valid()
    modifies store
    ensures store.Valid() && store.order == old(store.order)
    ensures store.items == Swept(old(store.items), now, faulty)
    ensures sent == SweepNotices(cfg, old(store.items),
      Select(old(store.order), old(store.items), s => SweepSelects(s, now)), faulty, failed)
  {
    var expired := Select(store.order, store.items, s => SweepSelects(s, now));
    PartlySweptAll(store.items, store.order, now, faulty);
    sent := SweepItems(store, cfg, store.items, expired, faulty, failed);
  }

  // ---- Properties -----------------------------------------------------------

  /** Selected items that do not raise are ended; every other item is left
      exactly as it was. */
  lemma SweptEndsSelected(items: map<ItemId, Submission>, now: int, faulty: set<ItemId>, k: ItemId)
    requires k in items
    ensures SweepSelects(items[k], now) && k !in faulty ==>
      Swept(items, now, faulty)[k].status == Ended && Swept(items, now, faulty)[k].isExpired == Some(true)
    ensures !SweepSelects(items[k], now) || k in faulty ==> Swept(items, now, faulty)[k] == items[k]
  {
  }

  /** With nothing selected the pass changes nothing. */
  lemma EmptySelectionNoChange(items: map<ItemId, Submission>, now: int, faulty: set<ItemId>)
    requires forall k :: k in items ==> !SweepSelects(items[k], now)
    ensures Swept(items, now, faulty) == items
  {
    var r := Swept(items, now, faulty);
    assert forall k :: k in items ==> r[k] == items[k];
  }

  /** Rerunning the sweep selects exactly the items whose processing raised
      the first time: an ended item carries `is_expired` True. A clean first
      run leaves nothing for the second. */
  lemma {:induction false} SecondRunSelectsOnlyFaulty(items: map<ItemId, Submission>, now: int, faulty: set<ItemId>, k: ItemId)
    requires k in items
    ensures SweepSelects(Swept(items, now, faulty)[k], now) <==> SweepSelects(items[k], now) && k in faulty
  {
    var after := Swept(items, now, faulty);
    if SweepSelects(items[k], now) && k !in faulty {
      assert after[k] == EndAuction(items[k]);
    } else {
      assert after[k] == items[k];
    }
  }

  /** A clean sweep followed by a second sweep at the same time ends nothing
      more. */
  lemma SecondRunNoChange(items: map<ItemId, Submission>, now: int, faulty: set<ItemId>)
    ensures Swept(Swept(items, now, {}), now, faulty) == Swept(items, now, {})
  {
    var once := Swept(items, now, {});
    forall k | k in once
      ensures !SweepSelects(once[k], now)
    {
      SecondRunSelectsOnlyFaulty(items, now, {}, k);
    }
    EmptySelectionNoChange(once, now, faulty);
  }

  /** With no last bidder the winner shows as "No Winner" and no winner
      message is attempted. */
  lemma NoWinnerNoMessage(cfg: Config, id: ItemId, s: Submission)
    requires !TruthyInt(s.lastBidderId)
    ensures WinnerOf(s) == NoWinner
    ensures forall n :: n in ItemNotices(cfg, id, s) ==> !n.WinnerDm?
  {
    var ns := ItemNotices(cfg, id, s);
    forall n | n in ns
      ensures !n.WinnerDm?
    {
      var i :| 0 <= i < |ns| && ns[i] == n;
    }
  }

  /** With neither a seller nor a winner the announcement has no markup;
      otherwise it has one. */
  lemma MarkupOnlyWithParties(s: Submission)
    ensures Markup(s).None? <==> !TruthyUser(s.info.userId) && !TruthyInt(s.lastBidderId)
  {
  }

}

=== FILE: bid_handler.dfy ===
/** The base-bid step of a submission (handlers/bid_handler.py): the user
    answers the photo step with a number, and a pending record is inserted
    for the admins to approve. */
module BaseBid {
  import opened Common
  import opened Strings
  import opened Models
  import opened Store
  import opened Session
  import opened PhotoHandler
  import opened AuctionExpiry
  import opened AuctionBid
  import opened Cleanup

  /** An incoming text message. `isPrivate` is the private-chat guard. */
  datatype TextMessage = TextMessage(isPrivate: bool, text: string, userId: int,
                                     firstName: Option<string>, username: Option<string>)

  datatype BaseBidReply =
    | BaseBidIgnored
    | EnterNumber
    | SentForApproval(logPosted: bool)  // false: the warning about the log group came first
    | LogCaptionFailed                  // the handler raised after the insert

  datatype BaseBidCheck = Skip(reply: BaseBidReply) | TakeBid(base: nat)

  /** The guards: a private chat, the `awaiting_bid` flag, and a stripped
      text made only of digits. */
  function CheckBaseBid(data: map<Key, Value>, msg: TextMessage): (r: BaseBidCheck)
    ensures !(msg.isPrivate && TruthyAt(data, AwaitingBidKey)) ==> r == Skip(BaseBidIgnored)
    ensures msg.isPrivate && TruthyAt(data, AwaitingBidKey) ==>
      (r.TakeBid? <==> IsDigits(Strip(msg.text)))
      && (r.TakeBid? ==> r.base == DigitsValue(Strip(msg.text)))
      && (r.Skip? ==> r.reply == EnterNumber)
  {
    if !msg.isPrivate || !TruthyAt(data, AwaitingBidKey) then Skip(BaseBidIgnored)
    else if !IsDigits(Strip(msg.text)) then Skip(EnterNumber)
    else TakeBid(DigitsValue(Strip(msg.text)))
  }

  /** The fields copied from the session into the pending record. The sender
      is stored as an integer `user_id`, and the username with an "@". */
  function PendingInfo(data: map<Key, Value>, msg: TextMessage, table: RarityTable): (info: ItemInfo)
    ensures info.userId == Some(IntUser(msg.userId))
    ensures info.itemType == TextAt(data, TypeKey) && info.rarity == TextAt(data, RarityKey)
    ensures info.animeName == TextAt(data, AnimeNameKey) && info.waifuName == TextAt(data, WaifuNameKey)
    ensures info.optionalTag == TextAt(data, OptionalTagKey) && info.caption == TextAt(data, CaptionKey)
    ensures info.fileId == TextAt(data, FileIdKey)
    ensures info.rarityName == Some(if TextAt(data, RarityKey).Some? then RarityName(table, TextAt(data, RarityKey).value) else "Unknown")
  {
    var rarity := TextAt(data, RarityKey);
    ItemInfo(
      userId := Some(IntUser(msg.userId)),
      userName := Some(if TruthyStr(msg.firstName) then msg.firstName.value else "N/A"),
      username := if TruthyStr(msg.username) then Some("@" + msg.username.value) else None,
      itemType := TextAt(data, TypeKey),
      rarity := rarity,
      rarityName := Some(if rarity.Some? then RarityName(table, rarity.value) else "Unknown"),
      animeName := TextAt(data, AnimeNameKey),
      waifuName := TextAt(data, WaifuNameKey),
      optionalTag := TextAt(data, OptionalTagKey),
      caption := TextAt(data, CaptionKey),
      fileId := TextAt(data, FileIdKey))
  }

  /** The inserted document: a plain dictionary, not the record model, so it
      has no deadline, no `is_expired` and no `current_bid`. */
  function PendingRecord(data: map<Key, Value>, msg: TextMessage, table: RarityTable, base: nat, now: int): (s: Submission)
    ensures s.status == Pending && s.baseBid == Some(base) && s.submittedTime == now
    ensures s.info == PendingInfo(data, msg, table)
    ensures s.expiresAt.None? && s.isExpired.None? && s.currentBid.None? && s.previousBidders == []
    ensures s.channelMessageId.None? && s.groupMessageId.None? && s.lastBidderId.None?
  {
    Submission(
      info := PendingInfo(data, msg, table),
      submittedTime := now,
      status := Pending,
      baseBid := Some(base),
      channelId := None,
      previousBidders := [],
      channelMessageId := None,
      groupMessageId := None,
      expiresAt := None,
      isExpired := None,
      currentBid := None,
      lastBidderId := None,
      lastBidderUsername := None,
      lastBidTime := None)
  }

  /** The log caption reads `type` (and calls a string method on it),
      `anime_name`, `waifu_name`, `rarity` and `optional_tag` by
      subscript: it raises unless all are there and `type` is a string. */
  predicate LogCaptionBuilds(data: map<Key, Value>)
  {
    TextAt(data, TypeKey).Some? && AnimeNameKey in data && WaifuNameKey in data
    && RarityKey in data && OptionalTagKey in data
  }

  /** The session after the number was taken: `base_bid` recorded, the flag
      popped. */
  function AfterTake(data: map<Key, Value>, base: nat): (d: map<Key, Value>)
    ensures AwaitingBidKey !in d && BaseBidKey in d && d[BaseBidKey] == Number(base)
    ensures forall k :: k in data && k != AwaitingBidKey && k != BaseBidKey ==> k in d && d[k] == data[k]
  {
    data[BaseBidKey := Number(base)] - {AwaitingBidKey}
  }

  /** `handle_base_bid`. `logPosted` is whether the post to the log group
      went out; its failure is answered with a warning and does not stop
      the handler. A new record is inserted under `freshId`; the draft of
      the photo step is left as it is. */
  method HandleBaseBid(store: SubmissionStore, session: UserData, msg: TextMessage, table: RarityTable,
                       now: int, freshId: ItemId, logPosted: bool) returns (reply: BaseBidReply)
    requires store.Valid() && freshId !in store.items
    modifies store, session
    ensures store.Valid()
    ensures var c := CheckBaseBid(old(session.data), msg);
      c.Skip? ==>
        reply == c.reply && store.items == old(store.items) && store.order == old(store.order)
        && session.data == old(session.data)
    ensures var c := CheckBaseBid(old(session.data), msg);
      c.TakeBid? ==>
        var mid := AfterTake(old(session.data), c.base);
        store.items == old(store.items)[freshId := PendingRecord(mid, msg, table, c.base, now)]
        && store.order == old(store.order) + [freshId]
        && (LogCaptionBuilds(mid) ==> reply == SentForApproval(logPosted) && session.data == map[])
        && (!LogCaptionBuilds(mid) ==> reply == LogCaptionFailed && session.data == mid)
  {
    var c := CheckBaseBid(session.data, msg);
    if c.Skip? {
      return c.reply;
    }
    session.Set(BaseBidKey, Number(c.base));
    session.Pop(AwaitingBidKey);
    store.Insert(freshId, PendingRecord(session.data, msg, table, c.base, now));
    if !LogCaptionBuilds(session.data) {
      return LogCaptionFailed;
    }
    reply := SentForApproval(logPosted);
    session.Clear();
  }

  // ---- Properties -----------------------------------------------------------

  /** A non-negative number typed as `str(n)`, with surrounding blanks, is
      taken as a base bid of `n`. */
  lemma NumberIsTaken(data: map<Key, Value>, msg: TextMessage, n: nat)
    requires msg.isPrivate && TruthyAt(data, AwaitingBidKey)
    requires msg.text == " " + Decimal(n) + " "
    ensures CheckBaseBid(data, msg) == TakeBid(n)
  {
    var d := Decimal(n);
    assert d == NatDigits(n);
    DigitsValueOfNatDigits(n);
    assert Strip(msg.text) == d by {
      assert !IsSpace(d[0]) && !IsSpace(d[|d| - 1]) by {
        assert IsDigit(d[0]) && IsDigit(d[|d| - 1]);
      }
      StripBlanks(d);
    }
  }

  /** Stripping one blank on each side of a string that has non-blank ends. */
  lemma StripBlanks(d: string)
    requires d != [] && !IsSpace(d[0]) && !IsSpace(d[|d| - 1])
    ensures Strip(" " + d + " ") == d
  {
    var s := " " + d + " ";
    assert s[1..] == d + " ";
    assert LStrip(s) == LStrip(d + " ");
    assert (d + " ")[0] == d[0];
    assert LStrip(d + " ") == d + " ";
    var t := d + " ";
    assert t[..|t| - 1] == d;
    assert RStrip(t) == RStrip(d);
  }

  /** A negative number or a signed one is not a base bid: the flag stays. */
  lemma SignedNumberRefused(data: map<Key, Value>, msg: TextMessage, n: nat)
    requires msg.isPrivate && TruthyAt(data, AwaitingBidKey)
    requires msg.text == "-" + Decimal(n)
    ensures CheckBaseBid(data, msg) == Skip(EnterNumber)
  {
    var s := msg.text;
    var d := Decimal(n);
    DecimalChars(n);
    assert s[0] == '-';
    assert s[|s| - 1] == d[|d| - 1];
    DigitIsNotSpace(d[|d| - 1]);
    assert !IsSpace(s[0]) && !IsSpace(s[|s| - 1]);
    StripUnchanged(s);
    assert !IsDigit(Strip(s)[0]);
  }

  /** The pending record has neither a deadline nor an `is_expired` field,
      so neither the sweep nor the marker ever selects it, whatever its
      status becomes; its bid floor comes from the base bid. */
  lemma PendingRecordIsNeverSwept(data: map<Key, Value>, msg: TextMessage, table: RarityTable, base: nat, now: int, t: int)
    ensures var s := PendingRecord(data, msg, table, base, now);
      !SweepSelects(s, t) && !MarkerSelects(s, t)
      && !SweepSelects(s.(status := Approved), t)
      && MinNextBid(s) == (if base != 0 then base else 0) + MIN_INCREMENT
  {
  }

  /** A key the photo step wrote reads back unchanged after the number is
      taken. */
  lemma TextAfterTake(data0: map<Key, Value>, m: map<Key, Value>, base: nat, k: Key)
    requires k in m && k != AwaitingBidKey && k != BaseBidKey
    ensures TextAt(AfterTake(data0 + m, base), k) == TextAt(m, k)
  {
  }

  /** After the photo step, the pending record copies the draft's
      descriptive fields, except the owner, which the draft keeps as a
      string and the pending record as an integer. */
  lemma PendingCopiesDraft(data0: map<Key, Value>, photo: PhotoMessage, tyName: string, rarity: string,
                           table: RarityTable, draftId: ItemId, msg: TextMessage, base: nat, now: int, now2: int)
    requires msg.userId == photo.userId
    ensures var data1 := data0 + PhotoSession(DraftInfo(photo, Text(tyName), rarity, table), Text(tyName), draftId);
      var draft := DraftRecord(photo, Text(tyName), rarity, table, now);
      var pending := PendingRecord(AfterTake(data1, base), msg, table, base, now2);
      pending.info.(userId := draft.info.userId, userName := draft.info.userName, username := draft.info.username)
        == draft.info
      && pending.info.userId != draft.info.userId
      && LogCaptionBuilds(AfterTake(data1, base))
  {
    var info := DraftInfo(photo, Text(tyName), rarity, table);
    var m := PhotoSession(info, Text(tyName), draftId);
    var mid := AfterTake(data0 + m, base);
    PhotoSessionMatchesDraft(info, Text(tyName), draftId);
    TextAfterTake(data0, m, base, TypeKey);
    TextAfterTake(data0, m, base, RarityKey);
    TextAfterTake(data0, m, base, AnimeNameKey);
    TextAfterTake(data0, m, base, WaifuNameKey);
    TextAfterTake(data0, m, base, OptionalTagKey);
    TextAfterTake(data0, m, base, CaptionKey);
    TextAfterTake(data0, m, base, FileIdKey);
    var p := PendingInfo(mid, msg, table);
    assert p.(userId := info.userId, userName := info.userName, username := info.username) == info;
  }
}

=== FILE: cleanup.dfy ===
/** One pass of `remove_expired_bids` (tasks/cleanup.py): strip the bid
    buttons of every auction past its deadline and flag it `is_expired`. */
module Cleanup {
  import opened Common
  import opened Models
  import opened Store
  import opened AuctionExpiry

  /** The marker's filter: `expires_at` present and not after `now`, and
      `is_expired` exactly False (a missing field does not match). The status
      is not consulted. */
  predicate MarkerSelects(s: Submission, now: int)
  {
    s.expiresAt.Some? && s.expiresAt.value <= now && s.isExpired == Some(false)
  }

  /** The marker's `$set`: only `is_expired`. */
  function MarkExpired(s: Submission): (r: Submission)
    ensures r.isExpired == Some(true)
    ensures r.(isExpired := s.isExpired) == s
  {
    s.(isExpired := Some(true))
  }

  /** The position of the first item whose button edit raises something other
      than `BadRequest`, which ends the task; `|ids|` when there is none. */
  function FirstCrash(ids: seq<ItemId>, crashes: set<ItemId>): (c: nat)
    ensures c <= |ids|
    ensures forall j :: 0 <= j < c ==> ids[j] !in crashes
    ensures c < |ids| ==> ids[c] in crashes
  {
    if ids == [] then 0
    else if ids[0] in crashes then 0
    else 1 + FirstCrash(ids[1..], crashes)
  }

  /** The store after the items of `done` have been flagged. */
  function Marked(items: map<ItemId, Submission>, done: seq<ItemId>): (r: map<ItemId, Submission>)
    ensures r.Keys == items.Keys
  {
    map k | k in items :: if k in done then MarkExpired(items[k]) else items[k]
  }

  lemma MarkedStep(items: map<ItemId, Submission>, ids: seq<ItemId>, i: nat)
    requires i < |ids| && ids[i] in items
    ensures Marked(items, ids[..i + 1]) == Marked(items, ids[..i])[ids[i] := MarkExpired(items[ids[i]])]
  {
    assert forall k :: k in ids[..i + 1] <==> k in ids[..i] || k == ids[i];
  }

  /** `remove_expired_bids`, one iteration of its outer loop: the selection
      is read once; each item's button edit may fail with `BadRequest`, which
      is ignored, and the item is flagged; any other exception (one listed in
      `crashes`) escapes the loop and ends the task. */
  method RemoveExpiredBidsPass(store: SubmissionStore, now: int, crashes: set<ItemId>) returns (crashed: bool)
    requires store.Valid()
    modifies store
    ensures store.Valid() && store.order == old(store.order)
    ensures var sel := Select(old(store.order), old(store.items), s => MarkerSelects(s, now));
      var c := FirstCrash(sel, crashes);
      store.items == Marked(old(store.items), sel[..c]) && crashed == (c < |sel|)
  {
    var expired := Select(store.order, store.items, s => MarkerSelects(s, now));
    crashed := MarkItems(store, store.items, expired, crashes);
  }

  /** The loop of one pass over the selection read at the start: each item
      is flagged in turn until one raises a crash. */
  method MarkItems(store: SubmissionStore, items0: map<ItemId, Submission>, ids: seq<ItemId>, crashes: set<ItemId>)
    returns (crashed: bool)
    requires store.Valid() && store.items == items0
    requires forall i :: 0 <= i < |ids| ==> ids[i] in items0
    modifies store
    ensures store.Valid() && store.order == old(store.order)
    ensures var c := FirstCrash(ids, crashes);
      store.items == Marked(items0, ids[..c]) && crashed == (c < |ids|)
  {
    var c := FirstCrash(ids, crashes);
    assert Marked(items0, ids[..0]) == items0;
    var i := 0;
    crashed := false;
    while i < |ids|
      invariant 0 <= i <= c
      invariant store.Valid() && store.order == old(store.order)
      invariant store.items == Marked(items0, ids[..i])
      invariant !crashed
    {
      var id := ids[i];
      if id in crashes {
        crashed := true;
        return;
      }
      MarkedStep(items0, ids, i);
      assert MarkExpired(store.items[id]) == MarkExpired(items0[id]);
      MarkOne(store, id);
      i := i + 1;
    }
  }

  /** The flagging `update_one` for one selected item. */
  method MarkOne(store: SubmissionStore, id: ItemId)
    requires store.Valid() && id in store.items
    modifies store
    ensures store.Valid() && store.order == old(store.order)
    ensures store.items == old(store.items)[id := MarkExpired(old(store.items)[id])]
  {
    store.Put(id, MarkExpired(store.items[id]));
  }

  // ---- Properties -----------------------------------------------------------

  /** The marker never changes a status, and only flags selected items. */
  lemma MarkedKeepsStatus(items: map<ItemId, Submission>, done: seq<ItemId>, k: ItemId)
    requires k in items
    ensures Marked(items, done)[k].status == items[k].status
    ensures k !in done ==> Marked(items, done)[k] == items[k]
  {
  }

  /** A flagged item is never selected by the sweep again, whatever the time,
      so an approved auction the marker reaches first is never ended. */
  lemma MarkedNeverSwept(items: map<ItemId, Submission>, k: ItemId, later: int, faulty: set<ItemId>)
    requires k in items && items[k].isExpired == Some(true)
    ensures !SweepSelects(items[k], later)
    ensures Swept(items, later, faulty)[k] == items[k]
  {
  }

  /** An approved auction past its deadline that the marker flags stays
      "approved" through any later sweep. */
  lemma MarkerPreemptsSweep(items: map<ItemId, Submission>, done: seq<ItemId>, k: ItemId, later: int,
                            faulty: set<ItemId>)
    requires k in items && k in done && items[k].status == Approved
    ensures Swept(Marked(items, done), later, faulty)[k].status == Approved
  {
    MarkedNeverSwept(Marked(items, done), k, later, faulty);
  }

  /** After a pass that did not crash, a second pass at the same time selects
      nothing and so changes nothing. */
  lemma RepeatedPassNoChange(items: map<ItemId, Submission>, order: seq<ItemId>, now: int)
    requires forall i :: 0 <= i < |order| ==> order[i] in items
    requires forall k :: k in items ==> k in order
    ensures var after := Marked(items, Select(order, items, s => MarkerSelects(s, now)));
      forall k :: k in after ==> !MarkerSelects(after[k], now)
  {
    var sel := Select(order, items, s => MarkerSelects(s, now));
    var after := Marked(items, sel);
    forall k | k in after
      ensures !MarkerSelects(after[k], now)
    {
      if k in sel {
        assert after[k] == MarkExpired(items[k]);
      } else {
        assert after[k] == items[k];
      }
    }
  }
}

=== FILE: common.dfy ===
/** Shared wrappers: optional values, Python truthiness of optional fields,
    and duplicate-free sequences. */
module Common {

  /** A document field that may be absent (or hold None). */
  datatype Option<+T> = None | Some(value: T)

  /** Python truthiness of an optional string: None and "" are falsy. */
  predicate TruthyStr(o: Option<string>)
  {
    o.Some? && o.value != ""
  }

  /** Python truthiness of an optional integer: None and 0 are falsy. */
  predicate TruthyInt(o: Option<int>)
  {
    o.Some? && o.value != 0
  }

  /** `a or b` on optional strings. */
  function OrStr(a: Option<string>, b: Option<string>): Option<string>
  {
    if TruthyStr(a) then a else b
  }

  /** `a or b` on optional integers. */
  function OrInt(a: Option<int>, b: Option<int>): Option<int>
  {
    if TruthyInt(a) then a else b
  }

  ghost predicate Distinct<T>(s: seq<T>)
  {
    forall i, j :: 0 <= i < j < |s| ==> s[i] != s[j]
  }

  /** `s` with every occurrence of `x` removed. */
  function Without(s: seq<int>, x: int): (r: seq<int>)
    ensures forall y :: y in r <==> y in s && y != x
    ensures Distinct(s) ==> Distinct(r)
  {
    if s == [] then []
    else if s[0] == x then Without(s[1..], x)
    else
      var rest := Without(s[1..], x);
      assert Distinct(s) ==> s[0] !in s[1..];
      [s[0]] + rest
  }

  /** The first `n` elements (all of them when there are fewer). */
  function Take<T>(s: seq<T>, n: nat): (r: seq<T>)
    ensures |r| <= n && |r| <= |s|
    ensures r == s[..|r|]
    ensures |s| <= n ==> r == s
  {
    if |s| <= n then s else s[..n]
  }
}

=== FILE: forceend.dfy ===
/** `/forceend` (handlers/forceend.py): an admin ends an approved auction
    at once. */
module ForceEnd {
  import opened Common
  import opened Strings
  import opened Models
  import opened Store
  import opened GlobalBans
  import opened AuctionExpiry
  import opened AuctionBid

  /** The id argument: all digits is a counter id; otherwise a valid
      ObjectId string; otherwise None. */
  function ParseForceEndId(raw: string): (r: Option<ItemId>)
    ensures IsDigits(raw) ==> r == Some(DigitsValue(raw))
    ensures !IsDigits(raw) ==> (r.Some? <==> IsValidObjectId(raw))
    ensures !IsDigits(raw) && r.Some? ==> r.value == ValidateObjectId(raw).value.value
  {
    if IsDigits(raw) then Some(DigitsValue(raw))
    else match ValidateObjectId(raw)
      case Some(oid) => Some(oid.value)
      case None => None
  }

  datatype ForceEndReply = Ignored | ForceUsage | BadIdFormat | NoSuchItem | NotActive | ForceEnded(winner: Winner) | ForceFailed

  datatype ForceEndCheck = Stop(reply: ForceEndReply) | EndItem(id: ItemId)

  /** The guards, in order: caller, argument count, id format, lookup, status. */
  function CheckForceEnd(cfg: Config, items: map<ItemId, Submission>, caller: int, args: seq<string>): (r: ForceEndCheck)
    ensures !IsAdminOrOwner(cfg, caller) ==> r == Stop(Ignored)
    ensures IsAdminOrOwner(cfg, caller) && |args| != 1 ==> r == Stop(ForceUsage)
    ensures r.EndItem? ==>
      IsAdminOrOwner(cfg, caller) && |args| == 1 && ParseForceEndId(args[0]) == Some(r.id)
      && r.id in items && items[r.id].status == Approved
  {
    if !IsAdminOrOwner(cfg, caller) then Stop(Ignored)
    else if |args| != 1 then Stop(ForceUsage)
    else match ParseForceEndId(args[0])
      case None => Stop(BadIdFormat)
      case Some(id) =>
        if id !in items then Stop(NoSuchItem)
        else if items[id].status != Approved then Stop(NotActive)
        else EndItem(id)
  }

  /** The `$set` of `/forceend`: the flag, the status, and the deadline
      overwritten with the current time. */
  function ForceEndRecord(s: Submission, now: int): (r: Submission)
    ensures r.isExpired == Some(true) && r.status == Ended && r.expiresAt == Some(now)
    ensures r.(isExpired := s.isExpired, status := s.status, expiresAt := s.expiresAt) == s
  {
    s.(isExpired := Some(true), status := Ended, expiresAt := Some(now))
  }

  /** The messages `/forceend` attempts after the write, in order. */
  datatype ForceNotice =
    | ForceAnnouncement(markup: Option<seq<Button>>)
    | ForceChannelEdit(chat: Option<int>, message: int)
    | ForceWinnerDm(winner: int)
    | ForceSellerDm(seller: UserRef)
    | ForceLogPost(logChat: int)

  /** The group announcement; the channel edit when the message id is
      truthy (with whatever `channel_id` holds); the winner's and seller's
      messages; the log post. */
  function ForceNotices(cfg: Config, s: Submission): (n: seq<ForceNotice>)
    ensures |n| >= 1 && n[0] == ForceAnnouncement(Markup(s))
  {
    [ForceAnnouncement(Markup(s))]
    + (if TruthyInt(s.channelMessageId) then [ForceChannelEdit(s.channelId, s.channelMessageId.value)] else [])
    + (match WinnerOf(s) case WinnerId(w) => [ForceWinnerDm(w)] case NoWinner => [])
    + (if TruthyUser(s.info.userId) then [ForceSellerDm(s.info.userId.value)] else [])
    + (if cfg.logGroupId != 0 then [ForceLogPost(cfg.logGroupId)] else [])
  }

  /** Every force-end message is the announcement or an optional message
      whose condition holds. */
  lemma ForceNoticeIn(cfg: Config, s: Submission, x: ForceNotice)
    requires x in ForceNotices(cfg, s)
    ensures || x.ForceAnnouncement?
            || (x.ForceChannelEdit? && TruthyInt(s.channelMessageId))
            || (x.ForceWinnerDm? && TruthyInt(s.lastBidderId))
            || (x.ForceSellerDm? && TruthyUser(s.info.userId))
            || (x.ForceLogPost? && cfg.logGroupId != 0)
  {
  }

  /** Each optional message of a force-end is attempted exactly when its
      condition holds, and the log post, when there is one, comes last. */
  lemma ForceNoticesKinds(cfg: Config, s: Submission)
    ensures var n := ForceNotices(cfg, s);
      && ((exists x :: x in n && x.ForceChannelEdit?) <==> TruthyInt(s.channelMessageId))
      && ((exists x :: x in n && x.ForceWinnerDm?) <==> TruthyInt(s.lastBidderId))
      && ((exists x :: x in n && x.ForceSellerDm?) <==> TruthyUser(s.info.userId))
      && ((exists x :: x in n && x.ForceLogPost?) <==> cfg.logGroupId != 0)
      && (cfg.logGroupId != 0 ==> n[|n| - 1] == ForceLogPost(cfg.logGroupId))
  {
    var n := ForceNotices(cfg, s);
    forall x | x in n
      ensures || x.ForceAnnouncement?
              || (x.ForceChannelEdit? && TruthyInt(s.channelMessageId))
              || (x.ForceWinnerDm? && TruthyInt(s.lastBidderId))
              || (x.ForceSellerDm? && TruthyUser(s.info.userId))
              || (x.ForceLogPost? && cfg.logGroupId != 0)
    {
      ForceNoticeIn(cfg, s, x);
    }
    var group := [ForceAnnouncement(Markup(s))];
    var channel := if TruthyInt(s.channelMessageId) then [ForceChannelEdit(s.channelId, s.channelMessageId.value)] else [];
    var winner := match WinnerOf(s) case WinnerId(w) => [ForceWinnerDm(w)] case NoWinner => [];
    var seller := if TruthyUser(s.info.userId) then [ForceSellerDm(s.info.userId.value)] else [];
    var log := if cfg.logGroupId != 0 then [ForceLogPost(cfg.logGroupId)] else [];
    assert n == group + channel + winner + seller + log;
    if channel != [] { assert channel[0] in n; }
    if winner != [] { assert winner[0] in n; }
    if seller != [] { assert seller[0] in n; }
    if log != [] { assert log[0] in n; }
  }

  /** `forceend_command`. `announced` is whether building the announcement
      and sending it to the group succeed: that send is not guarded, so its
      failure ends in the catch-all reply after the store was already written,
      and no later message is attempted. */
  method ForceEndCommand(store: SubmissionStore, cfg: Config, caller: int, args: seq<string>, now: int, announced: bool)
    returns (reply: ForceEndReply, attempted: seq<ForceNotice>)
    requires store.Valid()
    modifies store
    ensures store.Valid() && store.order == old(store.order)
    ensures var c := CheckForceEnd(cfg, old(store.items), caller, args);
      c.Stop? ==> reply == c.reply && attempted == [] && store.items == old(store.items)
    ensures var c := CheckForceEnd(cfg, old(store.items), caller, args);
      c.EndItem? ==> (store.items == old(store.items)[c.id := ForceEndRecord(old(store.items)[c.id], now)]
        && (announced ==> reply == ForceEnded(WinnerOf(old(store.items)[c.id]))
                          && attempted == ForceNotices(cfg, old(store.items)[c.id]))
        && (!announced ==> reply == ForceFailed && attempted == [ForceAnnouncement(Markup(old(store.items)[c.id]))]))
  {
    var c := CheckForceEnd(cfg, store.items, caller, args);
    if c.Stop? {
      reply, attempted := c.reply, [];
      return;
    }
    var s := store.items[c.id];
    store.Put(c.id, ForceEndRecord(s, now));
    if !announced {
      reply, attempted := ForceFailed, [ForceAnnouncement(Markup(s))];
    } else {
      reply, attempted := ForceEnded(WinnerOf(s)), ForceNotices(cfg, s);
    }
  }

  // ---- Properties -----------------------------------------------------------

  /** Only an approved item can be force-ended; any other status is refused. */
  lemma OnlyApprovedEnds(cfg: Config, items: map<ItemId, Submission>, caller: int, raw: string)
    requires IsAdminOrOwner(cfg, caller)
    requires ParseForceEndId(raw).Some? && ParseForceEndId(raw).value in items
    ensures var id := ParseForceEndId(raw).value;
      items[id].status != Approved <==> CheckForceEnd(cfg, items, caller, [raw]) == Stop(NotActive)
  {
  }

  /** An all-digit argument and a 24-hex-digit argument are both accepted;
      anything else is refused as a bad format. */
  lemma IdFormats(cfg: Config, items: map<ItemId, Submission>, caller: int, raw: string)
    requires IsAdminOrOwner(cfg, caller)
    ensures CheckForceEnd(cfg, items, caller, [raw]) == Stop(BadIdFormat)
      <==> !IsDigits(raw) && !IsValidObjectId(raw)
  {
  }

  /** The deadline is overwritten with the time of the command, earlier or
      later than before; a force-ended item is closed to bids and never
      selected by the sweep. */
  lemma ForceEndedIsFinal(s: Submission, now: int, later: int)
    ensures ForceEndRecord(s, now).expiresAt == Some(now)
    ensures Closed(ForceEndRecord(s, now))
    ensures !SweepSelects(ForceEndRecord(s, now), later)
  {
  }

  /** A second `/forceend` of the same item is refused: it is no longer
      approved. */
  lemma SecondForceEndRefused(cfg: Config, items: map<ItemId, Submission>, caller: int, args: seq<string>, now: int)
    requires CheckForceEnd(cfg, items, caller, args).EndItem?
    ensures var id := CheckForceEnd(cfg, items, caller, args).id;
      CheckForceEnd(cfg, items[id := ForceEndRecord(items[id], now)], caller, args) == Stop(NotActive)
  {
  }

  /** The reported winner is the last bidder, or "No Winner" without one. */
  lemma ReportedWinner(s: Submission)
    ensures TruthyInt(s.lastBidderId) ==> WinnerOf(s) == WinnerId(s.lastBidderId.value)
    ensures !TruthyInt(s.lastBidderId) ==> WinnerOf(s) == NoWinner
  {
  }
}

=== FILE: global_ban.dfy ===
/** The `global_bans` collection and the `/aban` and `/unaban` commands
    (handlers/global_ban.py). */
module GlobalBans {
  import opened Common
  import opened Strings
  import opened Models

  /** `is_admin_or_owner`. */
  predicate IsAdminOrOwner(cfg: Config, uid: int)
  {
    uid == cfg.ownerId || uid in cfg.admins
  }

  /** The value a `{"user_id": ...}` query compares against: the bans store
      integers, and Mongo never equates an integer with a string. */
  datatype QueryKey = IntKey(n: int) | StrKey(s: string)

  predicate KeyMatches(b: GlobalBan, key: QueryKey)
  {
    key == IntKey(b.userId)
  }

  /** `find_one({"user_id": key})`: the position of the first matching record. */
  function FindBan(bans: seq<GlobalBan>, key: QueryKey): (r: Option<nat>)
    ensures r.Some? ==> r.value < |bans| && KeyMatches(bans[r.value], key)
    ensures r.Some? ==> forall j :: 0 <= j < r.value ==> !KeyMatches(bans[j], key)
    ensures r.None? ==> forall j :: 0 <= j < |bans| ==> !KeyMatches(bans[j], key)
  {
    if bans == [] then None
    else if KeyMatches(bans[0], key) then Some(0)
    else match FindBan(bans[1..], key)
      case None => None
      case Some(i) => Some(i + 1)
  }

  /** Some ban record names this user. */
  predicate IsBanned(bans: seq<GlobalBan>, uid: int)
  {
    exists j :: 0 <= j < |bans| && bans[j].userId == uid
  }

  lemma FindBanIffBanned(bans: seq<GlobalBan>, uid: int)
    ensures FindBan(bans, IntKey(uid)).Some? <==> IsBanned(bans, uid)
  {
    if IsBanned(bans, uid) {
      var j :| 0 <= j < |bans| && bans[j].userId == uid;
      assert KeyMatches(bans[j], IntKey(uid));
    }
  }

  lemma BannedCons(b: GlobalBan, rest: seq<GlobalBan>)
    ensures forall uid :: IsBanned([b] + rest, uid) <==> b.userId == uid || IsBanned(rest, uid)
  {
    forall uid
      ensures IsBanned([b] + rest, uid) <==> b.userId == uid || IsBanned(rest, uid)
    {
      var s := [b] + rest;
      if b.userId == uid {
        assert s[0].userId == uid;
      }
      if IsBanned(rest, uid) {
        var j :| 0 <= j < |rest| && rest[j].userId == uid;
        assert s[j + 1] == rest[j];
      }
      if IsBanned(s, uid) && b.userId != uid {
        var j :| 0 <= j < |s| && s[j].userId == uid;
        assert j > 0;
        assert rest[j - 1] == s[j];
      }
    }
  }

  /** No two records name the same user, which `aban` keeps. */
  predicate UniqueUsers(bans: seq<GlobalBan>)
  {
    forall i, j :: 0 <= i < j < |bans| ==> bans[i].userId != bans[j].userId
  }

  /** `delete_one({"user_id": uid})`: the first record naming `uid` removed. */
  function RemoveFirst(bans: seq<GlobalBan>, uid: int): (r: seq<GlobalBan>)
    ensures IsBanned(bans, uid) ==> |r| == |bans| - 1
    ensures !IsBanned(bans, uid) ==> r == bans
    ensures forall b :: b in r ==> b in bans
    ensures forall other :: other != uid ==> (IsBanned(r, other) <==> IsBanned(bans, other))
  {
    if bans == [] then []
    else if bans[0].userId == uid then bans[1..]
    else
      var rest := RemoveFirst(bans[1..], uid);
      BannedCons(bans[0], bans[1..]);
      BannedCons(bans[0], rest);
      assert [bans[0]] + bans[1..] == bans;
      [bans[0]] + rest
  }

  /** The command as the handler sees it: `reply` is None for a plain
      command, `Some(None)` for a reply to a message without a sender, and
      `chatFound` is whether `get_chat` on the parsed id succeeds. */
  datatype BanCommand = BanCommand(caller: int, args: seq<string>, reply: Option<Option<int>>, chatFound: bool)

  datatype BanReply =
    | NoPermission
    | Usage
    | InvalidUserId
    | NoSender
    | CannotBanSelf
    | CannotBanAdmin
    | AlreadyBanned(target: int)
    | BanAdded(target: int, reason: string)
    | NotBanned(target: int)
    | Unbanned(target: int)

  datatype Target = TargetId(id: int) | TargetError(reply: BanReply)

  /** The target: the replied-to message's sender, else `int(args[0])` when
      `get_chat` finds that chat. A reply without a sender makes `.id` raise,
      so the handler ends with no reply. */
  function ResolveTarget(cmd: BanCommand): Target
    requires cmd.reply.Some? || |cmd.args| >= 1
  {
    match cmd.reply
    case Some(Some(id)) => TargetId(id)
    case Some(None) => TargetError(NoSender)
    case None =>
      match ParseInt(cmd.args[0])
      case Some(n) => if cmd.chatFound then TargetId(n) else TargetError(InvalidUserId)
      case None => TargetError(InvalidUserId)
  }

  /** The ban reason: the arguments after the first, space-joined, whether or
      not the target came from a reply. */
  function Reason(args: seq<string>): string
  {
    if |args| > 1 then Join(args[1..], " ") else "No reason provided."
  }

  /** What `aban` answers, in the order of its guards. */
  function AbanOutcome(cfg: Config, bans: seq<GlobalBan>, cmd: BanCommand): (r: BanReply)
    ensures !IsAdminOrOwner(cfg, cmd.caller) ==> r == NoPermission
    ensures r.BanAdded? ==>
      IsAdminOrOwner(cfg, cmd.caller) && r.target != cmd.caller && !IsAdminOrOwner(cfg, r.target)
      && !IsBanned(bans, r.target) && r.reason == Reason(cmd.args)
    ensures r.AlreadyBanned? ==> IsBanned(bans, r.target)
    ensures IsAdminOrOwner(cfg, cmd.caller) && |cmd.args| < 1 && cmd.reply.None? ==> r == Usage
    ensures IsAdminOrOwner(cfg, cmd.caller) && (|cmd.args| >= 1 || cmd.reply.Some?) ==>
      match ResolveTarget(cmd)
      case TargetError(e) => r == e
      case TargetId(t) =>
        && (t == cmd.caller ==> r == CannotBanSelf)
        && (t != cmd.caller && IsAdminOrOwner(cfg, t) ==> r == CannotBanAdmin)
        && (t != cmd.caller && !IsAdminOrOwner(cfg, t) ==>
              r == if IsBanned(bans, t) then AlreadyBanned(t) else BanAdded(t, Reason(cmd.args)))
  {
    if !IsAdminOrOwner(cfg, cmd.caller) then NoPermission
    else if |cmd.args| < 1 && cmd.reply.None? then Usage
    else match ResolveTarget(cmd)
      case TargetError(e) => e
      case TargetId(t) =>
        if t == cmd.caller then CannotBanSelf
        else if IsAdminOrOwner(cfg, t) then CannotBanAdmin
        else
          FindBanIffBanned(bans, t);
          if FindBan(bans, IntKey(t)).Some? then AlreadyBanned(t)
          else BanAdded(t, Reason(cmd.args))
  }

  /** What `unaban` answers, in the order of its guards. */
  function UnabanOutcome(cfg: Config, bans: seq<GlobalBan>, cmd: BanCommand): (r: BanReply)
    ensures !IsAdminOrOwner(cfg, cmd.caller) ==> r == NoPermission
    ensures r.Unbanned? ==> IsAdminOrOwner(cfg, cmd.caller) && IsBanned(bans, r.target)
    ensures r.NotBanned? ==> !IsBanned(bans, r.target)
    ensures IsAdminOrOwner(cfg, cmd.caller) && |cmd.args| < 1 && cmd.reply.None? ==> r == Usage
    ensures IsAdminOrOwner(cfg, cmd.caller) && (|cmd.args| >= 1 || cmd.reply.Some?) ==>
      match ResolveTarget(cmd)
      case TargetError(e) => r == e
      case TargetId(t) => r == if IsBanned(bans, t) then Unbanned(t) else NotBanned(t)
  {
    if !IsAdminOrOwner(cfg, cmd.caller) then NoPermission
    else if |cmd.args| < 1 && cmd.reply.None? then Usage
    else match ResolveTarget(cmd)
      case TargetError(e) => e
      case TargetId(t) =>
        FindBanIffBanned(bans, t);
        if FindBan(bans, IntKey(t)).None? then NotBanned(t) else Unbanned(t)
  }

  /** The ban set as `aban` leaves it. */
  function AfterAban(bans: seq<GlobalBan>, cmd: BanCommand, r: BanReply, now: int): seq<GlobalBan>
  {
    if r.BanAdded? then bans + [GlobalBan(r.target, Some(r.reason), cmd.caller, now)] else bans
  }

  /** The ban set as `unaban` leaves it. */
  function AfterUnaban(bans: seq<GlobalBan>, r: BanReply): seq<GlobalBan>
  {
    if r.Unbanned? then RemoveFirst(bans, r.target) else bans
  }

  /** `aban` never creates a second record for a user. */
  lemma AbanKeepsUnique(cfg: Config, bans: seq<GlobalBan>, cmd: BanCommand, now: int)
    requires UniqueUsers(bans)
    ensures UniqueUsers(AfterAban(bans, cmd, AbanOutcome(cfg, bans, cmd), now))
  {
  }

  /** After a successful ban the target is banned, with exactly one more record. */
  lemma AbanBans(cfg: Config, bans: seq<GlobalBan>, cmd: BanCommand, now: int)
    requires AbanOutcome(cfg, bans, cmd).BanAdded?
    ensures var after := AfterAban(bans, cmd, AbanOutcome(cfg, bans, cmd), now);
      |after| == |bans| + 1 && IsBanned(after, AbanOutcome(cfg, bans, cmd).target)
  {
    var r := AbanOutcome(cfg, bans, cmd);
    var after := AfterAban(bans, cmd, r, now);
    assert after[|bans|].userId == r.target;
  }

  /** With unique records, an unban leaves the user with no record at all. */
  lemma {:induction false} RemoveFirstClears(bans: seq<GlobalBan>, uid: int)
    requires UniqueUsers(bans)
    ensures !IsBanned(RemoveFirst(bans, uid), uid)
    ensures UniqueUsers(RemoveFirst(bans, uid))
  {
    RemoveFirstKeepsUnique(bans, uid);
    if bans != [] {
      var tail := bans[1..];
      assert forall j :: 0 <= j < |tail| ==> tail[j] == bans[j + 1];
      if bans[0].userId != uid {
        RemoveFirstClears(tail, uid);
        BannedCons(bans[0], RemoveFirst(tail, uid));
      }
    }
  }

  lemma {:induction false} RemoveFirstKeepsUnique(bans: seq<GlobalBan>, uid: int)
    requires UniqueUsers(bans)
    ensures UniqueUsers(RemoveFirst(bans, uid))
  {
    if bans != [] && bans[0].userId != uid {
      assert UniqueUsers(bans[1..]);
      RemoveFirstKeepsUnique(bans[1..], uid);
      var rest := RemoveFirst(bans[1..], uid);
      var r := [bans[0]] + rest;
      forall i, j | 0 <= i < j < |r|
        ensures r[i].userId != r[j].userId
      {
        if i == 0 {
          assert r[j] in bans[1..];
          var k :| 0 <= k < |bans[1..]| && bans[1..][k] == r[j];
          assert bans[k + 1] == r[j];
        } else {
          assert r[i] == rest[i - 1] && r[j] == rest[j - 1];
        }
      }
    }
  }


  /** Banning a user who was not banned and then unbanning them restores
      the ban set exactly. */
  lemma {:induction false} BanThenUnbanRestores(bans: seq<GlobalBan>, b: GlobalBan)
    requires !IsBanned(bans, b.userId)
    ensures RemoveFirst(bans + [b], b.userId) == bans
  {
    if bans == [] {
      assert [b][1..] == [];
    } else {
      assert (bans + [b])[0] == bans[0];
      assert (bans + [b])[1..] == bans[1..] + [b];
      assert !IsBanned(bans[1..], b.userId) by {
        forall j | 0 <= j < |bans[1..]| ensures bans[1..][j].userId != b.userId {
          assert bans[1..][j] == bans[j + 1];
        }
      }
      BanThenUnbanRestores(bans[1..], b);
    }
  }

  /** `/aban` followed by `/unaban` of the same target gives back the ban set. */
  lemma AbanThenUnaban(cfg: Config, bans: seq<GlobalBan>, ban: BanCommand, unban: BanCommand, now: int)
    requires AbanOutcome(cfg, bans, ban).BanAdded?
    requires UnabanOutcome(cfg, AfterAban(bans, ban, AbanOutcome(cfg, bans, ban), now), unban)
      == Unbanned(AbanOutcome(cfg, bans, ban).target)
    ensures var r := AbanOutcome(cfg, bans, ban);
      var after := AfterAban(bans, ban, r, now);
      AfterUnaban(after, UnabanOutcome(cfg, after, unban)) == bans
  {
    var r := AbanOutcome(cfg, bans, ban);
    BanThenUnbanRestores(bans, GlobalBan(r.target, Some(r.reason), ban.caller, now));
  }

  /** In reply form the first argument is still dropped from the reason. */
  lemma ReasonSkipsFirstArgument()
    ensures Reason(["spam"]) == "No reason provided."
    ensures Reason(["spam", "bot"]) == "bot"
  {
    assert ["spam", "bot"][1..] == ["bot"];
  }

  /** The `global_bans` collection. */
  class BanCollection {
    var bans: seq<GlobalBan>

    ghost predicate Valid()
      reads this
    {
      UniqueUsers(bans)
    }

    constructor ()
      ensures Valid() && bans == []
    {
      bans := [];
    }

    /** `/aban`: the guard chain, then one `insert_one`. */
    method Aban(cfg: Config, cmd: BanCommand, now: int) returns (reply: BanReply)
      requires Valid()
      modifies this
      ensures Valid()
      ensures reply == AbanOutcome(cfg, old(bans), cmd)
      ensures bans == AfterAban(old(bans), cmd, reply, now)
    {
      reply := AbanOutcome(cfg, bans, cmd);
      AbanKeepsUnique(cfg, bans, cmd, now);
      if reply.BanAdded? {
        bans := bans + [GlobalBan(reply.target, Some(reply.reason), cmd.caller, now)];
      }
    }

    /** `/unaban`: the guard chain, then one `delete_one`. */
    method Unaban(cfg: Config, cmd: BanCommand) returns (reply: BanReply)
      requires Valid()
      modifies this
      ensures Valid()
      ensures reply == UnabanOutcome(cfg, old(bans), cmd)
      ensures bans == AfterUnaban(old(bans), reply)
      ensures reply.Unbanned? ==> !IsBanned(bans, reply.target)
    {
      reply := UnabanOutcome(cfg, bans, cmd);
      if reply.Unbanned? {
        RemoveFirstClears(bans, reply.target);
        bans := RemoveFirst(bans, reply.target);
      }
    }
  }
}

=== FILE: id_generator.dfy ===
/** `get_next_sequence` (utils/id_generator.py): an upserting `$inc` on the
    `counters` collection that returns the incremented value. */
module IdGenerator {

  /** The counter a name currently holds; a missing counter document counts
      as 0, since `$inc` with `upsert` starts from nothing. */
  function Current(seqs: map<string, int>, name: string): int
  {
    if name in seqs then seqs[name] else 0
  }

  /** The counters after one `find_one_and_update`. */
  function Bump(seqs: map<string, int>, name: string): (r: map<string, int>)
    ensures name in r && Current(r, name) == Current(seqs, name) + 1
    ensures forall other :: other != name ==> Current(r, other) == Current(seqs, other)
    ensures r.Keys == seqs.Keys + {name}
  {
    seqs[name := Current(seqs, name) + 1]
  }

  /** The values `k` successive calls for one name return. */
  function Issued(seqs: map<string, int>, name: string, k: nat): seq<int>
    decreases k
  {
    if k == 0 then [] else [Current(seqs, name) + 1] + Issued(Bump(seqs, name), name, k - 1)
  }

  /** The counters after those `k` calls. */
  function BumpTimes(seqs: map<string, int>, name: string, k: nat): map<string, int>
    decreases k
  {
    if k == 0 then seqs else BumpTimes(Bump(seqs, name), name, k - 1)
  }

  /** Successive calls hand out consecutive numbers right after the stored
      counter: the first call on a fresh name returns 1, and no number is
      issued twice. */
  lemma {:induction false} IssuedConsecutive(seqs: map<string, int>, name: string, k: nat)
    ensures |Issued(seqs, name, k)| == k
    ensures forall i :: 0 <= i < k ==> Issued(seqs, name, k)[i] == Current(seqs, name) + i + 1
    ensures Current(BumpTimes(seqs, name, k), name) == Current(seqs, name) + k
    decreases k
  {
    if k > 0 {
      IssuedConsecutive(Bump(seqs, name), name, k - 1);
    }
  }

  /** The counter of every other name is left as it was. */
  lemma {:induction false} BumpTimesFrame(seqs: map<string, int>, name: string, k: nat, other: string)
    requires other != name
    ensures Current(BumpTimes(seqs, name, k), other) == Current(seqs, other)
    decreases k
  {
    if k > 0 {
      BumpTimesFrame(Bump(seqs, name), name, k - 1, other);
    }
  }

  /** The `counters` collection. */
  class Counters {
    var seqs: map<string, int>

    constructor ()
      ensures seqs == map[]
    {
      seqs := map[];
    }

    /** `get_next_sequence(name)`. */
    method GetNextSequence(name: string) returns (n: int)
      modifies this
      ensures n == Current(old(seqs), name) + 1
      ensures seqs == Bump(old(seqs), name)
    {
      n := Current(seqs, name) + 1;
      seqs := seqs[name := n];
    }
  }
}

=== FILE: logger.dfy ===
/** `escape_markdown` (utils/logger.py): drop zero-width characters, then put
    a backslash before every MarkdownV2 special character, the character list
    of the Telegram Bot API's "MarkdownV2 style" formatting option. */
module Logger {
  import opened Common

  const MD2_SPECIAL_CHARS: string := "_*[]()~`>#+-=|{}.!"

  predicate IsSpecial(c: char)
  {
    c in MD2_SPECIAL_CHARS
  }

  /** U+200B, U+200C, U+200D and U+FEFF. */
  predicate IsInvisible(c: char)
  {
    c == '\U{200B}' || c == '\U{200C}' || c == '\U{200D}' || c == '\U{FEFF}'
  }

  function RemoveInvisible(s: string): (r: string)
    ensures forall i :: 0 <= i < |r| ==> !IsInvisible(r[i])
    ensures |r| <= |s|
  {
    if s == [] then []
    else if IsInvisible(s[0]) then RemoveInvisible(s[1..])
    else [s[0]] + RemoveInvisible(s[1..])
  }

  function CountSpecial(s: string): nat
  {
    if s == [] then 0 else (if IsSpecial(s[0]) then 1 else 0) + CountSpecial(s[1..])
  }

  function CountChar(s: string, c: char): nat
  {
    if s == [] then 0 else (if s[0] == c then 1 else 0) + CountChar(s[1..], c)
  }

  /** The second substitution: every special character gets one backslash in
      front; everything else, backslash included, is copied. */
  function EscapeSpecials(s: string): (r: string)
    ensures |r| == |s| + CountSpecial(s)
    ensures forall i :: 0 <= i < |r| ==> !IsInvisible(r[i]) || r[i] in s
  {
    if s == [] then []
    else (if IsSpecial(s[0]) then ['\\', s[0]] else [s[0]]) + EscapeSpecials(s[1..])
  }

  /** `escape_markdown(text)`; `None` stands for Python's None. */
  function EscapeMarkdown(text: Option<string>): (r: string)
    ensures !TruthyStr(text) ==> r == ""
    ensures forall i :: 0 <= i < |r| ==> !IsInvisible(r[i])
    ensures text.Some? ==> |r| == |RemoveInvisible(text.value)| + CountSpecial(RemoveInvisible(text.value))
  {
    if !TruthyStr(text) then ""
    else EscapeSpecials(RemoveInvisible(text.value))
  }

  /** Deletes each backslash that stands before a special character. */
  function Unescape(s: string): string
  {
    if s == [] then []
    else if |s| >= 2 && s[0] == '\\' && IsSpecial(s[1]) then [s[1]] + Unescape(s[2..])
    else [s[0]] + Unescape(s[1..])
  }

  /** Deleting the inserted backslashes gives the escaper's input back. */
  lemma {:induction false} UnescapeEscapeSpecials(s: string)
    ensures Unescape(EscapeSpecials(s)) == s
  {
    if s != [] {
      UnescapeEscapeSpecials(s[1..]);
      var rest := EscapeSpecials(s[1..]);
      if IsSpecial(s[0]) {
        assert EscapeSpecials(s) == ['\\', s[0]] + rest;
        assert (['\\', s[0]] + rest)[2..] == rest;
      } else {
        assert EscapeSpecials(s) == [s[0]] + rest;
        assert ([s[0]] + rest)[1..] == rest;
      }
    }
  }

  /** The escaped text with its inserted backslashes deleted is the input
      with its zero-width characters removed. */
  lemma EscapeMarkdownRoundTrip(t: string)
    ensures Unescape(EscapeMarkdown(Some(t))) == RemoveInvisible(t)
  {
    if t != "" {
      UnescapeEscapeSpecials(RemoveInvisible(t));
    }
  }

  /** Every special character of `r` has a backslash right before it. */
  predicate SpecialsEscaped(r: string)
  {
    forall i :: 0 <= i < |r| && IsSpecial(r[i]) ==> i > 0 && r[i - 1] == '\\'
  }

  lemma SpecialsEscapedAppend(a: string, b: string)
    requires SpecialsEscaped(a) && SpecialsEscaped(b)
    ensures SpecialsEscaped(a + b)
  {
    var r := a + b;
    forall i | 0 <= i < |r| && IsSpecial(r[i])
      ensures i > 0 && r[i - 1] == '\\'
    {
      if i >= |a| {
        assert r[i] == b[i - |a|];
        assert r[i - 1] == b[i - |a| - 1];
      }
    }
  }

  /** Every special character of the output has a backslash right before it. */
  lemma {:induction false} SpecialsArePrefixed(s: string)
    ensures SpecialsEscaped(EscapeSpecials(s))
  {
    if s != [] {
      SpecialsArePrefixed(s[1..]);
      if IsSpecial(s[0]) {
        assert !IsSpecial('\\');
        SpecialsEscapedAppend(['\\', s[0]], EscapeSpecials(s[1..]));
      } else {
        SpecialsEscapedAppend([s[0]], EscapeSpecials(s[1..]));
      }
    }
  }

  /** The output holds exactly one more backslash per special character:
      nothing but the escapes is added, and input backslashes are kept. */
  lemma {:induction false} BackslashCount(s: string)
    ensures CountChar(EscapeSpecials(s), '\\') == CountChar(s, '\\') + CountSpecial(s)
  {
    if s != [] {
      BackslashCount(s[1..]);
      CountCharAppend(if IsSpecial(s[0]) then ['\\', s[0]] else [s[0]], EscapeSpecials(s[1..]), '\\');
    }
  }

  lemma {:induction false} CountCharAppend(a: string, b: string, c: char)
    ensures CountChar(a + b, c) == CountChar(a, c) + CountChar(b, c)
  {
    if a != [] {
      CountCharAppend(a[1..], b, c);
      assert (a + b)[0] == a[0];
      assert (a + b)[1..] == a[1..] + b;
    } else {
      assert a + b == b;
    }
  }

  // ---- How Telegram reads the escaped text --------------------------------

  /** The plain text a MarkdownV2 message stands for, when it holds no
      formatting: a backslash before a character with code 1 to 126 stands
      for that character; an unescaped special character is refused (it opens
      an entity or is reserved). */
  function MarkdownV2Plain(s: string): Option<string>
  {
    if s == [] then Some([])
    else if |s| >= 2 && s[0] == '\\' && 1 <= s[1] as int <= 126 then
      match MarkdownV2Plain(s[2..])
      case None => None
      case Some(rest) => Some([s[1]] + rest)
    else if IsSpecial(s[0]) then None
    else
      match MarkdownV2Plain(s[1..])
      case None => None
      case Some(rest) => Some([s[0]] + rest)
  }

  /** The escaper copies a backslash and escapes the "_" after it. */
  lemma EscapeBackslashUnderscore()
    ensures EscapeMarkdown(Some("\\_")) == "\\\\_"
  {
    var t := "\\_";
    assert MD2_SPECIAL_CHARS[0] == '_';
    assert IsSpecial('_') && !IsSpecial('\\');
    assert t[1..] == "_" && "_"[1..] == [];
    assert RemoveInvisible("_") == "_";
    assert RemoveInvisible(t) == t;
    assert EscapeSpecials("_") == "\\_";
    assert EscapeSpecials(t) == "\\" + EscapeSpecials("_");
  }

  /** A backslash in the input escapes the backslash the escaper inserts
      before the next special character, which is then left bare: the text
      "\_" does not read back as itself. */
  lemma EscapeMarkdownBackslashBreaks()
    ensures MarkdownV2Plain(EscapeMarkdown(Some("\\_"))) == None
  {
    EscapeBackslashUnderscore();
    var e := "\\\\_";
    assert e[0] == '\\' && e[1] == '\\' && e[2..] == "_";
    assert MarkdownV2Plain("_") == None;
  }

  /** The corrected escaper: backslash is escaped as well. */
  function EscapeMarkdownV2(text: Option<string>): (r: string)
    ensures !TruthyStr(text) ==> r == ""
    ensures forall i :: 0 <= i < |r| ==> !IsInvisible(r[i])
  {
    if !TruthyStr(text) then ""
    else EscapeAll(RemoveInvisible(text.value))
  }

  function EscapeAll(s: string): (r: string)
    ensures forall i :: 0 <= i < |r| ==> !IsInvisible(r[i]) || r[i] in s
  {
    if s == [] then []
    else (if IsSpecial(s[0]) || s[0] == '\\' then ['\\', s[0]] else [s[0]]) + EscapeAll(s[1..])
  }

  lemma {:induction false} EscapeAllReadsBack(s: string)
    ensures MarkdownV2Plain(EscapeAll(s)) == Some(s)
  {
    if s != [] {
      EscapeAllReadsBack(s[1..]);
      assert s == [s[0]] + s[1..];
      var rest := EscapeAll(s[1..]);
      if IsSpecial(s[0]) || s[0] == '\\' {
        var e := ['\\', s[0]] + rest;
        assert e == EscapeAll(s);
        assert e[0] == '\\' && e[1] == s[0] && e[2..] == rest;
        assert 1 <= s[0] as int <= 126;
        assert MarkdownV2Plain(e) == Some([s[0]] + s[1..]);
      } else {
        var e := [s[0]] + rest;
        assert e == EscapeAll(s);
        assert e[1..] == rest;
      }
    }
  }

  /** With the correction every text reads back as itself, minus its
      zero-width characters. */
  lemma EscapeMarkdownV2ReadsBack(t: string)
    ensures MarkdownV2Plain(EscapeMarkdownV2(Some(t))) == Some(RemoveInvisible(t))
  {
    if t != "" {
      EscapeAllReadsBack(RemoveInvisible(t));
    }
  }
}

=== FILE: models.dfy ===
/** Record shapes of the `submissions`, `users` and `global_bans`
    collections (models/tables.py, models/global_ban.py), the bot's
    configuration constants, and ObjectId validation. Timestamps are whole
    seconds. */
module Models {
  import opened Common
  import opened Strings

  /** Items are keyed by an integer (the counter scheme); an ObjectId is
      identified with the integer its 24 hex digits spell. */
  type ItemId = int

  /** Three days, the auction length used for `expires_at`. */
  const AUCTION_DURATION: int := 3 * 24 * 60 * 60

  datatype Status = Draft | Pending | Approved | Rejected | Ended | Sold | Cancelled

  /** `user_id` is written as a string by the photo step and as an integer
      by the base-bid step; Mongo never equates the two. */
  datatype UserRef = IntUser(id: int) | StrUser(text: string)

  /** `str(submission.get("user_id"))`. */
  function UserRefStr(u: Option<UserRef>): string
  {
    match u
    case None => "None"
    case Some(IntUser(n)) => Decimal(n)
    case Some(StrUser(t)) => t
  }

  /** Python truthiness of a `user_id` value. */
  predicate TruthyUser(u: Option<UserRef>)
  {
    match u
    case None => false
    case Some(IntUser(n)) => n != 0
    case Some(StrUser(t)) => t != ""
  }

  /** The descriptive fields of a submission, which no auction step changes. */
  datatype ItemInfo = ItemInfo(
    userId: Option<UserRef>,
    userName: Option<string>,
    username: Option<string>,
    itemType: Option<string>,
    rarity: Option<string>,
    rarityName: Option<string>,
    animeName: Option<string>,
    waifuName: Option<string>,
    optionalTag: Option<string>,
    caption: Option<string>,
    fileId: Option<string>)

  /** One element of `previous_bidders`. */
  datatype BidEntry = BidEntry(bidderId: int, username: string, amount: int, time: int)

  /** A document of the `submissions` collection. `None` stands for a field
      that is absent or null: every query the bot issues treats the two alike. */
  datatype Submission = Submission(
    info: ItemInfo,
    submittedTime: int,
    status: Status,
    baseBid: Option<int>,
    channelId: Option<int>,
    previousBidders: seq<BidEntry>,
    channelMessageId: Option<int>,
    groupMessageId: Option<int>,
    expiresAt: Option<int>,
    isExpired: Option<bool>,
    currentBid: Option<int>,
    lastBidderId: Option<int>,
    lastBidderUsername: Option<string>,
    lastBidTime: Option<int>)

  /** The `Submission` model built with only its descriptive fields (and
      optionally `status`) given, at time `now`: every other field takes the
      model's default. */
  function NewSubmission(info: ItemInfo, status: Option<Status>, now: int): (s: Submission)
    ensures s.info == info && s.submittedTime == now
    ensures s.status == (if status.Some? then status.value else Pending)
    ensures s.isExpired == Some(false) && s.currentBid == Some(0) && s.previousBidders == []
    ensures s.expiresAt == Some(now + AUCTION_DURATION)
    ensures s.baseBid.None? && s.channelId.None? && s.channelMessageId.None? && s.groupMessageId.None?
    ensures s.lastBidderId.None? && s.lastBidderUsername.None? && s.lastBidTime.None?
  {
    Submission(
      info := info,
      submittedTime := now,
      status := if status.Some? then status.value else Pending,
      baseBid := None,
      channelId := None,
      previousBidders := [],
      channelMessageId := None,
      groupMessageId := None,
      expiresAt := Some(now + AUCTION_DURATION),
      isExpired := Some(false),
      currentBid := Some(0),
      lastBidderId := None,
      lastBidderUsername := None,
      lastBidTime := None)
  }

  /** A document of the `users` collection. */
  datatype User = User(id: int, fullName: string, username: Option<string>, isBanned: bool, firstSeen: int, lastSeen: int)

  function NewUser(id: int, fullName: string, username: Option<string>, now: int): (u: User)
    ensures u.id == id && u.fullName == fullName && u.username == username
    ensures !u.isBanned && u.firstSeen == now && u.lastSeen == now
  {
    User(id, fullName, username, false, now, now)
  }

  /** A document of the `global_bans` collection. */
  datatype GlobalBan = GlobalBan(userId: int, reason: Option<string>, bannedBy: int, timestamp: int)

  /** The `GlobalBan` model built from its two required integers. */
  function NewGlobalBan(userId: int, bannedBy: int, now: int): (b: GlobalBan)
    ensures b.userId == userId && b.bannedBy == bannedBy
    ensures b.reason.None? && b.timestamp == now
  {
    GlobalBan(userId, None, bannedBy, now)
  }

  /** The configuration constants the core reads. */
  datatype Config = Config(ownerId: int, admins: seq<int>, groupId: int, channelId: int, logGroupId: int)

  // ---- ObjectId ----------------------------------------------------------

  /** A 12-byte ObjectId, held as the number its bytes spell. */
  datatype ObjectId = ObjectId(value: nat)

  predicate IsHexDigit(c: char)
  {
    ('0' <= c <= '9') || ('a' <= c <= 'f') || ('A' <= c <= 'F')
  }

  function HexDigitValue(c: char): (d: nat)
    ensures d < 16
  {
    if '0' <= c <= '9' then c as int - '0' as int
    else if 'a' <= c <= 'f' then c as int - 'a' as int + 10
    else if 'A' <= c <= 'F' then c as int - 'A' as int + 10
    else 0
  }

  function HexValue(s: string): nat
  {
    if s == [] then 0 else HexValue(s[..|s| - 1]) * 16 + HexDigitValue(s[|s| - 1])
  }

  function Pow16(n: nat): (p: nat)
    ensures p >= 1
  {
    if n == 0 then 1 else 16 * Pow16(n - 1)
  }

  /** `n` hex digits spell a number below 16^n. */
  lemma {:induction false} HexValueBound(s: string)
    ensures HexValue(s) < Pow16(|s|)
  {
    if s != [] {
      var init := s[..|s| - 1];
      HexValueBound(init);
      var h, d, p := HexValue(init), HexDigitValue(s[|s| - 1]), Pow16(|init|);
      assert h <= p - 1 && d <= 15;
      assert h * 16 <= (p - 1) * 16;
      assert HexValue(s) == h * 16 + d;
      assert Pow16(|s|) == 16 * p;
    }
  }

  /** `ObjectId.is_valid` on a string: exactly 24 hex digits. */
  predicate IsValidObjectId(v: string)
  {
    |v| == 24 && forall i :: 0 <= i < |v| ==> IsHexDigit(v[i])
  }

  /** `PyObjectId.validate`: the ObjectId a valid string denotes, None where
      it raises ValueError. */
  function ValidateObjectId(v: string): (r: Option<ObjectId>)
    ensures r.Some? <==> IsValidObjectId(v)
    ensures r.Some? ==> r.value.value < Pow16(24)
  {
    if IsValidObjectId(v) then
      HexValueBound(v);
      Some(ObjectId(HexValue(v)))
    else None
  }
}

=== FILE: my_items.dfy ===
/** The listing behind `/myitems` (handlers/my_items.py): a user's live
    auctions of one type, with the bid each shows. */
module MyItems {
  import opened Common
  import opened Strings
  import opened Models
  import opened Store
  import opened Session
  import opened PhotoHandler
  import opened BaseBid
  import opened Approval
  import opened Cleanup

  /** `to_list(length=100)`. */
  const LIST_LIMIT: nat := 100

  /** `query.data.split(":")[1]`; the handler is only reached for data with
      the `myitems_type:` prefix, so there is a second piece. */
  function SelectedTypeOf(data: string): (t: string)
    requires |Split(data, ":")| >= 2
    ensures !Contains(t, ":")
  {
    var parts := Split(data, ":");
    SplitPiecesHaveNoSeparator(data, ":");
    parts[1]
  }

  /** No piece of a split contains the separator. */
  lemma {:induction false} SplitPiecesHaveNoSeparator(s: string, sep: string)
    requires |sep| > 0
    ensures forall i :: 0 <= i < |Split(s, sep)| ==> !Contains(Split(s, sep)[i], sep)
    decreases |s|
  {
    match IndexOf(s, sep)
    case None =>
    case Some(k) =>
      var rest := s[k + |sep|..];
      SplitPiecesHaveNoSeparator(rest, sep);
      var parts, tail := Split(s, sep), Split(rest, sep);
      assert parts == [BeforeFirst(s, sep)] + tail;
      forall i | 0 <= i < |parts|
        ensures !Contains(parts[i], sep)
      {
        if i > 0 {
          assert parts[i] == tail[i - 1];
        }
      }
  }

  /** The query filter: `user_id` equal to the caller's id as a string (an
      integer `user_id` never matches), the type, status "approved", and
      `is_expired` exactly False. */
  predicate Listed(s: Submission, uid: int, itemType: string)
  {
    s.info.userId == Some(StrUser(Decimal(uid))) && s.info.itemType == Some(itemType)
    && s.status == Approved && s.isExpired == Some(false)
  }

  /** `current_bid or base_bid or 0`. */
  function DisplayedBid(s: Submission): (b: int)
    ensures TruthyInt(s.currentBid) ==> b == s.currentBid.value
    ensures !TruthyInt(s.currentBid) && TruthyInt(s.baseBid) ==> b == s.baseBid.value
    ensures !TruthyInt(s.currentBid) && !TruthyInt(s.baseBid) ==> b == 0
  {
    var o := OrInt(OrInt(s.currentBid, s.baseBid), Some(0));
    o.value
  }

  /** One line of the list. */
  datatype ListEntry = ListEntry(name: Option<string>, bid: int)

  /** `waifu_name or anime_name`, and the displayed bid. */
  function EntryOf(s: Submission): (e: ListEntry)
    ensures TruthyStr(s.info.waifuName) ==> e.name == s.info.waifuName
    ensures !TruthyStr(s.info.waifuName) ==> e.name == s.info.animeName
    ensures e.bid == DisplayedBid(s)
  {
    ListEntry(OrStr(s.info.waifuName, s.info.animeName), DisplayedBid(s))
  }

  datatype MyItemsReply = NoItems(itemType: string) | ItemList(itemType: string, entries: seq<ListEntry>)

  /** `myitems_type_handler`: the first hundred matches in natural order,
      one line each, built by a loop. */
  method MyItemsTypeHandler(store: SubmissionStore, uid: int, data: string) returns (reply: MyItemsReply)
    requires store.Valid() && |Split(data, ":")| >= 2
    ensures var t := SelectedTypeOf(data);
      var sel := Take(Select(store.order, store.items, s => Listed(s, uid, t)), LIST_LIMIT);
      (sel == [] ==> reply == NoItems(t))
      && (sel != [] ==>
            reply.ItemList? && reply.itemType == t && |reply.entries| == |sel|
            && forall i :: 0 <= i < |sel| ==> sel[i] in store.items && reply.entries[i] == EntryOf(store.items[sel[i]]))
    ensures reply.ItemList? ==> 0 < |reply.entries| <= LIST_LIMIT
  {
    var t := SelectedTypeOf(data);
    var sel := Take(Select(store.order, store.items, s => Listed(s, uid, t)), LIST_LIMIT);
    if sel == [] {
      return NoItems(t);
    }
    var entries: seq<ListEntry> := [];
    var i := 0;
    while i < |sel|
      invariant 0 <= i <= |sel|
      invariant |entries| == i
      invariant forall j :: 0 <= j < i ==> sel[j] in store.items && entries[j] == EntryOf(store.items[sel[j]])
    {
      entries := entries + [EntryOf(store.items[sel[i]])];
      i := i + 1;
    }
    reply := ItemList(t, entries);
  }

  // ---- Properties -----------------------------------------------------------

  /** The callback data `myitems_type:<t>` selects `t`. */
  lemma SelectedTypeOfCallback(t: string)
    requires ':' !in t
    ensures |Split("myitems_type:" + t, ":")| >= 2 && SelectedTypeOf("myitems_type:" + t) == t
  {
    var p := "myitems_type";
    assert "myitems_type:" + t == p + ":" + t;
    SplitSecondAfterPrefix(p, t, ":");
    NoColon(t);
  }

  /** A draft approved with its channel post shows up in its owner's list
      for its type until it is flagged expired. */
  lemma ApprovedDraftIsListed(photo: PhotoMessage, t: string, rarity: string, table: RarityTable, now: int,
                              cfg: Config, now2: int, groupMsg: Option<int>, channelMsg: int)
    ensures var s := ApproveRecord(DraftRecord(photo, Text(t), rarity, table, now), cfg, now2, groupMsg, Some(channelMsg));
      Listed(s, photo.userId, t) && !Listed(MarkExpired(s), photo.userId, t)
  {
  }

  /** The record the base-bid step inserts keeps `user_id` as an integer,
      so it is never listed, even once approved and live. */
  lemma PendingRecordNeverListed(data: map<Key, Value>, msg: TextMessage, table: RarityTable, base: nat, now: int,
                                 uid: int, t: string)
    ensures !Listed(PendingRecord(data, msg, table, base, now).(status := Approved, isExpired := Some(false)), uid, t)
  {
  }

  /** A current bid of 0 (the record model's default) is falsy, so the line
      shows the base bid instead. */
  lemma ZeroBidShowsBase(s: Submission)
    requires s.currentBid == Some(0)
    ensures DisplayedBid(s) == (if TruthyInt(s.baseBid) then s.baseBid.value else 0)
  {
  }
}

=== FILE: photo_handler.dfy ===
/** The photo step of a submission (handlers/photo_handler.py): check the
    caption against the type and rarity picked earlier, pull the names out
    of it, store a draft and ask for the base bid. */
module PhotoHandler {
  import opened Common
  import opened Strings
  import opened Models
  import opened Store
  import opened Session
  import opened Cleanup

  /** The emoji-to-name table, in the table's iteration order. */
  type RarityTable = seq<(string, string)>

  /** `RARITY_MAP.get(key, "Unknown")`. */
  function RarityName(table: RarityTable, key: string): (r: string)
    ensures (forall j :: 0 <= j < |table| ==> table[j].0 != key) ==> r == "Unknown"
    ensures |table| > 0 && table[0].0 == key ==> r == table[0].1
  {
    if table == [] then "Unknown"
    else if table[0].0 == key then table[0].1
    else RarityName(table[1..], key)
  }

  /** `next((emoji for emoji in RARITY_MAP if emoji in caption), None)`, as a
      position in the table. */
  function FirstRarityIn(table: RarityTable, caption: string): (r: Option<nat>)
    ensures r.Some? ==> r.value < |table| && Contains(caption, table[r.value].0)
    ensures r.Some? ==> forall j :: 0 <= j < r.value ==> !Contains(caption, table[j].0)
    ensures r.None? ==> forall j :: 0 <= j < |table| ==> !Contains(caption, table[j].0)
  {
    if table == [] then None
    else if Contains(caption, table[0].0) then Some(0)
    else match FirstRarityIn(table[1..], caption)
      case None => None
      case Some(i) => Some(i + 1)
  }

  /** The entry at `i` is the one found when it occurs in the caption and no
      earlier entry does. */
  lemma {:induction false} FirstRarityAt(table: RarityTable, caption: string, i: nat)
    requires i < |table| && Contains(caption, table[i].0)
    requires forall j :: 0 <= j < i ==> !Contains(caption, table[j].0)
    ensures FirstRarityIn(table, caption) == Some(i)
    decreases i
  {
    if i > 0 {
      assert !Contains(caption, table[0].0);
      assert table[1..][i - 1] == table[i];
      FirstRarityAt(table[1..], caption, i - 1);
    }
  }

  // ---- Caption parsing ------------------------------------------------------

  /** The stripped, non-empty elements of `ls`. */
  function NonBlank(ls: seq<string>): (r: seq<string>)
    ensures |r| <= |ls|
    ensures forall i :: 0 <= i < |r| ==> r[i] != [] && !IsSpace(r[i][0]) && !IsSpace(r[i][|r[i]| - 1])
  {
    if ls == [] then []
    else
      var rest := NonBlank(ls[1..]);
      if Strip(ls[0]) != "" then [Strip(ls[0])] + rest else rest
  }

  /** `[line.strip() for line in caption.strip().split("\n") if line.strip()]`. */
  function CaptionLines(caption: string): (lines: seq<string>)
    ensures forall i :: 0 <= i < |lines| ==> lines[i] != [] && Strip(lines[i]) == lines[i]
  {
    var lines := NonBlank(Split(Strip(caption), "\n"));
    forall i | 0 <= i < |lines| ensures Strip(lines[i]) == lines[i] {
      StripUnchanged(lines[i]);
    }
    lines
  }

  /** The number of leading decimal digits of `a`. */
  function DigitRun(a: string): (n: nat)
    ensures n <= |a|
    ensures forall i :: 0 <= i < n ==> IsDigit(a[i])
    ensures n < |a| ==> !IsDigit(a[n])
  {
    if a != [] && IsDigit(a[0]) then 1 + DigitRun(a[1..]) else 0
  }

  /** `t` is matched in full by the pattern `\s*\d+/\d+\.?\s*` (the digit
      runs and the optional dot are forced, so a direct reading suffices). */
  predicate IsCountTail(t: string)
  {
    var a := LStrip(t);
    var n1 := DigitRun(a);
    0 < n1 < |a| && a[n1] == '/' &&
    var b := a[n1 + 1..];
    var n2 := DigitRun(b);
    n2 > 0 &&
    var c := b[n2..];
    var d := if |c| > 0 && c[0] == '.' then c[1..] else c;
    forall i :: 0 <= i < |d| ==> IsSpace(d[i])
  }

  /** The rest of `s` from `j` on is a count tail. */
  predicate CountTailAt(s: string, j: nat)
    requires j <= |s|
  {
    IsCountTail(s[j..])
  }

  /** The leftmost position at or after `i` from which the rest of `s` is a
      count tail: where `re.sub` with a `$`-anchored pattern cuts. */
  function CountTailFrom(s: string, i: nat): (r: Option<nat>)
    requires i <= |s|
    ensures r.Some? ==> i <= r.value <= |s|
  {
    FirstFrom(TailAt(s), i, |s|)
  }

  /** `CountTailAt(s, _)` as a predicate on positions, false past the end. */
  function TailAt(s: string): nat -> bool
  {
    (j: nat) => j <= |s| && CountTailAt(s, j)
  }

  /** The least position in `[i, n]` where `p` holds. */
  function FirstFrom(p: nat -> bool, i: nat, n: nat): (r: Option<nat>)
    requires i <= n
    ensures r.Some? ==> i <= r.value <= n
    decreases n - i
  {
    if p(i) then Some(i)
    else if i == n then None
    else FirstFrom(p, i + 1, n)
  }

  /** The search finds a position where `p` holds, the least one, and
      reports none only when there is none. */
  lemma {:induction false} FirstFromLeast(p: nat -> bool, i: nat, n: nat)
    requires i <= n
    ensures var r := FirstFrom(p, i, n);
      && (r.Some? ==> p(r.value) && forall j :: i <= j < r.value ==> !p(j))
      && (r.None? ==> forall j :: i <= j <= n ==> !p(j))
    decreases n - i
  {
    if !p(i) && i < n {
      FirstFromLeast(p, i + 1, n);
    }
  }

  /** The cut falls at a count tail, the leftmost one. */
  lemma CountTailFromLeftmost(s: string, i: nat)
    requires i <= |s|
    ensures var r := CountTailFrom(s, i);
      && (r.Some? ==> CountTailAt(s, r.value) && forall j :: i <= j < r.value ==> !CountTailAt(s, j))
      && (r.None? ==> forall j :: i <= j <= |s| ==> !CountTailAt(s, j))
  {
    var p, r := TailAt(s), CountTailFrom(s, i);
    FirstFromLeast(p, i, |s|);
    var last := if r.Some? then r.value - 1 else |s|;
    forall j | i <= j <= last
      ensures !CountTailAt(s, j)
    {
      assert !p(j);
    }
  }

  /** `re.sub(r"\s*\d+\/\d+\.?\s*$", "", s)`. */
  function DropCountTail(s: string): (r: string)
    ensures |r| <= |s| && r == s[..|r|]
    ensures r != s ==> CountTailAt(s, |r|)
  {
    CountTailFromLeftmost(s, 0);
    match CountTailFrom(s, 0)
    case None => s
    case Some(i) => s[..i]
  }

  /** The anime name: the second line without its trailing "n/m" count,
      or "Unknown" with fewer than two lines. */
  function AnimeNameOf(lines: seq<string>): (r: string)
    ensures |lines| <= 1 ==> r == "Unknown"
    ensures |lines| > 1 ==> r == Strip(DropCountTail(lines[1]))
  {
    if |lines| > 1 then Strip(DropCountTail(lines[1])) else "Unknown"
  }

  /** The character name: on the third line, the text between the first and
      second ":" cut before the first "x1", or the whole line without a ":";
      "Unknown" with fewer than three lines. */
  function WaifuNameOf(lines: seq<string>): (r: string)
    ensures |lines| <= 2 ==> r == "Unknown"
    ensures |lines| > 2 && !Contains(Strip(lines[2]), ":") ==> r == Strip(lines[2])
    ensures |lines| > 2 && Contains(Strip(lines[2]), ":") ==>
      r == Strip(BeforeFirst(Split(Strip(lines[2]), ":")[1], "x1"))
  {
    if |lines| > 2 then
      var line := Strip(lines[2]);
      var parts := Split(line, ":");
      if |parts| > 1 then Strip(BeforeFirst(parts[1], "x1"))
      else
        assert !Contains(line, ":");
        line
    else "Unknown"
  }

  const NO_TAG: string := "\U{2014}"

  /** The tag: the last line when there are at least four lines and it does
      not mention "RARITY" in any case; otherwise a dash. */
  function OptionalTagOf(lines: seq<string>): (r: string)
    ensures |lines| > 3 && !Contains(Upper(lines[|lines| - 1]), "RARITY") ==> r == lines[|lines| - 1]
    ensures !(|lines| > 3 && !Contains(Upper(lines[|lines| - 1]), "RARITY")) ==> r == NO_TAG
  {
    if |lines| > 3 && !Contains(Upper(lines[|lines| - 1]), "RARITY") then lines[|lines| - 1] else NO_TAG
  }

  // ---- The handler ----------------------------------------------------------

  /** An incoming photo message. `eligible` folds the silent guards: a
      private chat, a message with a photo, a sender. `fileId` is the id of
      the largest size. */
  datatype PhotoMessage = PhotoMessage(eligible: bool, caption: Option<string>, fileId: string,
                                       userId: int, username: Option<string>, fullName: string)

  datatype PhotoReply =
    | PhotoIgnored
    | NotAMember
    | StartAgain
    | LooksLikeWaifu
    | LooksLikeHusbando
    | NoRarityEmoji
    | RarityMismatch(found: string)
    | AskBaseBid

  datatype PhotoCheck = PhotoRefuse(reply: PhotoReply) | PhotoAccept(selectedType: Value, rarity: string)

  /** `update.message.caption or ""`. */
  function CaptionText(c: Option<string>): (r: string)
    ensures TruthyStr(c) ==> r == c.value
    ensures !TruthyStr(c) ==> r == ""
  {
    if TruthyStr(c) then c.value else ""
  }

  /** The guards of `handle_photo`, in order. `member` is the answer of the
      membership helper. */
  function CheckPhoto(data: map<Key, Value>, msg: PhotoMessage, member: bool, table: RarityTable): (r: PhotoCheck)
    ensures msg.eligible && member && !(TruthyAt(data, TypeKey) && TruthyAt(data, RarityKey)) ==> r == PhotoRefuse(StartAgain)
    ensures r.PhotoAccept? ==>
      msg.eligible && member && TruthyAt(data, TypeKey) && data[TypeKey] == r.selectedType
      && data[RarityKey] == Text(r.rarity)
      && (Contains(Lower(CaptionText(msg.caption)), "waifu") ==> r.selectedType == Text("waifu"))
      && (Contains(Lower(CaptionText(msg.caption)), "husbando") ==> r.selectedType == Text("husbando"))
      && FirstRarityIn(table, CaptionText(msg.caption)).Some?
      && table[FirstRarityIn(table, CaptionText(msg.caption)).value].0 == r.rarity
      && r.rarity != ""
  {
    var caption := CaptionText(msg.caption);
    if !msg.eligible then PhotoRefuse(PhotoIgnored)
    else if !member then PhotoRefuse(NotAMember)
    else if !(TruthyAt(data, TypeKey) && TruthyAt(data, RarityKey)) then PhotoRefuse(StartAgain)
    else
      var selectedType, selectedRarity := data[TypeKey], data[RarityKey];
      if Contains(Lower(caption), "waifu") && selectedType != Text("waifu") then PhotoRefuse(LooksLikeWaifu)
      else if Contains(Lower(caption), "husbando") && selectedType != Text("husbando") then PhotoRefuse(LooksLikeHusbando)
      else match FirstRarityIn(table, caption)
        case None => PhotoRefuse(NoRarityEmoji)
        case Some(i) =>
          var found := table[i].0;
          if found == "" then PhotoRefuse(NoRarityEmoji)
          else if Text(found) != selectedRarity then PhotoRefuse(RarityMismatch(found))
          else PhotoAccept(selectedType, found)
  }

  /** The descriptive fields of the draft. `user_id` is stored as a string. */
  function DraftInfo(msg: PhotoMessage, selectedType: Value, rarity: string, table: RarityTable): (info: ItemInfo)
    ensures info.userId == Some(StrUser(Decimal(msg.userId)))
    ensures info.itemType == (if selectedType.Text? then Some(selectedType.s) else None)
    ensures info.rarity == Some(rarity) && info.rarityName == Some(RarityName(table, rarity))
    ensures var lines := CaptionLines(CaptionText(msg.caption));
      info.animeName == Some(AnimeNameOf(lines)) && info.waifuName == Some(WaifuNameOf(lines))
      && info.optionalTag == Some(OptionalTagOf(lines))
    ensures info.caption == Some(CaptionText(msg.caption)) && info.fileId == Some(msg.fileId)
  {
    var caption := CaptionText(msg.caption);
    var lines := CaptionLines(caption);
    ItemInfo(
      userId := Some(StrUser(Decimal(msg.userId))),
      userName := Some(msg.fullName),
      username := if TruthyStr(msg.username) then msg.username else None,
      itemType := if selectedType.Text? then Some(selectedType.s) else None,
      rarity := Some(rarity),
      rarityName := Some(RarityName(table, rarity)),
      animeName := Some(AnimeNameOf(lines)),
      waifuName := Some(WaifuNameOf(lines)),
      optionalTag := Some(OptionalTagOf(lines)),
      caption := Some(caption),
      fileId := Some(msg.fileId))
  }

  /** The draft document: the record model's defaults with status "draft". */
  function DraftRecord(msg: PhotoMessage, selectedType: Value, rarity: string, table: RarityTable, now: int): (s: Submission)
    ensures s.status == Draft && s.info == DraftInfo(msg, selectedType, rarity, table)
    ensures s.expiresAt == Some(now + AUCTION_DURATION) && s.isExpired == Some(false)
  {
    NewSubmission(DraftInfo(msg, selectedType, rarity, table), Some(Draft), now)
  }

  /** A string field of the draft as a session value. */
  function TextOf(o: Option<string>): (v: Value)
    ensures o.Some? ==> v == Text(o.value)
  {
    Text(if o.Some? then o.value else "")
  }

  /** What the photo step leaves for the base-bid step: the draft's fields,
      the type as picked, the draft's id and the `awaiting_bid` flag. */
  function PhotoSession(info: ItemInfo, selectedType: Value, id: ItemId): (m: map<Key, Value>)
    ensures AwaitingBidKey in m && m[AwaitingBidKey] == Flag(true)
    ensures TypeKey in m && m[TypeKey] == selectedType
  {
    map[
      SubmissionIdKey := Number(id),
      TypeKey := selectedType,
      RarityKey := TextOf(info.rarity),
      RarityNameKey := TextOf(info.rarityName),
      CaptionKey := TextOf(info.caption),
      AnimeNameKey := TextOf(info.animeName),
      WaifuNameKey := TextOf(info.waifuName),
      OptionalTagKey := TextOf(info.optionalTag),
      FileIdKey := TextOf(info.fileId),
      AwaitingBidKey := Flag(true)]
  }

  /** `handle_photo`: a refused photo changes nothing; an accepted one
      inserts a draft under a fresh id and records the parsed fields in the
      session, with `awaiting_bid` set. */
  method HandlePhoto(store: SubmissionStore, session: UserData, msg: PhotoMessage, member: bool,
                     table: RarityTable, now: int, freshId: ItemId) returns (reply: PhotoReply)
    requires store.Valid() && freshId !in store.items
    modifies store, session
    ensures store.Valid()
    ensures var c := CheckPhoto(old(session.data), msg, member, table);
      c.PhotoRefuse? ==>
        reply == c.reply && store.items == old(store.items) && store.order == old(store.order)
        && session.data == old(session.data)
    ensures var c := CheckPhoto(old(session.data), msg, member, table);
      c.PhotoAccept? ==>
        reply == AskBaseBid
        && store.items == old(store.items)[freshId := DraftRecord(msg, c.selectedType, c.rarity, table, now)]
        && store.order == old(store.order) + [freshId]
        && session.data == old(session.data) + PhotoSession(DraftInfo(msg, c.selectedType, c.rarity, table), c.selectedType, freshId)
  {
    var c := CheckPhoto(session.data, msg, member, table);
    if c.PhotoRefuse? {
      return c.reply;
    }
    var record := DraftRecord(msg, c.selectedType, c.rarity, table, now);
    var entries := PhotoSession(DraftInfo(msg, c.selectedType, c.rarity, table), c.selectedType, freshId);
    SaveDraft(store, session, freshId, record, entries);
    reply := AskBaseBid;
  }

  /** The two writes of an accepted photo: `insert_one` of the draft, then
      the session fields. */
  method SaveDraft(store: SubmissionStore, session: UserData, id: ItemId, record: Submission,
                   entries: map<Key, Value>)
    requires store.Valid() && id !in store.items
    modifies store, session
    ensures store.Valid()
    ensures store.items == old(store.items)[id := record] && store.order == old(store.order) + [id]
    ensures session.data == old(session.data) + entries
  {
    store.Insert(id, record);
    session.Update(entries);
  }

  // ---- Properties -----------------------------------------------------------

  /** A caption mentioning "waifu" (in any case) is refused unless the type
      picked is "waifu"; likewise "husbando". */
  lemma TypeWordMustMatch(data: map<Key, Value>, msg: PhotoMessage, member: bool, table: RarityTable)
    requires msg.eligible && member && TruthyAt(data, TypeKey) && TruthyAt(data, RarityKey)
    ensures Contains(Lower(CaptionText(msg.caption)), "waifu") && data[TypeKey] != Text("waifu") ==>
      CheckPhoto(data, msg, member, table) == PhotoRefuse(LooksLikeWaifu)
    ensures (!Contains(Lower(CaptionText(msg.caption)), "waifu") && Contains(Lower(CaptionText(msg.caption)), "husbando")
             && data[TypeKey] != Text("husbando")) ==>
      CheckPhoto(data, msg, member, table) == PhotoRefuse(LooksLikeHusbando)
  {
  }

  /** Once the type words agree with the type picked, the rarity that
      decides is the first table entry found in the caption: a later entry
      that matches the pick does not help. */
  lemma FirstRarityDecides(data: map<Key, Value>, msg: PhotoMessage, member: bool, table: RarityTable, i: nat)
    requires msg.eligible && member && TruthyAt(data, TypeKey) && TruthyAt(data, RarityKey)
    requires Contains(Lower(CaptionText(msg.caption)), "waifu") ==> data[TypeKey] == Text("waifu")
    requires Contains(Lower(CaptionText(msg.caption)), "husbando") ==> data[TypeKey] == Text("husbando")
    requires i < |table| && Contains(CaptionText(msg.caption), table[i].0) && table[i].0 != ""
    requires forall j :: 0 <= j < i ==> !Contains(CaptionText(msg.caption), table[j].0)
    ensures data[RarityKey] == Text(table[i].0) ==> CheckPhoto(data, msg, member, table) == PhotoAccept(data[TypeKey], table[i].0)
    ensures data[RarityKey] != Text(table[i].0) ==> CheckPhoto(data, msg, member, table) == PhotoRefuse(RarityMismatch(table[i].0))
  {
    FirstRarityAt(table, CaptionText(msg.caption), i);
  }

  /** A count tail contains a "/". */
  lemma CountTailHasSlash(t: string)
    requires IsCountTail(t)
    ensures '/' in t
  {
    var a := LStrip(t);
    var n1 := DigitRun(a);
    assert a[n1] == t[|t| - |a| + n1];
  }

  /** A second line without "/" is kept whole as the anime name. */
  lemma {:induction false} LineWithoutCountKept(s: string)
    requires '/' !in s
    ensures DropCountTail(s) == s
  {
    match CountTailFrom(s, 0)
    case None =>
    case Some(i) =>
      CountTailFromLeftmost(s, 0);
      CountTailHasSlash(s[i..]);
  }

  /** A third line "label: name", with no ":" in the label or the name and no
      "x1" after the colon, gives the name. */
  lemma WaifuNameOfLabelledLine(lines: seq<string>, heading: string, name: string)
    requires |lines| > 2 && lines[2] == heading + ": " + name
    requires ':' !in heading && ':' !in name
    requires !Contains(" " + name, "x1")
    requires name != [] && !IsSpace(name[0]) && !IsSpace(name[|name| - 1])
    requires heading != [] && !IsSpace(heading[0])
    ensures WaifuNameOf(lines) == name
  {
    var line := lines[2];
    var rest := " " + name;
    assert line == heading + ":" + rest;
    assert line[0] == heading[0] && line[|line| - 1] == name[|name| - 1];
    StripUnchanged(line);
    assert forall j :: 0 <= j < |heading| ==> heading[j] != ":"[0];
    SplitSecondAfterPrefix(heading, rest, ":");
    NoColon(rest);
    assert Split(line, ":")[1] == rest;
    assert BeforeFirst(rest, "x1") == rest;
    StripLeadingSpace(name);
  }

  /** `s` has no ":" as a substring when it has no ':' character. */
  lemma NoColon(s: string)
    requires ':' !in s
    ensures !Contains(s, ":")
    ensures BeforeFirst(s, ":") == s
  {
    forall j | 0 <= j && j + 1 <= |s|
      ensures !OccursAt(s, ":", j)
    {
      assert s[j..j + 1][0] == s[j];
    }
  }

  /** The second piece of `p + sep + q` split on `sep` is what precedes the
      next `sep` in `q`, when `p` cannot start one. */
  lemma SplitSecondAfterPrefix(p: string, q: string, sep: string)
    requires |sep| > 0 && forall j :: 0 <= j < |p| ==> p[j] != sep[0]
    ensures var parts := Split(p + sep + q, sep);
      |parts| >= 2 && parts[1] == BeforeFirst(q, sep)
  {
    var s := p + sep + q;
    NoOccurrenceInPrefix(p, sep + q, sep);
    assert s == p + (sep + q);
    assert s[|p|..|p| + |sep|] == sep;
    IndexOfFirst(s, sep, |p|);
    assert s[|p| + |sep|..] == q;
  }

  /** The session entries the photo step writes read back as the draft's
      fields. */
  lemma PhotoSessionMatchesDraft(info: ItemInfo, selectedType: Value, id: ItemId)
    requires selectedType.Text? && info.itemType == Some(selectedType.s)
    requires info.rarity.Some? && info.caption.Some? && info.fileId.Some?
    requires info.animeName.Some? && info.waifuName.Some? && info.optionalTag.Some?
    ensures var m := PhotoSession(info, selectedType, id);
      TextAt(m, TypeKey) == info.itemType && TextAt(m, RarityKey) == info.rarity
      && TextAt(m, AnimeNameKey) == info.animeName && TextAt(m, WaifuNameKey) == info.waifuName
      && TextAt(m, OptionalTagKey) == info.optionalTag && TextAt(m, CaptionKey) == info.caption
      && TextAt(m, FileIdKey) == info.fileId
  {
  }

  /** A draft left waiting carries the model's three-day deadline and
      `is_expired` False, so the expiry marker flags it once the deadline
      passes, though it was never approved. */
  lemma DraftIsMarkedAfterThreeDays(msg: PhotoMessage, selectedType: Value, rarity: string, table: RarityTable, now: int, t: int)
    ensures MarkerSelects(DraftRecord(msg, selectedType, rarity, table, now), t) <==> t >= now + AUCTION_DURATION
  {
  }
}

=== FILE: rm.dfy ===
/** `/rm` (handlers/rm.py): an admin deletes items by ObjectId. */
module Remove {
  import opened Common
  import opened Models
  import opened Store
  import opened GlobalBans

  datatype RmReply = RmIgnored | RmUsage | InvalidObjectId(arg: string) | DeletedItems(count: nat) | NoMatchingItems

  /** The position of the first argument that is not an ObjectId. */
  function FirstInvalid(args: seq<string>): (r: Option<nat>)
    ensures r.Some? ==> r.value < |args| && !IsValidObjectId(args[r.value])
    ensures r.Some? ==> forall j :: 0 <= j < r.value ==> IsValidObjectId(args[j])
    ensures r.None? ==> forall j :: 0 <= j < |args| ==> IsValidObjectId(args[j])
  {
    if args == [] then None
    else if !IsValidObjectId(args[0]) then Some(0)
    else match FirstInvalid(args[1..])
      case None => None
      case Some(i) => Some(i + 1)
  }

  /** The ids the arguments spell, all of which are valid. */
  function IdsOf(args: seq<string>): (ids: seq<ItemId>)
    requires forall j :: 0 <= j < |args| ==> IsValidObjectId(args[j])
    ensures |ids| == |args|
    ensures forall j :: 0 <= j < |args| ==> ids[j] == ValidateObjectId(args[j]).value.value
  {
    if args == [] then [] else [ValidateObjectId(args[0]).value.value] + IdsOf(args[1..])
  }

  function SetOf(s: seq<ItemId>): set<ItemId>
  {
    set x | x in s
  }

  /** `deleted_count`: the number of distinct listed ids that name a
      document. */
  function DeletedCount(keys: set<ItemId>, ids: seq<ItemId>): (n: nat)
    ensures n <= |ids|
  {
    CardinalityBound(keys, ids);
    |keys * SetOf(ids)|
  }

  lemma {:induction false} CardinalityBound(keys: set<ItemId>, ids: seq<ItemId>)
    ensures |keys * SetOf(ids)| <= |ids|
  {
    if ids != [] {
      var x := ids[|ids| - 1];
      var init := ids[..|ids| - 1];
      CardinalityBound(keys, init);
      assert SetOf(ids) == SetOf(init) + {x} by {
        assert ids == init + [x];
      }
      assert keys * SetOf(ids) <= (keys * SetOf(init)) + {x};
      SubsetCard(keys * SetOf(ids), (keys * SetOf(init)) + {x});
    }
  }

  lemma SubsetCard(a: set<ItemId>, b: set<ItemId>)
    requires a <= b
    ensures |a| <= |b|
  {
    assert b == a + (b - a);
  }

  /** The first loop of `rm_items`: parse every argument, stopping at the
      first one that is not an ObjectId. */
  method ParseObjectIds(args: seq<string>) returns (ids: seq<ItemId>, bad: Option<nat>)
    ensures bad == FirstInvalid(args)
    ensures bad.None? ==> ids == IdsOf(args)
  {
    ids := [];
    var i := 0;
    while i < |args|
      invariant 0 <= i <= |args|
      invariant forall j :: 0 <= j < i ==> IsValidObjectId(args[j])
      invariant ids == IdsOf(args[..i])
    {
      var oid := ValidateObjectId(args[i]);
      if oid.None? {
        FirstInvalidAt(args, i);
        return ids, Some(i);
      }
      IdsOfAppend(args, i);
      ids := ids + [oid.value.value];
      i := i + 1;
    }
    assert args[..|args|] == args;
    FirstInvalidNone(args);
    bad := None;
  }

  /** The second loop of `rm_items`: delete each id still present and count
      the deletions. */
  method DeleteFound(store: SubmissionStore, ids: seq<ItemId>) returns (count: nat)
    requires store.Valid()
    modifies store
    ensures store.Valid()
    ensures store.items == old(store.items) - SetOf(ids)
    ensures count == DeletedCount(old(store.items).Keys, ids)
  {
    var items0 := store.items;
    count := 0;
    var i := 0;
    while i < |ids|
      invariant 0 <= i <= |ids|
      invariant store.Valid()
      invariant store.items == items0 - SetOf(ids[..i])
      invariant count == DeletedCount(items0.Keys, ids[..i])
    {
      DeleteStep(items0, ids, i);
      var deleted := DeleteIfPresent(store, ids[i]);
      if deleted {
        count := count + 1;
      }
      i := i + 1;
    }
    assert ids[..|ids|] == ids;
  }

  /** One step of the deletion loop: the next id is present exactly when it
      names a document not yet deleted, and then it adds one to the count. */
  lemma DeleteStep(items: map<ItemId, Submission>, ids: seq<ItemId>, i: nat)
    requires i < |ids|
    ensures var done, id := SetOf(ids[..i]), ids[i];
      && items - SetOf(ids[..i + 1]) == (items - done) - {id}
      && DeletedCount(items.Keys, ids[..i + 1])
         == DeletedCount(items.Keys, ids[..i]) + (if id in items - done then 1 else 0)
  {
    SetOfSnoc(ids, i);
    SetStep(items, SetOf(ids[..i]), ids[i]);
  }

  lemma SetOfSnoc(ids: seq<ItemId>, i: nat)
    requires i < |ids|
    ensures SetOf(ids[..i + 1]) == SetOf(ids[..i]) + {ids[i]}
  {
    assert ids[..i + 1] == ids[..i] + [ids[i]];
  }

  lemma SetStep(items: map<ItemId, Submission>, done: set<ItemId>, id: ItemId)
    ensures items - (done + {id}) == (items - done) - {id}
    ensures |items.Keys * (done + {id})| == |items.Keys * done| + (if id in items - done then 1 else 0)
  {
    if id in items - done {
      assert id !in items.Keys * done;
      assert items.Keys * (done + {id}) == (items.Keys * done) + {id};
    } else {
      assert items.Keys * (done + {id}) == items.Keys * done;
    }
  }

  /** One `delete_one`: removes the document if there is one and says
      whether it did. */
  method DeleteIfPresent(store: SubmissionStore, id: ItemId) returns (deleted: bool)
    requires store.Valid()
    modifies store
    ensures store.Valid() && store.items == old(store.items) - {id}
    ensures deleted == (id in old(store.items))
  {
    deleted := id in store.items;
    if deleted {
      store.Delete(id);
    }
  }

  /** `rm_items`: the caller check, the argument check, then every id is
      parsed before anything is deleted, so one bad id deletes nothing. Each
      id still present is deleted in turn; a failure to delete its Telegram
      messages is ignored and does not stop the store deletion. */
  method RmItems(store: SubmissionStore, cfg: Config, caller: int, args: seq<string>) returns (reply: RmReply)
    requires store.Valid()
    modifies store
    ensures store.Valid()
    ensures !IsAdminOrOwner(cfg, caller) ==> reply == RmIgnored && store.items == old(store.items)
    ensures IsAdminOrOwner(cfg, caller) && args == [] ==> reply == RmUsage && store.items == old(store.items)
    ensures IsAdminOrOwner(cfg, caller) && args != [] && FirstInvalid(args).Some? ==>
      reply == InvalidObjectId(args[FirstInvalid(args).value]) && store.items == old(store.items)
    ensures IsAdminOrOwner(cfg, caller) && args != [] && FirstInvalid(args).None? ==>
      var ids := IdsOf(args);
      var n := DeletedCount(old(store.items).Keys, ids);
      store.items == old(store.items) - SetOf(ids)
      && reply == (if n > 0 then DeletedItems(n) else NoMatchingItems)
  {
    if !IsAdminOrOwner(cfg, caller) {
      return RmIgnored;
    }
    if args == [] {
      return RmUsage;
    }
    var ids, bad := ParseObjectIds(args);
    if bad.Some? {
      return InvalidObjectId(args[bad.value]);
    }
    var count := DeleteFound(store, ids);
    reply := if count > 0 then DeletedItems(count) else NoMatchingItems;
  }

  lemma FirstInvalidAt(args: seq<string>, i: nat)
    requires i < |args| && !IsValidObjectId(args[i])
    requires forall j :: 0 <= j < i ==> IsValidObjectId(args[j])
    ensures FirstInvalid(args) == Some(i)
  {
  }

  lemma FirstInvalidNone(args: seq<string>)
    requires forall j :: 0 <= j < |args| ==> IsValidObjectId(args[j])
    ensures FirstInvalid(args).None?
  {
  }

  lemma IdsOfAppend(args: seq<string>, i: nat)
    requires i < |args| && forall j :: 0 <= j <= i ==> IsValidObjectId(args[j])
    ensures IdsOf(args[..i + 1]) == IdsOf(args[..i]) + [ValidateObjectId(args[i]).value.value]
  {
    var a, b := IdsOf(args[..i + 1]), IdsOf(args[..i]) + [ValidateObjectId(args[i]).value.value];
    assert forall j :: 0 <= j < i + 1 ==> a[j] == b[j];
  }

  // ---- Properties -----------------------------------------------------------

  /** Naming an id twice deletes it once and counts it once. */
  lemma RepeatedIdCountsOnce(keys: set<ItemId>, ids: seq<ItemId>, x: ItemId)
    requires x in ids
    ensures DeletedCount(keys, ids + [x]) == DeletedCount(keys, ids)
    ensures SetOf(ids + [x]) == SetOf(ids)
  {
    assert SetOf(ids + [x]) == SetOf(ids);
  }

  /** The count is at most the number of documents there were. */
  lemma CountBoundedByStore(keys: set<ItemId>, ids: seq<ItemId>)
    ensures DeletedCount(keys, ids) <= |keys|
  {
    SubsetCard(keys * SetOf(ids), keys);
  }

  /** The count is zero exactly when no listed id names a document. */
  lemma NoMatchIffZero(keys: set<ItemId>, ids: seq<ItemId>)
    ensures DeletedCount(keys, ids) == 0 <==> forall j :: 0 <= j < |ids| ==> ids[j] !in keys
  {
    forall j | 0 <= j < |ids|
      ensures ids[j] in keys ==> ids[j] in keys * SetOf(ids)
    {
    }
    if forall j :: 0 <= j < |ids| ==> ids[j] !in keys {
      assert keys * SetOf(ids) == {};
    }
  }
}

=== FILE: session.dfy ===
/** `context.user_data`: the per-user dictionary that carries a submission
    from the photo step to the base-bid step. */
module Session {
  import opened Common

  /** The keys the core reads or writes; `OtherKey` stands for the ones the
      earlier `/add` steps leave behind. */
  datatype Key =
    | TypeKey | RarityKey | RarityNameKey | CaptionKey | AnimeNameKey | WaifuNameKey
    | OptionalTagKey | FileIdKey | AwaitingBidKey | SubmissionIdKey | BaseBidKey
    | OtherKey(name: string)

  /** The kinds of value the core stores in the dictionary. */
  datatype Value = Text(s: string) | Flag(b: bool) | Number(n: int)

  /** Python truthiness of a stored value. */
  predicate Truthy(v: Value)
  {
    match v
    case Text(s) => s != ""
    case Flag(b) => b
    case Number(n) => n != 0
  }

  /** `not user_data.get(key)` negated: present and truthy. */
  predicate TruthyAt(data: map<Key, Value>, key: Key)
  {
    key in data && Truthy(data[key])
  }

  /** `user_data.get(key)` where a string is expected: None when the key is
      missing or holds something other than a string. */
  function TextAt(data: map<Key, Value>, key: Key): (r: Option<string>)
    ensures r.Some? <==> key in data && data[key].Text?
    ensures r.Some? ==> data[key] == Text(r.value)
  {
    if key in data && data[key].Text? then Some(data[key].s) else None
  }

  class UserData {
    var data: map<Key, Value>

    constructor ()
      ensures data == map[]
    {
      data := map[];
    }

    /** `user_data.update(entries)`: the given keys are overwritten, the
        others kept. */
    method Update(entries: map<Key, Value>)
      modifies this
      ensures data == old(data) + entries
      ensures forall k :: k in old(data) && k !in entries ==> k in data && data[k] == old(data)[k]
    {
      data := data + entries;
    }

    /** `user_data[key] = v`. */
    method Set(key: Key, v: Value)
      modifies this
      ensures data == old(data)[key := v]
    {
      data := data[key := v];
    }

    /** `user_data.pop(key, None)`: no error when the key is missing. */
    method Pop(key: Key)
      modifies this
      ensures data == old(data) - {key}
      ensures key !in data
    {
      data := data - {key};
    }

    /** `user_data.clear()`. */
    method Clear()
      modifies this
      ensures data == map[]
    {
      data := map[];
    }
  }
}

=== FILE: store.dfy ===
/** The `submissions` collection: documents by key, plus the collection's
    natural order, which is the order `find` returns matches in. */
module Store {
  import opened Common
  import opened Models

  class SubmissionStore {
    var items: map<ItemId, Submission>
    var order: seq<ItemId>

    ghost predicate Valid()
      reads this
    {
      && Distinct(order)
      && (forall k :: k in items <==> k in order)
      && (forall i :: 0 <= i < |order| ==> order[i] in items)
    }

    constructor ()
      ensures Valid() && items == map[] && order == []
    {
      items := map[];
      order := [];
    }

    /** `insert_one` under a key no document has yet. */
    method Insert(id: ItemId, s: Submission)
      requires Valid() && id !in items
      modifies this
      ensures Valid()
      ensures items == old(items)[id := s] && order == old(order) + [id]
    {
      items := items[id := s];
      order := order + [id];
    }

    /** `update_one` with `$set`/`$push` on an existing document: the whole
        new document is given. */
    method Put(id: ItemId, s: Submission)
      requires Valid() && id in items
      modifies this
      ensures Valid()
      ensures items == old(items)[id := s] && order == old(order)
    {
      items := items[id := s];
    }

    /** `delete_one` by key. */
    method Delete(id: ItemId)
      requires Valid()
      modifies this
      ensures Valid()
      ensures items == old(items) - {id} && order == Without(old(order), id)
    {
      items := items - {id};
      order := Without(order, id);
    }
  }

  /** `x` occurs in `order` at an earlier position than `y`. */
  predicate Before(order: seq<ItemId>, x: ItemId, y: ItemId)
  {
    exists a, b :: 0 <= a < b < |order| && order[a] == x && order[b] == y
  }

  /** Every two elements of `r` occur in `order` in the same order: `r`
      lists its keys in the order `order` gives them. */
  predicate InOrder(r: seq<ItemId>, order: seq<ItemId>)
  {
    forall i, j :: 0 <= i < j < |r| ==> Before(order, r[i], r[j])
  }

  lemma InOrderTail(r: seq<ItemId>, order: seq<ItemId>)
    requires order != [] && InOrder(r, order[1..])
    ensures InOrder(r, order)
  {
    forall i, j | 0 <= i < j < |r|
      ensures Before(order, r[i], r[j])
    {
      assert Before(order[1..], r[i], r[j]);
      var a, b :| 0 <= a < b < |order[1..]| && order[1..][a] == r[i] && order[1..][b] == r[j];
      assert order[a + 1] == r[i] && order[b + 1] == r[j];
    }
  }

  lemma InOrderCons(r: seq<ItemId>, order: seq<ItemId>)
    requires order != [] && InOrder(r, order[1..]) && forall k :: k in r ==> k in order[1..]
    ensures InOrder([order[0]] + r, order)
  {
    InOrderTail(r, order);
    var r' := [order[0]] + r;
    forall i, j | 0 <= i < j < |r'|
      ensures Before(order, r'[i], r'[j])
    {
      assert r'[j] == r[j - 1];
      if i == 0 {
        assert r[j - 1] in order[1..];
        var b :| 0 <= b < |order[1..]| && order[1..][b] == r[j - 1];
        assert order[0] == r'[i] && order[b + 1] == r'[j];
      } else {
        assert r'[i] == r[i - 1];
        assert Before(order, r[i - 1], r[j - 1]);
      }
    }
  }

  /** `find(filter)`: the keys, in natural order, of the documents the
      filter accepts. */
  function Select(order: seq<ItemId>, items: map<ItemId, Submission>, p: Submission -> bool): (r: seq<ItemId>)
    requires forall i :: 0 <= i < |order| ==> order[i] in items
    ensures forall k :: k in r <==> k in order && p(items[k])
    ensures forall i :: 0 <= i < |r| ==> r[i] in items && p(items[r[i]])
    ensures |r| <= |order|
    ensures Distinct(order) ==> Distinct(r)
    ensures InOrder(r, order)
  {
    if order == [] then []
    else
      var rest := Select(order[1..], items, p);
      assert Distinct(order) ==> order[0] !in order[1..];
      if p(items[order[0]]) then
        InOrderCons(rest, order);
        [order[0]] + rest
      else
        InOrderTail(rest, order);
        rest
  }
}

=== FILE: strings.dfy ===
/** The few Python string routines the handlers rely on. Digits and case
    are restricted to ASCII where Python consults Unicode tables; whitespace
    is the full set `str.isspace()` accepts. */
module Strings {
  import opened Common

  predicate IsDigit(c: char)
  {
    '0' <= c <= '9'
  }

  /** `str.isdigit()` on ASCII: non-empty and every character a digit. */
  predicate IsDigits(s: string)
  {
    |s| > 0 && forall i :: 0 <= i < |s| ==> IsDigit(s[i])
  }

  /** The value of a string of decimal digits. */
  function DigitsValue(s: string): nat
  {
    if s == [] then 0 else DigitsValue(s[..|s| - 1]) * 10 + DigitOf(s[|s| - 1])
  }

  /** The value of one decimal digit (0 for any other character). */
  function DigitOf(c: char): nat
  {
    if IsDigit(c) then c as int - '0' as int else 0
  }

  /** Whitespace stripped by `str.strip()`: the characters `str.isspace()` accepts. */
  predicate IsSpace(c: char)
  {
    c == ' ' || c == '\t' || c == '\n' || c == '\r' || c == '\U{B}' || c == '\U{C}'
    || '\U{1C}' <= c <= '\U{1F}' || c == '\U{85}' || c == '\U{A0}' || c == '\U{1680}'
    || '\U{2000}' <= c <= '\U{200A}' || c == '\U{2028}' || c == '\U{2029}' || c == '\U{202F}'
    || c == '\U{205F}' || c == '\U{3000}'
  }

  function LStrip(s: string): (r: string)
    ensures |r| <= |s| && r == s[|s| - |r|..]
    ensures r == [] || !IsSpace(r[0])
  {
    if |s| > 0 && IsSpace(s[0]) then LStrip(s[1..]) else s
  }

  function RStrip(s: string): (r: string)
    ensures |r| <= |s| && r == s[..|r|]
    ensures r == [] || !IsSpace(r[|r| - 1])
  {
    if |s| > 0 && IsSpace(s[|s| - 1]) then RStrip(s[..|s| - 1]) else s
  }

  /** `str.strip()`. */
  function Strip(s: string): (r: string)
    ensures |r| <= |s|
    ensures r == [] || (!IsSpace(r[0]) && !IsSpace(r[|r| - 1]))
  {
    RStrip(LStrip(s))
  }

  lemma StripUnchanged(s: string)
    requires s == [] || (!IsSpace(s[0]) && !IsSpace(s[|s| - 1]))
    ensures Strip(s) == s
  {
  }

  /** `int()` of a text with no surrounding whitespace parses the text as is. */
  lemma ParseIntOfTrimmed(s: string)
    requires s == [] || (!IsSpace(s[0]) && !IsSpace(s[|s| - 1]))
    ensures ParseInt(s) == ParseSigned(s)
  {
    StripUnchanged(s);
  }

  /** A single leading space is stripped off a text with no other
      surrounding whitespace. */
  lemma StripLeadingSpace(d: string)
    requires d != [] && !IsSpace(d[0]) && !IsSpace(d[|d| - 1])
    ensures Strip(" " + d) == d
  {
    assert (" " + d)[1..] == d;
    assert LStrip(" " + d) == LStrip(d);
  }

  /** The digits `int()` accepts: a digit, then digits, each possibly
      preceded by a single underscore ("1_000"). */
  predicate IsGroupedDigits(s: string)
  {
    |s| > 0 && IsDigit(s[0]) && IsGroupTail(s[1..])
  }

  /** What may follow a digit in grouped digits. */
  predicate IsGroupTail(s: string)
    decreases |s|
  {
    || s == []
    || (IsDigit(s[0]) && IsGroupTail(s[1..]))
    || (|s| >= 2 && s[0] == '_' && IsDigit(s[1]) && IsGroupTail(s[2..]))
  }

  /** The text without its underscores. */
  function DropUnderscores(s: string): (r: string)
    ensures |r| <= |s|
  {
    if s == [] then []
    else if s[0] == '_' then DropUnderscores(s[1..])
    else [s[0]] + DropUnderscores(s[1..])
  }

  /** The value of grouped digits: the underscores carry no value. */
  function GroupedValue(s: string): nat
  {
    DigitsValue(DropUnderscores(s))
  }

  /** `int(s)` on a string: surrounding whitespace, an optional sign, then
      decimal digits, possibly grouped by underscores; None where Python
      raises ValueError. */
  function ParseInt(s: string): Option<int>
  {
    ParseSigned(Strip(s))
  }

  /** An optional sign followed by grouped decimal digits. */
  function ParseSigned(t: string): Option<int>
  {
    if |t| > 0 && (t[0] == '-' || t[0] == '+') then
      if IsGroupedDigits(t[1..]) then
        var v: int := GroupedValue(t[1..]);
        Some(if t[0] == '-' then -v else v)
      else None
    else if IsGroupedDigits(t) then Some(GroupedValue(t))
    else None
  }

  /** A run of digits is a group tail and contains no underscore. */
  lemma {:induction false} DigitsAreGroupTail(d: string)
    requires forall i :: 0 <= i < |d| ==> IsDigit(d[i])
    ensures IsGroupTail(d) && DropUnderscores(d) == d
    decreases |d|
  {
    if d != [] {
      DigitsAreGroupTail(d[1..]);
    }
  }

  /** Plain digits are grouped digits with one group. */
  lemma DigitsAreGrouped(d: string)
    requires IsDigits(d)
    ensures IsGroupedDigits(d) && GroupedValue(d) == DigitsValue(d)
  {
    DigitsAreGroupTail(d[1..]);
    DigitsAreGroupTail(d);
  }

  /** Digits in front of a group tail give a group tail. */
  lemma {:induction false} DigitsBeforeGroupTail(d: string, t: string)
    requires forall i :: 0 <= i < |d| ==> IsDigit(d[i])
    requires IsGroupTail(t)
    ensures IsGroupTail(d + t)
    decreases |d|
  {
    if d != [] {
      DigitsBeforeGroupTail(d[1..], t);
      assert (d + t)[1..] == d[1..] + t;
    } else {
      assert d + t == t;
    }
  }

  lemma {:induction false} DropUnderscoresConcat(a: string, b: string)
    ensures DropUnderscores(a + b) == DropUnderscores(a) + DropUnderscores(b)
    decreases |a|
  {
    if a != [] {
      assert (a + b)[1..] == a[1..] + b;
      DropUnderscoresConcat(a[1..], b);
    } else {
      assert a + b == b;
    }
  }

  function DigitChar(d: nat): (c: char)
    requires d < 10
    ensures IsDigit(c) && c as int - '0' as int == d
  {
    ('0' as int + d) as char
  }

  /** The decimal digits of a natural number. */
  function NatDigits(n: nat): (s: string)
    ensures IsDigits(s)
    decreases n
  {
    if n < 10 then [DigitChar(n)] else NatDigits(n / 10) + [DigitChar(n % 10)]
  }

  /** `str(n)` for an integer. */
  function Decimal(n: int): (s: string)
    ensures |s| > 0
  {
    if n < 0 then "-" + NatDigits(-n) else NatDigits(n)
  }

  lemma {:induction false} DigitsValueOfNatDigits(n: nat)
    ensures DigitsValue(NatDigits(n)) == n
    decreases n
  {
    if n >= 10 {
      DigitsValueOfNatDigits(n / 10);
      var s := NatDigits(n / 10) + [DigitChar(n % 10)];
      assert s[..|s| - 1] == NatDigits(n / 10);
    }
  }

  lemma DigitIsNotSpace(c: char)
    requires IsDigit(c)
    ensures !IsSpace(c)
  {
  }

  lemma ParseIntOfDigits(d: string)
    requires IsDigits(d)
    ensures ParseInt(d) == Some(DigitsValue(d))
  {
    DigitIsNotSpace(d[0]);
    DigitIsNotSpace(d[|d| - 1]);
    ParseIntOfTrimmed(d);
    DigitsAreGrouped(d);
    assert ParseSigned(d) == Some(DigitsValue(d));
  }

  lemma DigitsConcat(a: string, b: string)
    requires IsDigits(a) && IsDigits(b)
    ensures IsDigits(a + b)
  {
    forall i | 0 <= i < |a + b| ensures IsDigit((a + b)[i]) {
      if i < |a| { assert (a + b)[i] == a[i]; } else { assert (a + b)[i] == b[i - |a|]; }
    }
  }

  /** Two runs of digits joined by an underscore are grouped digits. */
  lemma GroupedByUnderscore(a: string, b: string)
    requires IsDigits(a) && IsDigits(b)
    ensures IsGroupedDigits(a + "_" + b)
  {
    var u := "_" + b;
    DigitsAreGroupTail(b[1..]);
    assert u[2..] == b[1..] && u[1] == b[0];
    assert IsGroupTail(u);
    DigitsBeforeGroupTail(a[1..], u);
    var s := a + "_" + b;
    assert s[0] == a[0];
    assert s[1..] == a[1..] + u;
  }

  /** The underscore joining two runs of digits carries no value. */
  lemma DropJoiningUnderscore(a: string, b: string)
    requires IsDigits(a) && IsDigits(b)
    ensures DropUnderscores(a + "_" + b) == a + b
  {
    var u := "_" + b;
    assert a + "_" + b == a + u;
    DigitsAreGroupTail(a);
    DigitsAreGroupTail(b);
    assert u[1..] == b;
    assert DropUnderscores(u) == b;
    DropUnderscoresConcat(a, u);
  }

  /** An underscore between two runs of digits is ignored: `int("1_000")`
      is 1000. */
  lemma UnderscoreBetweenDigitsIgnored(a: string, b: string)
    requires IsDigits(a) && IsDigits(b)
    ensures ParseInt(a + "_" + b) == ParseInt(a + b) == Some(DigitsValue(a + b))
  {
    var s := a + "_" + b;
    DigitIsNotSpace(a[0]);
    DigitIsNotSpace(b[|b| - 1]);
    assert s[0] == a[0] && s[|s| - 1] == b[|b| - 1];
    ParseIntOfTrimmed(s);
    GroupedByUnderscore(a, b);
    DropJoiningUnderscore(a, b);
    assert s[0] != '-' && s[0] != '+';
    assert ParseSigned(s) == Some(DigitsValue(a + b));
    DigitsConcat(a, b);
    ParseIntOfDigits(a + b);
  }

  /** An underscore that does not stand between two digits is refused. */
  lemma MisplacedUnderscoreRefused()
    ensures ParseInt("_1") == None && ParseInt("1_") == None && ParseInt("1__0") == None
  {
    assert !IsGroupedDigits("_1") && !IsGroupedDigits("1_");
    assert !IsGroupedDigits("1__0") by {
      assert "1__0"[1] == '_' && "1__0"[2] == '_';
    }
    StripUnchanged("_1");
    StripUnchanged("1_");
    StripUnchanged("1__0");
  }

  lemma ParseIntOfNegativeDigits(d: string)
    requires IsDigits(d)
    ensures ParseInt("-" + d) == Some(0 - DigitsValue(d))
  {
    var s := "-" + d;
    assert s[0] == '-' && s[1..] == d;
    assert s[|s| - 1] == d[|d| - 1];
    DigitIsNotSpace(d[|d| - 1]);
    ParseIntOfTrimmed(s);
    DigitsAreGrouped(d);
    assert ParseSigned(s) == Some(0 - DigitsValue(d));
  }

  /** Parsing the decimal rendering of an integer gives the integer back. */
  lemma {:induction false} ParseIntDecimal(n: int)
    ensures ParseInt(Decimal(n)) == Some(n)
  {
    if n < 0 {
      var d := NatDigits(-n);
      DigitsValueOfNatDigits(-n);
      ParseIntOfNegativeDigits(d);
      assert Decimal(n) == "-" + d && 0 - DigitsValue(d) == n;
    } else {
      var d := NatDigits(n);
      DigitsValueOfNatDigits(n);
      ParseIntOfDigits(d);
      assert Decimal(n) == d && DigitsValue(d) == n;
    }
  }

  /** `str(a) == str(b)` exactly when `a == b`. */
  lemma DecimalInjective(a: int, b: int)
    ensures Decimal(a) == Decimal(b) <==> a == b
  {
    if Decimal(a) == Decimal(b) {
      ParseIntDecimal(a);
      ParseIntDecimal(b);
    }
  }

  /** `sub` occurs in `s` at position `j`. */
  predicate OccursAt(s: string, sub: string, j: int)
  {
    0 <= j && j + |sub| <= |s| && s[j..j + |sub|] == sub
  }

  /** `s.find(sub)`: the first position of `sub` in `s`. */
  function IndexOf(s: string, sub: string): (r: Option<nat>)
    ensures r.Some? ==> OccursAt(s, sub, r.value)
    ensures r.Some? ==> forall j :: 0 <= j < r.value ==> !OccursAt(s, sub, j)
    ensures r.None? ==> forall j :: !OccursAt(s, sub, j)
    decreases |s|
  {
    if |sub| > |s| then None
    else if s[..|sub|] == sub then Some(0)
    else
      match IndexOf(s[1..], sub)
      case None =>
        assert forall j :: OccursAt(s, sub, j) && j > 0 ==> OccursAt(s[1..], sub, j - 1);
        None
      case Some(i) =>
        assert forall j :: OccursAt(s, sub, j) && j > 0 ==> OccursAt(s[1..], sub, j - 1);
        assert s[1..][i..i + |sub|] == s[i + 1..i + 1 + |sub|];
        Some(i + 1)
  }

  /** `sub in s`. */
  predicate Contains(s: string, sub: string)
  {
    IndexOf(s, sub).Some?
  }

  /** `s.split(sep)` for a non-empty separator. */
  function Split(s: string, sep: string): (parts: seq<string>)
    requires |sep| > 0
    ensures |parts| >= 1
    ensures Contains(s, sep) ==> |parts| >= 2
    decreases |s|
  {
    match IndexOf(s, sep)
    case None => [s]
    case Some(i) => [s[..i]] + Split(s[i + |sep|..], sep)
  }

  /** `sep.join(parts)`. */
  function Join(parts: seq<string>, sep: string): string
  {
    if parts == [] then ""
    else if |parts| == 1 then parts[0]
    else parts[0] + sep + Join(parts[1..], sep)
  }

  /** Splitting and joining again with the same separator gives the string back. */
  lemma {:induction false} JoinSplit(s: string, sep: string)
    requires |sep| > 0
    ensures Join(Split(s, sep), sep) == s
    decreases |s|
  {
    match IndexOf(s, sep)
    case None =>
    case Some(i) =>
      var rest := s[i + |sep|..];
      JoinSplit(rest, sep);
      assert s == s[..i] + sep + rest;
  }

  /** `s.split(sep)[0]`: everything before the first `sep`. */
  function BeforeFirst(s: string, sep: string): (r: string)
    requires |sep| > 0
    ensures r == Split(s, sep)[0]
    ensures !Contains(r, sep)
    ensures |r| <= |s| && r == s[..|r|]
  {
    match IndexOf(s, sep)
    case None => s
    case Some(i) =>
      assert forall j :: OccursAt(s[..i], sep, j) ==> OccursAt(s, sep, j);
      s[..i]
  }

  /** The first occurrence is where `IndexOf` reports it. */
  lemma IndexOfFirst(s: string, sep: string, k: nat)
    requires OccursAt(s, sep, k)
    requires forall j :: 0 <= j < k ==> !OccursAt(s, sep, j)
    ensures IndexOf(s, sep) == Some(k)
  {
  }

  /** No character of `p` can start an occurrence of `sep` in `p + q`. */
  lemma NoOccurrenceInPrefix(p: string, q: string, sep: string)
    requires |sep| > 0
    requires forall j :: 0 <= j < |p| ==> p[j] != sep[0]
    ensures forall j :: 0 <= j < |p| ==> !OccursAt(p + q, sep, j)
  {
    var s := p + q;
    forall j | 0 <= j < |p|
      ensures !OccursAt(s, sep, j)
    {
      if j + |sep| <= |s| {
        assert s[j..j + |sep|][0] == s[j] == p[j];
      }
    }
  }

  /** An occurrence in `p + q` at or after `|p|` is an occurrence in `q`. */
  lemma OccurrenceInSuffix(p: string, q: string, sep: string, j: int)
    requires |p| <= j && OccursAt(p + q, sep, j)
    ensures OccursAt(q, sep, j - |p|)
  {
    assert q[j - |p|..j - |p| + |sep|] == (p + q)[j..j + |sep|];
  }

  /** A prefix in which the separator's first character never appears
      cannot hold the first occurrence. */
  lemma BeforeFirstAfterPrefix(p: string, q: string, sep: string)
    requires |sep| > 0
    requires forall j :: 0 <= j < |p| ==> p[j] != sep[0]
    ensures BeforeFirst(p + q, sep) == p + BeforeFirst(q, sep)
  {
    var s := p + q;
    NoOccurrenceInPrefix(p, q, sep);
    match IndexOf(q, sep)
    case None =>
      forall j | OccursAt(s, sep, j)
        ensures false
      {
        if j >= |p| {
          OccurrenceInSuffix(p, q, sep, j);
        }
      }
      assert IndexOf(s, sep).None?;
      assert BeforeFirst(s, sep) == s && BeforeFirst(q, sep) == q;
    case Some(i) =>
      assert s[|p| + i..|p| + i + |sep|] == q[i..i + |sep|];
      forall j | 0 <= j < |p| + i
        ensures !OccursAt(s, sep, j)
      {
        if j >= |p| && OccursAt(s, sep, j) {
          OccurrenceInSuffix(p, q, sep, j);
        }
      }
      IndexOfFirst(s, sep, |p| + i);
      assert BeforeFirst(s, sep) == s[..|p| + i] && BeforeFirst(q, sep) == q[..i];
      assert s[..|p| + i] == p + q[..i];
  }

  /** Everything before the first separator is empty when the text starts
      with it. */
  lemma BeforeFirstAtStart(q: string, sep: string)
    requires |sep| > 0
    ensures BeforeFirst(sep + q, sep) == ""
  {
    assert (sep + q)[..|sep|] == sep;
  }

  /** The second piece of a split of a text that starts with the separator. */
  lemma SplitSecondAtStart(q: string, sep: string)
    requires |sep| > 0
    ensures |Split(sep + q, sep)| >= 2 && Split(sep + q, sep)[1] == BeforeFirst(q, sep)
  {
    var s := sep + q;
    assert s[..|sep|] == sep;
    assert s[|sep|..] == q;
  }

  /** `str(n)` holds only digits and possibly a leading minus sign. */
  lemma DecimalChars(n: int)
    ensures var d := Decimal(n);
      (forall i :: 0 <= i < |d| ==> IsDigit(d[i]) || d[i] == '-') && IsDigit(d[|d| - 1])
  {
    var d := Decimal(n);
    if n < 0 {
      var m := NatDigits(-n);
      assert d == "-" + m;
      assert forall i :: 1 <= i < |d| ==> d[i] == m[i - 1];
    }
  }

  function LowerChar(c: char): char
  {
    if 'A' <= c <= 'Z' then (c as int + 32) as char else c
  }

  function UpperChar(c: char): char
  {
    if 'a' <= c <= 'z' then (c as int - 32) as char else c
  }

  /** `str.lower()` on ASCII letters. */
  function Lower(s: string): (r: string)
    ensures |r| == |s| && forall i :: 0 <= i < |s| ==> r[i] == LowerChar(s[i])
  {
    seq(|s|, i requires 0 <= i < |s| => LowerChar(s[i]))
  }

  /** `str.upper()` on ASCII letters. */
  function Upper(s: string): (r: string)
    ensures |r| == |s| && forall i :: 0 <= i < |s| ==> r[i] == UpperChar(s[i])
  {
    seq(|s|, i requires 0 <= i < |s| => UpperChar(s[i]))
  }
}
